=== FILE: README.md ===
# mo — a Dafny model of the viewer's logic

`mo` is a live-reloading Markdown viewer. The command line hands files to a
small HTTP server, which groups them into named tab groups. A browser
single-page application lists the groups and files, renders the selected
document and reloads when the server announces a change over server-sent
events.

This project models the deterministic logic of that system as pure Dafny
functions over immutable datatypes, and proves what the code promises about
each of them.

| file | module | models |
|---|---|---|
| `wrappers.dfy` | `Wrappers` | `Option` |
| `text.dfy` | `Text` | the JavaScript string built-ins the code relies on: `split(c)[0]`, `split(c).pop()`, `String(n)` and `parseInt(s, 10)` |
| `resolve.dfy` | `Resolve` | link classification, image sources and the code-fence language tag |
| `extract_text.dfy` | `NodeText` | flattening a React node tree to text |
| `groups.dfy` | `Groups` | the catalog (groups of file entries), the set of its ids and the URL-path → group mapping |
| `app.dfy` | `App` | the client's catalog synchroniser: refresh, selection repair, sidebar visibility, file-changed revision bump, group switch |
| `headings.dfy` | `Headings` | the outline collected during a render, and the key that decides whether it is published |
| `viewer.dfy` | `Viewer` | the document viewer: code dispatch, link attributes, the link-click guard, the content fetch, render-and-publish |
| `active_heading.dfy` | `ActiveHeading` | which heading the table of contents highlights |
| `sse.dfy` | `Sse` | the server-sent-events hook, end to end from server event to client state |
| `server.dfy` | `Server` | the server's catalog, id allocation, lookups, the add/open request handlers and the raw-file directory check |
| `panels.dfy` | `Panels` | the sidebar and contents panels: stored width, drag resize, rows and highlight |
| `group_dropdown.dfy` | `GroupDropdown` | the group switcher's render table and menu behaviour |
| `cli.dfy` | `Cli` | the command: add to a running server or start a new one, the browser URL and the starting catalog |

These inputs are parameters rather than modelled code:
- the file system: `filepath.Dir`, `filepath.Clean(filepath.Join(..))` and `os.Stat`;
- the network: the catalog a fetch returns, and the running server's answer;
- the DOM: which heading elements exist, and which are reported intersecting.

Asynchronous completion is modelled as an explicit event applied to the state. A cancelled effect is represented by a generation number that no longer matches.

The client's set of known file ids is *replaced* by the ids of each fetched catalog, so it can shrink (`App.tsx:35`). A file that disappears and comes back with the same id is therefore "added" again.

Where the code and its tests disagree, the model follows the code:
- **Table-of-contents indentation.** Level 1 and level 2 headings are both indented `pl-3`, and level 3 is `pl-6` (`TocPanel.tsx:29-36`). The component test expects one step deeper.
- **Sidebar tooltip.** A sidebar row's tooltip is the file name (`Sidebar.tsx:82`). The test expects the path.
- **Default group in the menu.** The group menu shows an icon for the default group (`GroupDropdown.tsx:84-87`). The test expects the text `(default)`.

## Model

| member | source | states |
|---|---|---|
| Text.BeforeFirst | internal/frontend/src/utils/resolve.ts:22 | `href.split("#")[0]`: a prefix of the input with no `#` that ends where the first `#` is, or at the end |
| Text.LastSegment | internal/frontend/src/utils/resolve.ts:26 | `split("/").pop()`: a suffix with no `/`, preceded by a `/` unless it is the whole string |
| Text.IntToString | internal/frontend/src/utils/extractText.ts:5 | `String(n)` for integers: the digits denote the value, with a leading `-` exactly for negatives, and the text is canonical: no leading `0` except for zero itself |
| Text.ParseIntRoundTrip | internal/frontend/src/components/Sidebar.tsx:12 | `parseInt(s, 10)` reads back every integer that `String(n)` wrote |
| Text.ReadsAllDigits | internal/frontend/src/components/Sidebar.tsx:12 | `parseInt(s, 10)` reads a nonempty string of digits as its value |
| Text.ReadsNoDigit | internal/frontend/src/components/Sidebar.tsx:12 | `parseInt(s, 10)` is `NaN` for a string that starts with anything but white space, a sign or a digit, and for one that holds no digit at all |
| Text.ParseIntReadsDigits | internal/frontend/src/components/Sidebar.tsx:12 | `parseInt(s, 10)` reads a string of digits as its value. A string that starts with anything but white space, a sign or a digit is `NaN`, and so is one that holds no digit at all |
| Text.IntToStringInjective | internal/frontend/src/components/Sidebar.tsx:64 | distinct widths are stored as distinct texts |
| Resolve.ResolveLink | internal/frontend/src/utils/resolve.ts:8-31 | each of the five variants holds exactly when its condition on the href holds. The conditions are stated independently of the computation: absent/empty/http(s); `#`; the fragment-free path ends in `.md`; the path's last segment has a `.`; anything else. The markdown variant carries the fragment-free path. The file variant's URL carries the whole href, fragment included |
| Resolve.FragmentFreeIsBeforeFirst | internal/frontend/src/utils/resolve.ts:22 | the fragment-free path of an href exists and is unique |
| Resolve.ExtensionInLastSegment | internal/frontend/src/utils/resolve.ts:26-27 | the `pop()`-then-`includes(".")` test agrees with a direct definition: the text after the last `/` contains a `.` |
| Resolve.ResolveLinkIgnoresFileIdOutsideFiles | internal/frontend/src/utils/resolve.ts:8-31 | the document id changes nothing but the file variant's URL |
| Resolve.ResolveLinkExternalExamples | internal/frontend/src/utils/resolve.ts:12-21 | absent and `https://` hrefs are external; `#section` is a hash link |
| Resolve.ResolveLinkMarkdownExample | internal/frontend/src/utils/resolve.ts:22-25 | `readme.md#title` is a markdown link to `readme.md` |
| Resolve.ResolveLinkFileExample | internal/frontend/src/utils/resolve.ts:26-29 | `data.csv#sheet1` is a file link whose URL keeps `#sheet1` |
| Resolve.ResolveLinkPassthroughExample | internal/frontend/src/utils/resolve.ts:26-30 | `dir/` (empty last segment) passes through |
| Resolve.ResolveImageSrc | internal/frontend/src/utils/resolve.ts:33-41 | an absent, empty or http(s) source is unchanged, and the result is absent exactly when the source is. Any other source becomes exactly `/_/api/files/` + the id in decimal + `/raw/` + the source, which differs from the source and ends with it |
| Resolve.ImageUrlNamesDocument | internal/frontend/src/utils/resolve.ts:37-39 | a rewritten image URL starts with the raw-asset prefix. The segment after the prefix, up to the next `/`, is the document id in decimal, and `parseInt` reads it back as that id |
| Resolve.ImageSrcAgreesWithFileLink | internal/frontend/src/utils/resolve.ts:28-38 | an image source and a file link with the same text resolve to the same URL |
| Resolve.ExtractLanguage | internal/frontend/src/utils/resolve.ts:43-48 | `None` exactly when `/language-(\w+)/` matches nowhere; otherwise the result is the non-empty, longest word run after the leftmost match |
| Resolve.ExtractLanguageExample | internal/frontend/src/utils/resolve.ts:46-47 | `foo language-python bar` gives `python` |
| Resolve.ExtractLanguageAbsent | internal/frontend/src/utils/resolve.ts:46-47 | an absent or empty class name has no language |
| NodeText.ExtractText | internal/frontend/src/utils/extractText.ts:3-12 | a node's text equals the concatenation of its string and number leaves, depth first. The leaves are an independent reference definition |
| NodeText.JoinTexts | internal/frontend/src/utils/extractText.ts:6 | the same holds for the children of an array: the concatenation of their leaves, in order |
| NodeText.JoinTextsAppend | internal/frontend/src/utils/extractText.ts:6 | joining the texts of `a ++ b` is joining those of `a`, then those of `b` |
| NodeText.ArrayTextSplits | internal/frontend/src/utils/extractText.ts:6 | text(array(a ++ b)) = text(array(a)) + text(array(b)) |
| NodeText.NoLeavesNoText | internal/frontend/src/utils/extractText.ts:7-11 | a tree with no string or number leaf has empty text. This covers null/undefined, booleans and empty elements |
| NodeText.ExtractTextExamples | internal/frontend/src/utils/extractText.ts:4-11 | a string and a number in an array give `chapter 3`; an empty element and both booleans give the empty text |
| NodeText.ExtractTextNestedExample | internal/frontend/src/utils/extractText.ts:6-9 | nested elements flatten to `prefix bold suffix` |
| Groups.AllFileIds | internal/frontend/src/utils/groups.ts:3-11 | an id is in the set exactly when some file of some group has it |
| Groups.CollectFileIds | internal/frontend/src/utils/groups.ts:3-11 | the two nested loops compute exactly that set |
| Groups.AllFileIdsAppend | internal/frontend/src/utils/groups.ts:5-8 | the ids of two catalogs put together are the union of their ids, so a repeated id counts once |
| Groups.EmptyGroupAddsNothing | internal/frontend/src/utils/groups.ts:5-8 | a group without files contributes no id |
| Groups.AllFileIdsExample | internal/frontend/src/utils/groups.ts:3-11 | groups `empty` and `notempty` (id 5) give `{5}`; no groups give `{}` |
| Groups.FindGroup | internal/frontend/src/App.tsx:42 | `None` exactly when no group has the name. Otherwise the result is the first catalog group with that name, and its ids are among the catalog's |
| Groups.ParseGroupFromPath | internal/frontend/src/utils/groups.ts:13-16 | never empty; `""`, `/` and `//` give `default`. A non-default result is the path with at most one leading and at most one trailing `/` removed |
| Groups.ParseGroupFromPathStrips | internal/frontend/src/utils/groups.ts:13-16 | at most one `/` goes from each end: an optional `/`, a name and an optional `/` give back exactly the name (or `default` when it is empty), even when the name has a further `/` at an end that carried one |
| Groups.ParseGroupFromPathExamples | internal/frontend/src/utils/groups.ts:13-16 | `/`, `""` → `default`; `/design` → `design`; `/docs/` → `docs`; `notes` → `notes` |
| App.RestoreGroupFromLocation | internal/frontend/src/App.tsx:63-68 | a non-default group named by the location becomes active; nothing else changes |
| App.MaxNewId | internal/frontend/src/App.tsx:44-48 | the largest of a group's ids that are not yet known; `None` exactly when there is none |
| App.Refresh | internal/frontend/src/App.tsx:25-57 | a failed fetch changes nothing. Otherwise the catalog is replaced and the known ids become exactly the fetched ids. If the active group holds newly added ids, the largest becomes active; otherwise the selection is kept. The active group never changes |
| App.RefreshSelectsNewestAdded | internal/frontend/src/App.tsx:28-50 | known `{1,2}`, fetched `default` = 1, 2, 5, 7: file 7 is selected |
| App.RefreshIdempotent | internal/frontend/src/App.tsx:25-57 | a second refresh with the same catalog changes nothing |
| App.RepairSelection | internal/frontend/src/App.tsx:70-79 | afterwards the state is settled. A settled state is unchanged; otherwise the active group's first file becomes active. Only the selection changes |
| App.RepairReplacesStaleSelection | internal/frontend/src/App.tsx:70-79 | a stale file 99 in group `docs` = 1, 2 becomes 1 |
| App.RepairKeepsSelectionWithoutFiles | internal/frontend/src/App.tsx:71-72 | a missing or empty active group leaves the selection, possibly empty, as it is |
| App.SyncSidebar | internal/frontend/src/App.tsx:88-93 | for an existing active group the sidebar is open exactly when it has at least two files. A missing group leaves the sidebar as it is |
| App.ToggleSidebar | internal/frontend/src/App.tsx:137 | the header button flips the sidebar and changes nothing else. See App.SyncOverridesToggle for how long the flip lasts |
| App.SyncOverridesToggle | internal/frontend/src/App.tsx:88-93 | a manual toggle lasts only until the sidebar effect runs again. For an existing active group the effect decides alone; for a missing group the toggle survives it. Toggling twice restores the state |
| App.Settle | internal/frontend/src/App.tsx:70-93 | after both effects the state is settled and only the selection and the sidebar have changed. A settled selection is kept, the sidebar shows exactly when an existing active group has two or more files, and a missing group changes nothing |
| App.SettleOrderIrrelevant | internal/frontend/src/App.tsx:70-93 | the two effects commute |
| App.SettleIsIdempotent | internal/frontend/src/App.tsx:70-93 | running both effects again changes nothing |
| App.OnFileChanged | internal/frontend/src/App.tsx:99-106 | the revision goes up by one exactly when the id is the active file's; nothing else changes |
| App.GroupUrl | internal/frontend/src/App.tsx:112 | `/` for the default group, and `/` followed by the name for any other group |
| App.GroupUrlRoundTrip | internal/frontend/src/App.tsx:109-114 | parsing the URL of a routable group name gives the name back |
| App.LocationRoundTrip | internal/frontend/src/utils/groups.ts:13-16 | the other direction: building the URL of a parsed `/name` location gives the location back |
| App.GroupChange | internal/frontend/src/App.tsx:109-114 | the group becomes active, the selection is cleared, and the location becomes `GroupUrl(name)`, which reads back as the group when the name is routable. Nothing else changes |
| App.ReloadRestoresGroup | internal/frontend/src/App.tsx:63-68 | reloading the page after a switch restores the group |
| App.GroupChangeSelectsFirstFile | internal/frontend/src/App.tsx:70-79 | after a switch to a group with files, settling selects its first file |
| App.SelectFile | internal/frontend/src/App.tsx:116-118 | the chosen file becomes active and nothing else changes. See App.ChosenFileStaysSelected for what the effects that follow do to it |
| App.ChosenFileStaysSelected | internal/frontend/src/App.tsx:70-85 | a file of the active group, once chosen, survives the effects that follow and is not replaced by the first file. When the group's ids are distinct, the title becomes that file's name |
| App.DocumentTitle | internal/frontend/src/App.tsx:81-85 | `mo` when no group or file is active, or when no file of the active group has the active id. Otherwise it is the name of the first file of the active group with that id |
| App.FindFileIn | internal/frontend/src/App.tsx:83 | `find`: the first file with the id. `None` exactly when no file has it |
| Headings.CollectHeadings | internal/frontend/src/components/MarkdownViewer.tsx:246-268 | each entry comes from a heading with a non-empty id, and every such heading gives one. No heading is lost when all have ids |
| Headings.CollectHeadingsAppend | internal/frontend/src/components/MarkdownViewer.tsx:248-254 | collection keeps render order: collecting over `a ++ b` is collecting over `a`, then `b` |
| Headings.Outline | internal/frontend/src/components/MarkdownViewer.tsx:344 | the raw view publishes the empty outline; otherwise the collected one |
| Headings.JoinedKey | internal/frontend/src/components/MarkdownViewer.tsx:345 | the written key is empty exactly for the empty outline |
| Headings.HeadingsKey | internal/frontend/src/components/MarkdownViewer.tsx:345 | the written key of an outline is empty exactly for the empty outline. Otherwise it starts with the first heading's `id:level` entry |
| Headings.PublishAsWritten | internal/frontend/src/components/MarkdownViewer.tsx:342-350 | the outline is passed on, and its key kept, exactly when the written key differs from the last one |
| Headings.HeadingsKeySeparatesShapes | internal/frontend/src/components/MarkdownViewer.tsx:345-346 | while no id holds a `,`, two outlines have the same written key exactly when their ids and levels agree |
| Headings.JoinedKeyInjective | internal/frontend/src/components/MarkdownViewer.tsx:345 | for ids without `,`, equal joined keys come from equal sequences of `id:level` entries |
| Headings.KeyPartInjective | internal/frontend/src/components/MarkdownViewer.tsx:345 | for ids without `,`, one `id:level` entry determines its id and level |
| Headings.TextOnlyChangeKeepsKey | internal/frontend/src/components/MarkdownViewer.tsx:345-349 | outlines that differ only in heading text share a key, so a text edit is not republished |
| Headings.HeadingsKeyCollision | internal/frontend/src/components/MarkdownViewer.tsx:345-346 | two outlines with different ids have the same written key, so the change is not published (see Findings) |
| Headings.ShapeKey | internal/frontend/src/components/MarkdownViewer.tsx:345 | the length-prefixed key is empty exactly for the empty outline |
| Headings.ShapeKeyRoundTrip | internal/frontend/src/components/MarkdownViewer.tsx:345 | decoding the length-prefixed key gives back the ids and levels |
| Headings.ShapeKeyInjective | internal/frontend/src/components/MarkdownViewer.tsx:345-346 | equal length-prefixed keys mean equal ids and levels |
| Headings.OutlineKey | internal/frontend/src/components/MarkdownViewer.tsx:345 | the injective key of an outline is empty exactly for the empty outline, and it decodes back to the outline's ids and levels |
| Headings.Publish | internal/frontend/src/components/MarkdownViewer.tsx:342-350 | the outline is passed on exactly when its ids or levels differ from those of the outline published last |
| Headings.PublishSeparatesCollision | internal/frontend/src/components/MarkdownViewer.tsx:345-348 | the two outlines the written key confuses are told apart |
| Headings.PublishOnce | internal/frontend/src/components/MarkdownViewer.tsx:346-348 | the same outline twice is published once |
| Viewer.StripTrailingNewline | internal/frontend/src/components/MarkdownViewer.tsx:272 | the text is the result plus one `\n` if it ended in one; otherwise it is unchanged |
| Viewer.StripRemovesOneNewline | internal/frontend/src/components/MarkdownViewer.tsx:272 | only one newline goes: `s\n\n` keeps `s\n` |
| Viewer.CodeDispatch | internal/frontend/src/components/MarkdownViewer.tsx:270-284 | inline code (class and text untouched) exactly when there is no language. A diagram exactly for `mermaid`, a highlighted block for any other language, both on the stripped text |
| Viewer.CodeDispatchExample | internal/frontend/src/components/MarkdownViewer.tsx:270-278 | a `python` fence is highlighted without its final newline |
| Viewer.LinkAttrs | internal/frontend/src/components/MarkdownViewer.tsx:288-325 | a `target` or `rel` the anchor carries itself wins. Otherwise a new tab with `noopener noreferrer` exactly for external links. The raw URL for file links; the original href for the others. A click handler exactly for markdown links, with the fragment-free path |
| Viewer.NewTabExactlyExternal | internal/frontend/src/components/MarkdownViewer.tsx:288-299 | for an anchor with no `target` or `rel` of its own, a new tab and `noopener noreferrer` are set exactly for external links |
| Viewer.OwnTargetWins | internal/frontend/src/components/MarkdownViewer.tsx:293-299 | an external link's own `target="_self"` is kept, and a same-page `#s` link with its own `target` keeps it |
| Viewer.LinkClick | internal/frontend/src/components/MarkdownViewer.tsx:230-243 | ignored exactly when the path does not end in `.md` or is http(s); otherwise the server's answer (nothing on failure) is opened |
| Viewer.MarkdownLinksAreHandled | internal/frontend/src/components/MarkdownViewer.tsx:303-311 | every click handler the component installs passes the handler's own guard |
| Viewer.StartFetch | internal/frontend/src/components/MarkdownViewer.tsx:209-211 | a new fetch supersedes every earlier one and sets loading |
| Viewer.FetchSettled | internal/frontend/src/components/MarkdownViewer.tsx:212-224 | a cancelled fetch changes nothing. The current one shows its content, or `Failed to load file.`, and stops loading |
| Viewer.StaleFetchDiscarded | internal/frontend/src/components/MarkdownViewer.tsx:209-228 | in either completion order, only the newer fetch's result is shown |
| Viewer.ToggleRaw | internal/frontend/src/components/MarkdownViewer.tsx:363 | the toggle flips the view and changes nothing else, so it does not refetch. See Viewer.ToggleRawKeepsFetch |
| Viewer.ToggleRawKeepsFetch | internal/frontend/src/components/MarkdownViewer.tsx:209-228 | a toggle does not cancel the running fetch: its result lands the same whether the toggle comes before or after it. Toggling twice restores the state |
| Viewer.Render | internal/frontend/src/components/MarkdownViewer.tsx:342-350 | as written: the collected outline (empty in raw view) is passed on exactly when its `id:level` key differs from the remembered key, and that key is remembered. Only the key changes in the state. An outline with the same ids and levels as the one whose key is remembered is not passed on |
| Viewer.RawViewClearsOutline | internal/frontend/src/components/MarkdownViewer.tsx:344-348 | in raw view, after a non-empty outline was published, a render publishes the empty outline |
| Viewer.ToggleToRawClearsOutline | internal/frontend/src/components/MarkdownViewer.tsx:344-348 | pressing the source toggle on a document with headings empties the table of contents at the next render |
| Viewer.RerenderPublishesNothing | internal/frontend/src/components/MarkdownViewer.tsx:342-350 | rendering the same document again publishes nothing |
| Viewer.RenderPublishesOnShapeChange | internal/frontend/src/components/MarkdownViewer.tsx:342-350 | while no heading id holds a `,`, the viewer as written passes the outline on exactly when its ids or levels differ from those passed on last |
| Viewer.RenderMissesCollision | internal/frontend/src/components/MarkdownViewer.tsx:345-348 | after an outline with the one heading `a:1,b`, headings `a` and `b` at level 1 have different ids, yet the viewer as written publishes nothing (see Findings) |
| Viewer.RenderCorrected | internal/frontend/src/components/MarkdownViewer.tsx:342-350 | with the injective key, the collected outline is passed on exactly when its ids or levels differ from those of the outline passed on last |
| Viewer.RenderCorrectedSeesCollision | internal/frontend/src/components/MarkdownViewer.tsx:345-348 | with the injective key, the outline change in the finding is passed on |
| ActiveHeading.ObservedIds | internal/frontend/src/hooks/useActiveHeading.ts:15-17 | the ids observed are exactly the heading ids that have an element |
| ActiveHeading.SetupObserver | internal/frontend/src/hooks/useActiveHeading.ts:9-19 | without a container or headings the active id is cleared. Otherwise it is kept, even when nothing is observed |
| ActiveHeading.IntersectingIds | internal/frontend/src/hooks/useActiveHeading.ts:23-28 | the set holds exactly the ids some entry reports as intersecting |
| ActiveHeading.ObserverCallback | internal/frontend/src/hooks/useActiveHeading.ts:22-37 | the first intersecting heading in document order becomes active. With none the active id is unchanged. Any id set is one of the headings |
| ActiveHeading.FirstVisibleUnique | internal/frontend/src/hooks/useActiveHeading.ts:31-36 | there is only one first visible heading |
| ActiveHeading.IntersectingIdsAppend | internal/frontend/src/hooks/useActiveHeading.ts:23-28 | two batches report the union of their ids |
| ActiveHeading.ReportOrderIrrelevant | internal/frontend/src/hooks/useActiveHeading.ts:22-36 | the order of the entries does not matter |
| Sse.Mount | internal/frontend/src/hooks/useSSE.ts:12-13 | one connection is opened, with the first callbacks and no retry pending. See Sse.MountListens |
| Sse.MountListens | internal/frontend/src/hooks/useSSE.ts:12-26 | while only messages arrive, the mounted hook keeps its one connection and its state. Every call goes to the first render's callbacks, with at least one call per `update` event |
| Sse.MessagesKeepState | internal/frontend/src/hooks/useSSE.ts:15-26 | on an open connection messages never change the hook's state, and each `update` message makes a call |
| Sse.Rerender | internal/frontend/src/hooks/useSSE.ts:9-10 | each render replaces the callbacks without reconnecting |
| Sse.Step | internal/frontend/src/hooks/useSSE.ts:15-35 | `update` calls `onUpdate` once. A parsed `file-changed` calls `onFileChanged(id)` if that callback was supplied; a malformed one is ignored. An error on an open connection closes it and schedules one retry; on a closed one it changes nothing. A due retry calls `onUpdate` whether the connection is open or not, and with none pending a timer changes nothing. A closed connection delivers no message. The cleanup closes the connection and cancels no retry |
| Sse.Run | internal/frontend/src/hooks/useSSE.ts:12-35 | over any sequence of events the callbacks stay those the hook holds, a closed connection stays closed, and every call goes to those callbacks |
| Sse.RetryOutlivesUnmount | internal/frontend/src/hooks/useSSE.ts:28-35 | an error followed by the cleanup still leads to one `onUpdate` call when the retry fires: the cleanup does not cancel the timer |
| Sse.ClosedStaysClosed | internal/frontend/src/hooks/useSSE.ts:28-33 | a closed connection never reopens, and makes at most one `onUpdate` call per scheduled retry |
| Sse.ErrorThenAnything | internal/frontend/src/hooks/useSSE.ts:28-33 | after an error, whatever follows, at most one call is made and it is `onUpdate` |
| Sse.RetryUsesLatestCallbacks | internal/frontend/src/hooks/useSSE.ts:30-31 | the retry uses the callbacks current when it fires |
| Sse.DispatchUsesLatestCallbacks | internal/frontend/src/hooks/useSSE.ts:9-22 | every call uses the latest render's callbacks |
| Sse.Receive | internal/server/server.go:182-185 | the browser receives the server's event name, and the id exactly when one was sent |
| Sse.Perform | internal/frontend/src/App.tsx:95-107 | `onUpdate` refreshes the catalog. `onFileChanged` bumps the revision exactly for the active file and keeps the selection |
| Sse.AddFileReloadsOnce | internal/server/server.go:93 | a new file on the server makes an open client reload exactly once |
| Sse.FileChangeReachesViewer | internal/server/server.go:179-186 | a change to the shown file bumps the viewer's revision; a change to another file changes nothing |
| Server.BaseName | internal/server/server.go:80 | `filepath.Base`: never empty; `.` for the empty path; no `/` except the root. For a path not ending in `/`, it is the text after the last `/` |
| Server.BaseNameExamples | internal/server/server.go:80 | `/home/u/docs/readme.md` → `readme.md`, `/` → `/`, `""` → `.` |
| Server.NewStateWf | internal/server/server.go:43-61 | a fresh server satisfies the catalog invariant |
| Server.GroupIndex | internal/server/server.go:67 | the map lookup: the group with that name, or none |
| Server.PathIndex | internal/server/server.go:73-77 | the position of a listed path, or none exactly when no file has it |
| Server.AppendToGroup | internal/server/server.go:67-85 | the group is created when missing and gets the entry last; other groups are unchanged |
| Server.AddFile | internal/server/server.go:63-95 | no event exactly when the group already lists the path; then the listed entry is returned and nothing changes. Otherwise the entry (base name, next id, path) is appended last, the counter goes up by one and one `update` event is sent. Other groups never change |
| Server.AddFileTwice | internal/server/server.go:73-77 | adding the same path to the same group again returns the same entry and changes nothing |
| Server.AddFileCreatesGroup | internal/server/server.go:67-71 | after an add the group exists |
| Server.NewIdIsFresh | internal/server/server.go:79-84 | a new entry's id is above every id in use |
| Server.NewGroupKeepsWf | internal/server/server.go:67-85 | a new one-file group keeps the invariant |
| Server.ExtendedGroupWf | internal/server/server.go:79-85 | a group extended by a new path with a larger id keeps increasing ids and distinct paths |
| Server.ExtendedGroupKeepsWf | internal/server/server.go:79-85 | extending an existing group keeps the invariant |
| Server.ExtendedGroupIds | internal/server/server.go:79-85 | the new id stays below the raised counter and is not shared across groups |
| Server.AddFilePreservesWf | internal/server/server.go:63-95 | every add keeps the invariant: distinct group names, ids unique and below the counter, increasing within a group, paths not repeated in a group |
| Server.FindFile | internal/server/server.go:108-120 | nothing exactly when no file has the id; otherwise a catalog file with that id |
| Server.FindGroupForFile | internal/server/server.go:122-135 | `""` when no file has the id; otherwise the name of a group holding it |
| Server.SameGroupSameId | internal/server/server.go:79-85 | within a group, one id means one file |
| Server.SameIdSameGroup | internal/server/server.go:79-85 | files of two groups with the same id lie in the same group |
| Server.FindFileInNamedGroup | internal/server/server.go:108-135 | with the invariant, the file `FindFile` finds lies in the group `FindGroupForFile` names |
| Server.FindIdsByPath | internal/server/server.go:196-209 | an id is returned exactly when some file of some group has that path and id |
| Server.SamePathInTwoGroups | internal/server/server.go:73-85 | de-duplication is per group: one path in two groups gets two ids, and both are found by path |
| Server.AddRequestGroup | internal/server/server.go:268-271 | an empty group name means `default`; any other is kept |
| Server.HandleAdd | internal/server/server.go:263-273 | refused exactly when no file is at the path. Otherwise the file is listed in the requested (or default) group, and other groups are unchanged |
| Server.AddFileListsPath | internal/server/server.go:73-85 | after an add the group lists exactly the paths it listed before plus the new one |
| Server.OpenRelative | internal/server/server.go:351-384 | 404 exactly when the linking id is unknown, or when nothing exists at the resolved path. Otherwise the target is listed in the linking file's group, or `default` when that lookup gives the empty name |
| Server.OpenRelativeIsAdd | internal/server/server.go:373-378 | a relative link that opens is exactly an add request for the resolved path naming the linking file's group: same entry, state and events |
| Server.RawAccessAsWritten | internal/server/server.go:322-349 | unknown id → not found. Otherwise the resolved path is served exactly when its text starts with the directory's text |
| Server.RawAccess | internal/server/server.go:322-349 | the same, with the intended check. Whatever is served lies within the document's directory |
| Server.RawAccessStricter | internal/server/server.go:336-345 | the intended check never serves what the check as written refuses |
| Server.AllowedIsWithin | internal/server/server.go:340-345 | a path the intended check admits lies within the directory, element by element |
| Server.SiblingEscapes | internal/server/server.go:342 | a sibling directory whose name extends the directory's passes the text check but lies outside |
| Server.RawAccessSiblingEscape | internal/server/server.go:336-345 | the concrete case of the finding below |
| Panels.DefaultWidth | internal/frontend/src/components/Sidebar.tsx:4-6 | 260 for the sidebar, 240 for the contents panel, both within 180..480 |
| Panels.InitialWidth | internal/frontend/src/components/Sidebar.tsx:9-16 | always within 180..480. A stored text whose `parseInt` value is within range is used. Anything else (nothing stored, empty, no number, out of range) gives the default |
| Panels.Clamp | internal/frontend/src/components/Sidebar.tsx:46 | within range; an in-range value is kept; values below or above give the bound |
| Panels.DragTarget | internal/frontend/src/components/TocPanel.tsx:50-54 | the width a mouse position asks for: the mouse position itself for the sidebar, and for the contents panel the width that, added to the mouse position, makes the window width |
| Panels.DragFollowsMouse | internal/frontend/src/components/Sidebar.tsx:44-48 | moving the mouse right by `d` asks for a sidebar wider by `d` and a contents panel narrower by `d` |
| Panels.OnMouse | internal/frontend/src/components/Sidebar.tsx:36-54 | a press starts a drag and a release ends it. A move during a drag sets the clamped width: the mouse position for the sidebar, the window width minus it for the contents panel. Outside a drag nothing changes |
| Panels.WidthStaysInRange | internal/frontend/src/components/TocPanel.tsx:49-59 | no sequence of mouse events moves the width out of range |
| Panels.NoDragNoResize | internal/frontend/src/components/Sidebar.tsx:43-54 | without a press, moves and releases never change the width |
| Panels.PersistRoundTrip | internal/frontend/src/components/TocPanel.tsx:20-27 | every in-range width, once stored with `String(width)`, is read back as itself on the next load |
| Panels.SidebarFiles | internal/frontend/src/components/Sidebar.tsx:31-32 | the active group's files in order, or none |
| Panels.SidebarRows | internal/frontend/src/components/Sidebar.tsx:73-83 | one row per file, titled by its name, highlighted exactly when it is the active file |
| Panels.SidebarHighlightUnique | internal/frontend/src/components/Sidebar.tsx:76-80 | nothing is highlighted without an active file, and at most one row otherwise |
| Panels.Indent | internal/frontend/src/components/TocPanel.tsx:29-36 | the `INDENT` table with its `pl-3` fallback: `pl-` followed by 3·(level−1) units for levels 2..6, and 3 units otherwise |
| Panels.IndentDeepensByLevel | internal/frontend/src/components/TocPanel.tsx:29-36 | from level 2 to 6 the indent deepens by 3 units per level. Levels 1 and 2 share `pl-3`, and levels outside 1..6 indent like level 1 |
| Panels.TocRows | internal/frontend/src/components/TocPanel.tsx:83-105 | the placeholder exactly for no headings. Otherwise one entry per heading with its text and indent, highlighted exactly when it is the active heading |
| Panels.TocHighlightsActive | internal/frontend/src/components/TocPanel.tsx:92-96 | with distinct ids, exactly the chosen heading is highlighted |
| GroupDropdown.Menu | internal/frontend/src/components/GroupDropdown.tsx:62-95 | one entry per group in catalog order. Checked exactly for the active group; its name is shown exactly when it is not `default` |
| GroupDropdown.View | internal/frontend/src/components/GroupDropdown.tsx:29-61 | nothing exactly for at most one group with `default` active; a bare label for at most one group otherwise. For two or more groups, a button naming the active group unless it is `default`, with the menu exactly while open |
| GroupDropdown.OnEvent | internal/frontend/src/components/GroupDropdown.tsx:18-27 | the button flips the menu. Choosing reports the group and closes it. A press outside closes it, one inside leaves it as it is |
| GroupDropdown.OneCheckMark | internal/frontend/src/components/GroupDropdown.tsx:77-83 | at most one check mark, and none when the active group is not listed |
| GroupDropdown.ChooseSwitchesGroup | internal/frontend/src/components/GroupDropdown.tsx:72-75 | choosing an entry switches the viewer to it and closes the menu |
| Cli.Addr | cmd/root.go:102 | `localhost:` followed by the port in decimal |
| Cli.IsNewGroup | cmd/root.go:143-149 | true exactly when no running group has the target's name |
| Cli.ExistingServerUrl | cmd/root.go:174-179 | the browser opens exactly when not suppressed and the group is new or `--open` is given, always at `http://addr/target` |
| Cli.FreshServerPath | cmd/root.go:231-235 | no path exactly for the default group; otherwise the group's URL |
| Cli.FreshServerUrl | cmd/root.go:231-239 | nothing exactly with `--no-open`; otherwise `http://addr` plus that path |
| Cli.BrowserLandsOnTarget | cmd/root.go:231-235 | whichever server answers, the page opened shows the target group |
| Cli.Startup | cmd/root.go:196-200 | a new server's catalog satisfies the catalog invariant and has no group but the target |
| Cli.StartupIds | cmd/root.go:198-200 | distinct files are listed in the target group in command-line order with ids 1, 2, …, and the counter is one past them |
| Cli.Run | cmd/root.go:96-109 | a running server is used exactly when files were given and it answered. Each file is then posted to the target group. Otherwise a new server starts with the files if the port can be listened on, and a failed listen is an error naming the address, with no server and no browser. Each branch has its own browser rule |
| Cli.FailedListenOpensNothing | cmd/root.go:210-213 | when no running server takes the files and the port cannot be listened on, the command fails with an error naming `localhost:<port>`; no server runs and no browser opens |
| Cli.Deliver | cmd/root.go:151-170 | the running server handles the posts in order, and a refused post changes nothing. The catalog invariant is kept, and a group no post names is left as it was |
| Cli.DeliveredFilesListed | cmd/root.go:151-170 | once the running server has taken the posts, the target group lists every file given besides what it listed before |
| Cli.ExistingGroupStaysQuiet | cmd/root.go:174 | adding to an existing group opens nothing unless `--open` is given |
| Cli.OpenFlagAlwaysOpens | cmd/root.go:93 | with `--open` and `--no-open` mutually exclusive, `--open` opens a browser whichever server takes the files |

## Left out

- File system and process: `filepath.Abs`, `Dir`, `Join`/`Clean`, `os.Stat`, `os.ReadFile` and `http.ServeFile` are parameters or not modelled. Model paths are `/`-separated strings.
- `resolveFiles` (`cmd/root.go:111-124`): files reach the model already absolute and existing.
- HTTP and JSON: request decoding errors (400), the `strconv.Atoi` id parse, response encoding, `handleGroups`, `handleFileContent`, the SPA fallback and the SSE streaming handler are not modelled; ids are integers from the start.
- Subscribers and `sendEvent`: events are the list `AddFile` returns. The non-blocking send that drops an event for a full subscriber channel (`server.go:211-218`) is not modelled.
- `watchLoop` and fsnotify: only the lookup it makes (`FindIdsByPath`) and the event it sends (`Sse.Receive`) are modelled.
- Go map order: `Groups()` order is unspecified. Groups are a sequence, and no property depends on its order.
- Server.AddFile: ids are unbounded integers. Go's `int` counter cannot realistically wrap, so wrap-around is not modelled.
- Cli.Run: a POST that fails on the client side is logged and skipped (`cmd/root.go:165-168`). The model delivers every request; `Deliver` models the server's side, where a request for a missing file is refused.
- The `--open`/`--no-open` exclusion is enforced by the flag library before `run`. `Cli.ValidFlags` states it and `Cli.OpenFlagAlwaysOpens` relies on it, but `Cli.Run` does not require it.
- Timing: the 2000 ms retry delay and the 500 ms client timeout are not modelled as time. A retry is a `TimerFired` event, and a timeout is an absent answer.
- Diagram rendering (mermaid queue, theme observer), shiki highlighting, and the markdown/remark/rehype pipeline are not modelled. Heading nodes are given input.
- Floating point: number leaves of a node tree are integers.
- Viewer.LinkAttrs: of the attributes an anchor carries itself (`{...props}`), only `target` and `rel` are modelled; others such as `class` or `title` pass through unchanged in the source and are not represented.
- Observer geometry: which headings intersect is given as the entries of a callback.
- DOM-only behaviour is not modelled: cursor and selection styling during drags, scrolling to a heading on click, the copy button, the theme toggle, and the contents-panel open toggle (`App.tsx:19, 175`).
- `Panels.StorageKey` is a constant table and carries no contract.
- Mouse coordinates: `clientX` and `innerWidth` are integers in the model, whereas the DOM gives doubles. A fractional drag width, which `String` would store with a fraction and `parseInt` would truncate, is not modelled; Panels.PersistRoundTrip relies on this.
- Server.RawAccessAsWritten models the handler's own prefix check only. The router's cleaning of request paths and `http.ServeFile`'s refusal of `..` request paths are not modelled.
- The content-fetch cancellation flag of each effect instance is modelled as one generation number per viewer.

## Findings

| source | as written | input that shows it | evidently intended | confidence | as-written member | corrected member |
|---|---|---|---|---|---|---|
| internal/server/server.go:342 | raw access is allowed when the cleaned path's text starts with the directory's text | a document at `/docs/readme.md` and the raw path `../docs-secret/x`, which cleans to `/docs-secret/x` and passes the prefix check. End to end the request is stopped before this check matters: the router cleans request paths, and `http.ServeFile` refuses a request path with a `..` element | admit only the directory itself or paths below it (the prefix followed by a separator) | low (the check is unsound on its own, but no request is known to reach it with such a path), not executed | Server.RawAccessAsWritten, Server.RawAccessSiblingEscape | Server.RawAccess, Server.AllowedIsWithin |
| internal/frontend/src/components/MarkdownViewer.tsx:345 | the outline key is `id:level` entries joined with `,` | a raw-HTML heading `<h1 id="a:1,b">` replaced by headings `a` and `b` at level 1: both outlines have key `a:1,b:1`, so the new outline is never published | publish whenever the ids or levels change | low (ids with `,` need raw HTML; ids without one are keyed faithfully, see Viewer.RenderPublishesOnShapeChange), not executed | Headings.PublishAsWritten, Headings.HeadingsKeyCollision, Viewer.RenderMissesCollision | Headings.Publish, Headings.ShapeKeyInjective, Viewer.RenderCorrected |

=== FILE: active_heading.dfy ===
/**
 * The table of contents' active entry: the effect that (re)starts the
 * observer and the observer callback that picks the topmost visible
 * heading. The observer's geometry is abstracted away: a callback receives
 * entries that say, per observed heading id, whether it is intersecting.
 */
module ActiveHeading {
  import opened Wrappers

  /** The effect's outcome: the active id afterwards and the ids whose elements are observed. */
  datatype ObserverSetup = ObserverSetup(active: Option<string>, observed: seq<string>)

  /** The heading ids that have an element in the document, in order. */
  function ObservedIds(headingIds: seq<string>, present: set<string>): (r: seq<string>)
    ensures |r| <= |headingIds|
    ensures forall id :: id in r <==> id in headingIds && id in present
  {
    if |headingIds| == 0 then []
    else
      var rest := ObservedIds(headingIds[1..], present);
      assert forall id :: id in headingIds <==> id == headingIds[0] || id in headingIds[1..];
      if headingIds[0] in present then [headingIds[0]] + rest else rest
  }

  /**
   * The effect run when the heading ids or the scroll container change:
   * without a container or without headings the active id is cleared;
   * otherwise the headings that have an element are observed and the active
   * id is kept as it is, even when no heading has an element.
   */
  function SetupObserver(headingIds: seq<string>, hasContainer: bool, present: set<string>, active: Option<string>): (r: ObserverSetup)
    ensures !hasContainer || headingIds == [] ==> r == ObserverSetup(None, [])
    ensures hasContainer && headingIds != [] ==> r.active == active
    ensures forall id :: id in r.observed <==> hasContainer && id in headingIds && id in present
  {
    if !hasContainer || |headingIds| == 0 then ObserverSetup(None, [])
    else ObserverSetup(active, ObservedIds(headingIds, present))
  }

  /** One entry of an observer callback. */
  datatype ObserverEntry = ObserverEntry(id: string, isIntersecting: bool)

  /** Some entry reports `id` as intersecting. */
  predicate ReportedIntersecting(entries: seq<ObserverEntry>, id: string) {
    exists i :: 0 <= i < |entries| && entries[i].isIntersecting && entries[i].id == id
  }

  /** The set of ids the entries report as intersecting. */
  function IntersectingIds(entries: seq<ObserverEntry>): (r: set<string>)
    ensures forall id :: id in r <==> ReportedIntersecting(entries, id)
  {
    if |entries| == 0 then {}
    else
      var rest := IntersectingIds(entries[1..]);
      assert forall id :: ReportedIntersecting(entries, id) <==>
        (entries[0].isIntersecting && entries[0].id == id) || ReportedIntersecting(entries[1..], id) by {
        forall id | ReportedIntersecting(entries, id)
          ensures (entries[0].isIntersecting && entries[0].id == id) || ReportedIntersecting(entries[1..], id)
        {
          var i :| 0 <= i < |entries| && entries[i].isIntersecting && entries[i].id == id;
          if i > 0 {
            assert entries[1..][i - 1] == entries[i];
          }
        }
        forall id | ReportedIntersecting(entries[1..], id) ensures ReportedIntersecting(entries, id) {
          var i :| 0 <= i < |entries[1..]| && entries[1..][i].isIntersecting && entries[1..][i].id == id;
          assert entries[i + 1] == entries[1..][i];
        }
      }
      if entries[0].isIntersecting then {entries[0].id} + rest else rest
  }

  /** `headingIds[i]` is the first heading, in document order, that is in `visible`. */
  predicate IsFirstVisible(headingIds: seq<string>, visible: set<string>, i: int) {
    0 <= i < |headingIds| && headingIds[i] in visible &&
    forall j :: 0 <= j < i ==> headingIds[j] !in visible
  }

  /**
   * The observer callback: the active id becomes the first heading id, in
   * document order, that some entry reports as intersecting, whatever the
   * order of the entries; when none is, the active id stays as it is.
   */
  method ObserverCallback(headingIds: seq<string>, entries: seq<ObserverEntry>, active: Option<string>)
    returns (next: Option<string>)
    ensures (forall i :: 0 <= i < |headingIds| ==> !ReportedIntersecting(entries, headingIds[i])) ==> next == active
    ensures forall i :: IsFirstVisible(headingIds, IntersectingIds(entries), i) ==> next == Some(headingIds[i])
    ensures next == active || (next.Some? && next.value in headingIds)
  {
    var intersecting: set<string> := {};
    for k := 0 to |entries|
      invariant intersecting == IntersectingIds(entries[..k])
    {
      assert entries[..k + 1] == entries[..k] + [entries[k]];
      IntersectingIdsAppend(entries[..k], [entries[k]]);
      if entries[k].isIntersecting {
        intersecting := intersecting + {entries[k].id};
      }
    }
    assert entries[..|entries|] == entries;
    for k := 0 to |headingIds|
      invariant forall j :: 0 <= j < k ==> headingIds[j] !in intersecting
    {
      if headingIds[k] in intersecting {
        FirstVisibleUnique(headingIds, intersecting, k);
        return Some(headingIds[k]);
      }
    }
    return active;
  }

  /** There is at most one first visible heading. */
  lemma FirstVisibleUnique(headingIds: seq<string>, visible: set<string>, k: int)
    requires IsFirstVisible(headingIds, visible, k)
    ensures forall i :: IsFirstVisible(headingIds, visible, i) ==> i == k
  {
  }

  /** The ids reported by two batches of entries are those of each batch. */
  lemma {:induction false} IntersectingIdsAppend(a: seq<ObserverEntry>, b: seq<ObserverEntry>)
    ensures IntersectingIds(a + b) == IntersectingIds(a) + IntersectingIds(b)
    decreases a
  {
    if |a| == 0 {
      assert a + b == b;
    } else {
      assert (a + b)[1..] == a[1..] + b;
      IntersectingIdsAppend(a[1..], b);
    }
  }

  /**
   * The order in which the observer reports entries does not matter: the
   * topmost heading wins, not the most recently reported one.
   */
  lemma ReportOrderIrrelevant(a: seq<ObserverEntry>, b: seq<ObserverEntry>)
    ensures IntersectingIds(a + b) == IntersectingIds(b + a)
  {
    IntersectingIdsAppend(a, b);
    IntersectingIdsAppend(b, a);
  }
}

=== FILE: app.dfy ===
/**
 * The client's catalog synchroniser: the application state and each of its
 * transitions (catalog refresh, selection repair, sidebar visibility,
 * file-changed revision bump, group switch) as a pure function from state
 * to state. Effects that React runs after a render are separate functions;
 * `Settle` runs the two that depend on the catalog and the active group.
 */
module App {
  import opened Wrappers
  import opened Text
  import opened Groups

  datatype AppState = AppState(
    groups: seq<Group>,
    knownIds: set<int>,
    activeGroup: string,
    activeFileId: Option<int>,
    sidebarOpen: bool,
    revision: int,
    location: string)

  /** The state of the first render at browser location `pathname`. */
  function Initial(pathname: string): AppState {
    AppState([], {}, DefaultGroup, None, false, 0, pathname)
  }

  /** The mount effect: a non-default group named by the location becomes active. */
  function RestoreGroupFromLocation(s: AppState): (t: AppState)
    ensures t == s.(activeGroup := t.activeGroup)
    ensures ParseGroupFromPath(s.location) != DefaultGroup ==> t.activeGroup == ParseGroupFromPath(s.location)
    ensures ParseGroupFromPath(s.location) == DefaultGroup ==> t == s
  {
    var group := ParseGroupFromPath(s.location);
    if group != DefaultGroup then s.(activeGroup := group) else s
  }

  // ---------------------------------------------------------------- refresh

  /** The largest id in `files` that is not in `known`, if there is one. */
  function MaxNewId(files: seq<FileEntry>, known: set<int>): (r: Option<int>)
    ensures r.None? <==> IdsOf(files) - known == {}
    ensures r.Some? ==> r.value in IdsOf(files) - known
    ensures r.Some? ==> forall x :: x in IdsOf(files) - known ==> x <= r.value
  {
    if |files| == 0 then None
    else
      var id := files[0].id;
      var rest := MaxNewId(files[1..], known);
      assert IdsOf(files) == {id} + IdsOf(files[1..]);
      if id in known then
        assert IdsOf(files) - known == IdsOf(files[1..]) - known;
        rest
      else
        assert IdsOf(files) - known == {id} + (IdsOf(files[1..]) - known);
        match rest
        case None => Some(id)
        case Some(m) => Some(if id > m then id else m)
  }

  /**
   * `loadGroups`: a failed fetch changes nothing. Otherwise the added ids
   * are the fetched ids missing from the previously known set; the known set
   * becomes exactly the fetched ids (it is replaced, so it can shrink) and the
   * catalog is replaced. When the active group exists in the new catalog and
   * holds added ids, the newest of them (the largest id) becomes the active
   * file. The active group itself never changes.
   */
  function Refresh(s: AppState, fetched: Option<seq<Group>>): (t: AppState)
    ensures fetched.None? ==> t == s
    ensures fetched.Some? ==> t.groups == fetched.value && t.knownIds == AllFileIds(fetched.value)
    ensures t.activeGroup == s.activeGroup && t.sidebarOpen == s.sidebarOpen
    ensures t.revision == s.revision && t.location == s.location
    ensures fetched.Some? ==>
      var g := FindGroup(fetched.value, s.activeGroup);
      if g.Some? && IdsOf(g.value.files) - s.knownIds != {} then
        && t.activeFileId.Some?
        && t.activeFileId.value in IdsOf(g.value.files) - s.knownIds
        && forall x :: x in IdsOf(g.value.files) - s.knownIds ==> x <= t.activeFileId.value
      else
        t.activeFileId == s.activeFileId
  {
    match fetched
    case None => s
    case Some(data) =>
      var newIds := AllFileIds(data);
      var added := newIds - s.knownIds;
      var s' := s.(groups := data, knownIds := newIds);
      if added == {} then
        assert forall g :: g in data ==> IdsOf(g.files) <= newIds by {
          forall g | g in data ensures IdsOf(g.files) <= newIds {
            var i :| 0 <= i < |data| && data[i] == g;
            GroupIdsInCatalog(data, i);
          }
        }
        s'
      else
        match FindGroup(data, s.activeGroup)
        case None => s'
        case Some(g) =>
          match MaxNewId(g.files, s.knownIds)
          case None => s'
          case Some(m) => s'.(activeFileId := Some(m))
  }

  /** The worked example: known {1, 2}, "default" now holds 1, 2, 5, 7: the newest added file, 7, is selected. */
  lemma RefreshSelectsNewestAdded()
    ensures
      var files := [FileEntry(1, "a.md"), FileEntry(2, "b.md"), FileEntry(5, "c.md"), FileEntry(7, "d.md")];
      var s := AppState([], {1, 2}, DefaultGroup, Some(1), false, 0, "/");
      Refresh(s, Some([Group(DefaultGroup, files)])).activeFileId == Some(7)
  {
    var files := [FileEntry(1, "a.md"), FileEntry(2, "b.md"), FileEntry(5, "c.md"), FileEntry(7, "d.md")];
    var s := AppState([], {1, 2}, DefaultGroup, Some(1), false, 0, "/");
    var data := [Group(DefaultGroup, files)];
    assert FindGroup(data, DefaultGroup) == Some(data[0]);
    ExampleIds(files);
    var added := IdsOf(files) - s.knownIds;
    assert added == {5, 7};
    var t := Refresh(s, Some(data));
    assert 7 in added && t.activeFileId.value in added;
  }

  lemma ExampleIds(files: seq<FileEntry>)
    requires files == [FileEntry(1, "a.md"), FileEntry(2, "b.md"), FileEntry(5, "c.md"), FileEntry(7, "d.md")]
    ensures IdsOf(files) == {1, 2, 5, 7}
  {
    assert IdsOf(files[3..]) == {7};
    assert IdsOf(files[2..]) == {5, 7};
    assert IdsOf(files[1..]) == {2, 5, 7};
  }

  /**
   * Refreshing again with the same snapshot changes nothing: overlapping
   * refreshes that see the same catalog are harmless.
   */
  lemma RefreshIdempotent(s: AppState, data: seq<Group>)
    ensures Refresh(Refresh(s, Some(data)), Some(data)) == Refresh(s, Some(data))
  {
    var t := Refresh(s, Some(data));
    var g := FindGroup(data, s.activeGroup);
    if g.Some? {
      GroupIdsInCatalog(data, IndexOfGroup(data, g.value));
    }
  }

  /** Position of a group in the catalog. */
  function IndexOfGroup(c: seq<Group>, g: Group): (i: nat)
    requires g in c
    ensures i < |c| && c[i] == g
  {
    if c[0] == g then 0 else 1 + IndexOfGroup(c[1..], g)
  }

  // -------------------------------------------------------- selection repair

  /** Once settled, an active group with files has one of its files selected. */
  predicate Settled(s: AppState) {
    match FindGroup(s.groups, s.activeGroup)
    case None => true
    case Some(g) => |g.files| == 0 || (s.activeFileId.Some? && HasFile(g.files, s.activeFileId.value))
  }

  /**
   * The selection-repair effect: when the active group exists and has files
   * but the active file is not one of them, its first file is selected.
   * Nothing else changes; a settled state is left alone.
   */
  function RepairSelection(s: AppState): (t: AppState)
    ensures Settled(t)
    ensures t == s.(activeFileId := t.activeFileId)
    ensures Settled(s) ==> t == s
    ensures !Settled(s) ==>
      var g := FindGroup(s.groups, s.activeGroup).value;
      |g.files| > 0 && t.activeFileId == Some(g.files[0].id)
  {
    match FindGroup(s.groups, s.activeGroup)
    case None => s
    case Some(g) =>
      if |g.files| > 0 then
        var stillExists := s.activeFileId.Some? && HasFile(g.files, s.activeFileId.value);
        if stillExists then s
        else
          var t := s.(activeFileId := Some(g.files[0].id));
          assert HasFile(g.files, g.files[0].id);
          t
      else s
  }

  /** The worked example: a stale active file 99 in group "docs" with files 1, 2 becomes 1, not null. */
  lemma RepairReplacesStaleSelection()
    ensures
      var docs := Group("docs", [FileEntry(1, "a.md"), FileEntry(2, "b.md")]);
      RepairSelection(AppState([docs], {1, 2}, "docs", Some(99), false, 0, "/docs")).activeFileId == Some(1)
  {
    var docs := Group("docs", [FileEntry(1, "a.md"), FileEntry(2, "b.md")]);
    var s := AppState([docs], {1, 2}, "docs", Some(99), false, 0, "/docs");
    assert FindGroup(s.groups, "docs") == Some(docs);
    assert !HasFile(docs.files, 99);
  }

  /** An active group that is missing or empty leaves the selection, possibly empty, as it is. */
  lemma RepairKeepsSelectionWithoutFiles(s: AppState)
    requires FindGroup(s.groups, s.activeGroup).None? || |FindGroup(s.groups, s.activeGroup).value.files| == 0
    ensures RepairSelection(s) == s
  {
  }

  // ------------------------------------------------------------------ sidebar

  /** The sidebar effect: an existing active group shows the sidebar exactly when it has two or more files. */
  function SyncSidebar(s: AppState): (t: AppState)
    ensures t == s.(sidebarOpen := t.sidebarOpen)
    ensures FindGroup(s.groups, s.activeGroup).None? ==> t == s
    ensures FindGroup(s.groups, s.activeGroup).Some? ==>
      (t.sidebarOpen <==> |FindGroup(s.groups, s.activeGroup).value.files| >= 2)
  {
    match FindGroup(s.groups, s.activeGroup)
    case None => s
    case Some(g) => s.(sidebarOpen := |g.files| >= 2)
  }

  /** The header button flips the sidebar by hand; the next catalog or group change recomputes it. */
  function ToggleSidebar(s: AppState): (t: AppState)
    ensures t.sidebarOpen != s.sidebarOpen
    ensures t == s.(sidebarOpen := t.sidebarOpen)
  {
    s.(sidebarOpen := !s.sidebarOpen)
  }

  /**
   * A manual toggle lasts only until the sidebar effect runs again: for an
   * existing active group the effect decides alone, and toggling twice
   * restores the state.
   */
  lemma SyncOverridesToggle(s: AppState)
    ensures FindGroup(s.groups, s.activeGroup).Some? ==> SyncSidebar(ToggleSidebar(s)) == SyncSidebar(s)
    ensures FindGroup(s.groups, s.activeGroup).None? ==> SyncSidebar(ToggleSidebar(s)).sidebarOpen != SyncSidebar(s).sidebarOpen
    ensures ToggleSidebar(ToggleSidebar(s)) == s
  {
  }

  /**
   * The two effects that follow a change of catalog or active group:
   * afterwards an active group with files has one of them selected and the
   * sidebar shows exactly when it has two or more; nothing else changes.
   */
  function Settle(s: AppState): (t: AppState)
    ensures Settled(t)
    ensures t == s.(activeFileId := t.activeFileId, sidebarOpen := t.sidebarOpen)
    ensures Settled(s) ==> t.activeFileId == s.activeFileId
    ensures FindGroup(s.groups, s.activeGroup).Some? ==>
      (t.sidebarOpen <==> |FindGroup(s.groups, s.activeGroup).value.files| >= 2)
    ensures FindGroup(s.groups, s.activeGroup).None? ==> t == s
  {
    var r := RepairSelection(s);
    assert Settled(SyncSidebar(r)) <==> Settled(r);
    SyncSidebar(r)
  }

  /** The two effects do not interfere: running them in either order gives the same state. */
  lemma SettleOrderIrrelevant(s: AppState)
    ensures SyncSidebar(RepairSelection(s)) == RepairSelection(SyncSidebar(s))
  {
    var t := SyncSidebar(s);
    assert t.groups == s.groups && t.activeGroup == s.activeGroup && t.activeFileId == s.activeFileId;
    assert Settled(t) <==> Settled(s);
  }

  /** Settling a settled state changes nothing. */
  lemma SettleIsIdempotent(s: AppState)
    ensures Settle(Settle(s)) == Settle(s)
  {
  }

  // ------------------------------------------------------ file-changed event

  /**
   * `onFileChanged`: the revision goes up by one exactly when the changed id
   * is the active file (an undefined id, `None`, never matches); the active
   * file itself never changes.
   */
  function OnFileChanged(s: AppState, fileId: Option<int>): (t: AppState)
    ensures t == s.(revision := t.revision)
    ensures t.revision == s.revision || t.revision == s.revision + 1
    ensures t.revision == s.revision + 1 <==> fileId.Some? && s.activeFileId == fileId
  {
    if s.activeFileId.Some? && fileId == s.activeFileId then s.(revision := s.revision + 1) else s
  }

  // -------------------------------------------------------------- group switch

  /** The location that names a group: the root for the default group, `/name` otherwise. */
  function GroupUrl(name: string): (url: string)
    ensures StartsWith(url, "/")
    ensures url == "/" <==> name == DefaultGroup || name == ""
    ensures name != DefaultGroup ==> url == "/" + name
  {
    if name == DefaultGroup then "/" else "/" + name
  }

  /** A group name a location can carry: non-empty, no slash at either end. */
  predicate IsRoutableGroupName(name: string) {
    name != "" && name[0] != '/' && name[|name| - 1] != '/'
  }

  /** Reading the group back from the location that `GroupUrl` builds gives the name back. */
  lemma GroupUrlRoundTrip(name: string)
    requires IsRoutableGroupName(name)
    ensures ParseGroupFromPath(GroupUrl(name)) == name
  {
    if name != DefaultGroup {
      var url := "/" + name;
      assert url[1..] == name;
      assert !EndsWith(name, "/");
    }
  }

  /** Every location `GroupUrl` builds is one that `ParseGroupFromPath` maps back to it. */
  lemma LocationRoundTrip(pathname: string)
    requires pathname == "/" || (StartsWith(pathname, "/") && IsRoutableGroupName(pathname[1..]))
    ensures GroupUrl(ParseGroupFromPath(pathname)) == pathname || ParseGroupFromPath(pathname) == DefaultGroup
  {
    if pathname != "/" {
      assert pathname == "/" + pathname[1..];
      GroupUrlRoundTrip(pathname[1..]);
    }
  }

  /** `handleGroupChange`: the new group becomes active, the selection is cleared and the location names the group. */
  function GroupChange(s: AppState, name: string): (t: AppState)
    ensures t.activeGroup == name && t.activeFileId.None?
    ensures t == s.(activeGroup := name, activeFileId := None, location := t.location)
    ensures t.location == GroupUrl(name)
    ensures IsRoutableGroupName(name) ==> ParseGroupFromPath(t.location) == name
  {
    var t := s.(activeGroup := name, activeFileId := None, location := GroupUrl(name));
    if IsRoutableGroupName(name) then
      GroupUrlRoundTrip(name);
      t
    else t
  }

  /** Reloading the page after a group switch restores the group. */
  lemma ReloadRestoresGroup(s: AppState, name: string)
    requires IsRoutableGroupName(name)
    ensures RestoreGroupFromLocation(Initial(GroupChange(s, name).location)).activeGroup == name
  {
  }

  /** After a group switch, settling selects the new group's first file when it has any. */
  lemma GroupChangeSelectsFirstFile(s: AppState, name: string)
    requires FindGroup(s.groups, name).Some? && |FindGroup(s.groups, name).value.files| > 0
    ensures Settle(GroupChange(s, name)).activeFileId == Some(FindGroup(s.groups, name).value.files[0].id)
  {
  }

  // ------------------------------------------------------------ other inputs

  /** A file chosen in the sidebar or opened through a markdown link becomes the active file. */
  function SelectFile(s: AppState, id: int): (t: AppState)
    ensures t.activeFileId == Some(id)
    ensures t == s.(activeFileId := t.activeFileId)
  {
    s.(activeFileId := Some(id))
  }

  /**
   * A file of the active group, once chosen, survives the effects that
   * follow (it is not replaced by the group's first file), and when the
   * group's ids are distinct the title becomes its name.
   */
  lemma ChosenFileStaysSelected(s: AppState, k: int)
    requires FindGroup(s.groups, s.activeGroup).Some?
    requires 0 <= k < |FindGroup(s.groups, s.activeGroup).value.files|
    ensures
      var f := FindGroup(s.groups, s.activeGroup).value.files[k];
      Settle(SelectFile(s, f.id)).activeFileId == Some(f.id)
    ensures
      var files := FindGroup(s.groups, s.activeGroup).value.files;
      (forall i, j :: 0 <= i < j < |files| ==> files[i].id != files[j].id) ==>
        DocumentTitle(Settle(SelectFile(s, files[k].id))) == files[k].name
  {
    var files := FindGroup(s.groups, s.activeGroup).value.files;
    var t := SelectFile(s, files[k].id);
    assert HasFile(files, files[k].id);
    assert Settled(t);
  }

  /**
   * The document title: the name of the first file of the active group
   * whose id is the active one (`find`), and "mo" when there is no such file.
   */
  function DocumentTitle(s: AppState): (title: string)
    ensures FindGroup(s.groups, s.activeGroup).None? || s.activeFileId.None? ==> title == "mo"
    ensures FindGroup(s.groups, s.activeGroup).Some? ==>
      var files := FindGroup(s.groups, s.activeGroup).value.files;
      && ((forall i :: 0 <= i < |files| ==> Some(files[i].id) != s.activeFileId) ==> title == "mo")
      && forall i :: 0 <= i < |files| && Some(files[i].id) == s.activeFileId && (forall j :: 0 <= j < i ==> Some(files[j].id) != s.activeFileId) ==>
           title == files[i].name
  {
    match FindGroup(s.groups, s.activeGroup)
    case None => "mo"
    case Some(g) =>
      match FindFileIn(g.files, s.activeFileId)
      case None => "mo"
      case Some(f) => f.name
  }

  /** The position of the first file from `from` on whose id is `id`. */
  function FirstWithId(files: seq<FileEntry>, id: Option<int>, from: nat): (r: Option<nat>)
    requires from <= |files|
    ensures r.Some? ==> from <= r.value < |files| && Some(files[r.value].id) == id
    ensures forall i :: from <= i < |files| && (r.None? || i < r.value) ==> Some(files[i].id) != id
    decreases |files| - from
  {
    if from == |files| then None
    else if Some(files[from].id) == id then Some(from)
    else FirstWithId(files, id, from + 1)
  }

  /** `files.find((f) => f.id === id)`: the first file with the id. */
  function FindFileIn(files: seq<FileEntry>, id: Option<int>): (r: Option<FileEntry>)
    ensures r.Some? ==> r.value in files && Some(r.value.id) == id
    ensures r.None? <==> forall f :: f in files ==> Some(f.id) != id
    ensures forall i :: 0 <= i < |files| && Some(files[i].id) == id && (forall j :: 0 <= j < i ==> Some(files[j].id) != id) ==>
      r == Some(files[i])
  {
    match FirstWithId(files, id, 0)
    case None => None
    case Some(k) => Some(files[k])
  }
}

=== FILE: cli.dfy ===
/**
 * The command line: whether the files go to a server already running or
 * to a new one, which URL the browser is sent to, and the catalog a new
 * server starts with. Resolving paths, the HTTP client and the browser
 * launcher are outside the model; what the running server answered is a
 * parameter.
 */
module Cli {
  import opened Wrappers
  import opened Text
  import Groups
  import Server
  import App

  const DefaultPort := 6275

  /** The flags of one invocation. */
  datatype Flags = Flags(target: string, port: nat, open: bool, noOpen: bool)

  /** `--open` and `--no-open` are mutually exclusive; the command refuses both at once. */
  predicate ValidFlags(f: Flags) {
    !(f.open && f.noOpen)
  }

  /** `localhost:<port>`. */
  function Addr(port: nat): (a: string)
    ensures StartsWith(a, "localhost:")
    ensures a[|"localhost:"|..] == NatToString(port)
  {
    var a := "localhost:" + NatToString(port);
    assert a[..|"localhost:"|] == "localhost:";
    a
  }

  /** `isNewGroup`: no group the running server lists has the target's name. */
  method IsNewGroup(existing: seq<string>, target: string) returns (isNew: bool)
    ensures isNew <==> target !in existing
  {
    isNew := true;
    for i := 0 to |existing|
      invariant isNew <==> target !in existing[..i]
    {
      assert existing[..i + 1] == existing[..i] + [existing[i]];
      if existing[i] == target {
        isNew := false;
        assert target in existing[..i + 1];
        return;
      }
    }
    assert existing[..|existing|] == existing;
  }

  /**
   * The browser URL after adding to a running server: opened when not
   * suppressed and either the group is new or `--open` was given, always at
   * the group's path, even for the default group.
   */
  function ExistingServerUrl(f: Flags, isNewGroup: bool): (url: Option<string>)
    ensures url.Some? <==> !f.noOpen && (isNewGroup || f.open)
    ensures url.Some? ==> url.value == "http://" + Addr(f.port) + "/" + f.target
  {
    if !f.noOpen && (isNewGroup || f.open) then Some("http://" + Addr(f.port) + "/" + f.target) else None
  }

  /** The path part of the URL a new server opens: none for the default group, else `/<target>`. */
  function FreshServerPath(target: string): (path: string)
    ensures path == "" <==> target == Groups.DefaultGroup
    ensures path != "" ==> path == App.GroupUrl(target)
  {
    if target == Groups.DefaultGroup then "" else "/" + target
  }

  /** The browser URL of a new server: none with `--no-open`. */
  function FreshServerUrl(f: Flags): (url: Option<string>)
    ensures url.None? <==> f.noOpen
    ensures url.Some? ==> url.value == "http://" + Addr(f.port) + FreshServerPath(f.target)
  {
    if f.noOpen then None else Some("http://" + Addr(f.port) + FreshServerPath(f.target))
  }

  /** The location path a browser reports for a URL path: `/` for none. */
  function Pathname(path: string): (p: string)
    ensures StartsWith(p, "/") || (path != "" && p == path)
    ensures path == "" ==> p == "/"
    ensures path != "" ==> p == path
  {
    if path == "" then "/" else path
  }

  /**
   * Whichever server answers, the page the browser lands on shows the
   * target group, for the default group and any name a location can carry.
   */
  lemma BrowserLandsOnTarget(f: Flags)
    requires f.target == Groups.DefaultGroup || App.IsRoutableGroupName(f.target)
    ensures Groups.ParseGroupFromPath(Pathname(FreshServerPath(f.target))) == f.target
    ensures Groups.ParseGroupFromPath(Pathname("/" + f.target)) == f.target
  {
    if f.target == Groups.DefaultGroup {
      App.GroupUrlRoundTrip(f.target);
      Groups.ParseGroupFromPathExamples();
    } else {
      App.GroupUrlRoundTrip(f.target);
    }
    assert "/" + f.target == App.GroupUrl(f.target) || f.target == Groups.DefaultGroup;
    if f.target == Groups.DefaultGroup {
      assert ("/" + f.target)[1..] == f.target;
    }
  }

  // -------------------------------------------------------------- new server

  /**
   * The catalog a new server starts with: each file added to the target
   * group in command-line order. It satisfies the catalog invariant and
   * has no group but the target.
   */
  function Startup(files: seq<string>, target: string): (r: Server.ServerState)
    ensures Server.Wf(r)
    ensures forall name :: name != target ==> Server.GroupFiles(r, name) == []
    decreases |files|
  {
    if |files| == 0 then
      Server.NewStateWf();
      Server.NewState()
    else
      var prior := Startup(files[..|files| - 1], target);
      Server.AddFilePreservesWf(prior, files[|files| - 1], target);
      Server.AddFile(prior, files[|files| - 1], target).state
  }

  /** The entries a new server creates for distinct files: base name, ids 1, 2, ... in order, and path. */
  function StartupEntries(files: seq<string>): (r: seq<Server.ServerFile>)
    ensures |r| == |files|
    ensures forall i :: 0 <= i < |files| ==> r[i] == Server.ServerFile(Server.BaseName(files[i]), i + 1, files[i])
  {
    seq(|files|, i requires 0 <= i < |files| => Server.ServerFile(Server.BaseName(files[i]), i + 1, files[i]))
  }

  lemma StartupEntriesSnoc(files: seq<string>)
    requires |files| > 0
    ensures StartupEntries(files) ==
      StartupEntries(files[..|files| - 1]) + [Server.ServerFile(Server.BaseName(files[|files| - 1]), |files|, files[|files| - 1])]
  {
  }

  /** Adding a path the group does not list appends its entry, with the next id. */
  lemma AddNewPath(s: Server.ServerState, path: string, target: string)
    requires forall k :: 0 <= k < |Server.GroupFiles(s, target)| ==> Server.GroupFiles(s, target)[k].path != path
    ensures var r := Server.AddFile(s, path, target);
      && r.state.nextId == s.nextId + 1
      && Server.GroupFiles(r.state, target) == Server.GroupFiles(s, target) + [Server.ServerFile(Server.BaseName(path), s.nextId, path)]
      && forall name :: name != target ==> Server.GroupFiles(r.state, name) == Server.GroupFiles(s, name)
  {
  }

  /** One step of the startup loop: a file not listed before is appended with the next id. */
  lemma StartupStep(prior: Server.ServerState, files: seq<string>, target: string)
    requires |files| > 0
    requires forall i, j :: 0 <= i < j < |files| ==> files[i] != files[j]
    requires prior.nextId == |files|
    requires Server.GroupFiles(prior, target) == StartupEntries(files[..|files| - 1])
    ensures var t := Server.AddFile(prior, files[|files| - 1], target).state;
      t.nextId == |files| + 1 && Server.GroupFiles(t, target) == StartupEntries(files)
  {
    var n := |files| - 1;
    var before := Server.GroupFiles(prior, target);
    forall k | 0 <= k < |before| ensures before[k].path != files[n] {
      assert before[k].path == files[..n][k] == files[k];
    }
    AddNewPath(prior, files[n], target);
    StartupEntriesSnoc(files);
  }

  /**
   * Distinct files given on the command line are listed in the target
   * group in order, with ids 1, 2, ..., and the next id is one past them.
   */
  lemma {:induction false} StartupIds(files: seq<string>, target: string)
    requires forall i, j :: 0 <= i < j < |files| ==> files[i] != files[j]
    ensures Startup(files, target).nextId == |files| + 1
    ensures Server.GroupFiles(Startup(files, target), target) == StartupEntries(files)
    decreases |files|
  {
    if |files| == 0 {
      assert Startup(files, target) == Server.NewState();
    } else {
      StartupIds(files[..|files| - 1], target);
      StartupStep(Startup(files[..|files| - 1], target), files, target);
    }
  }

  // ---------------------------------------------------------------- run

  /** What one invocation does. */
  datatype Outcome =
    | AddedToExisting(requests: seq<Server.AddRequest>, browser: Option<string>)
    | StartedServer(state: Server.ServerState, browser: Option<string>)
    | ListenFailed(addr: string)   // `cannot listen on <addr>`: no server runs and no browser opens

  /**
   * `run`: a running server is asked only when files were given; when it
   * answers with its groups, each file is posted to it with the target
   * group and the browser is opened by the running-server rule; otherwise
   * (no files, no answer, an unreadable answer) a new server starts with
   * the files, provided the port can be listened on. `existing` is the
   * running server's answer and `listened` whether `net.Listen` succeeded.
   */
  function Run(files: seq<string>, f: Flags, existing: Option<seq<string>>, listened: bool): (o: Outcome)
    ensures o.AddedToExisting? <==> |files| > 0 && existing.Some?
    ensures o.ListenFailed? <==> !(|files| > 0 && existing.Some?) && !listened
    ensures o.ListenFailed? ==> o.addr == Addr(f.port)
    ensures o.StartedServer? ==> listened
    ensures o.AddedToExisting? ==>
      && |o.requests| == |files|
      && (forall i :: 0 <= i < |files| ==> o.requests[i] == Server.AddRequest(files[i], f.target))
      && o.browser == ExistingServerUrl(f, f.target !in existing.value)
    ensures o.StartedServer? ==> o.state == Startup(files, f.target) && o.browser == FreshServerUrl(f)
  {
    if |files| > 0 && existing.Some? then
      AddedToExisting(
        seq(|files|, i requires 0 <= i < |files| => Server.AddRequest(files[i], f.target)),
        ExistingServerUrl(f, f.target !in existing.value))
    else if !listened then ListenFailed(Addr(f.port))
    else StartedServer(Startup(files, f.target), FreshServerUrl(f))
  }

  /** When the port cannot be listened on, the command fails naming the address, and no browser opens. */
  lemma FailedListenOpensNothing(files: seq<string>, f: Flags, existing: Option<seq<string>>)
    requires !(|files| > 0 && existing.Some?)
    ensures Run(files, f, existing, false) == ListenFailed(Addr(f.port))
  {
  }

  /**
   * The running server handling the posted requests in order; a refused
   * request changes nothing. The catalog invariant is kept, and a group no
   * request names is left as it was.
   */
  function Deliver(s: Server.ServerState, requests: seq<Server.AddRequest>, fileExists: string -> bool): (r: Server.ServerState)
    ensures Server.Wf(s) ==> Server.Wf(r)
    ensures forall name :: (forall i :: 0 <= i < |requests| ==> Server.AddRequestGroup(requests[i].group) != name) ==>
      Server.GroupFiles(r, name) == Server.GroupFiles(s, name)
    decreases |requests|
  {
    if |requests| == 0 then s
    else
      var next := match Server.HandleAdd(s, requests[0], fileExists)
        case None => s
        case Some(r) => r.state;
      assert Server.Wf(s) ==> Server.Wf(next) by {
        if Server.Wf(s) && fileExists(requests[0].path) {
          Server.AddFilePreservesWf(s, requests[0].path, Server.AddRequestGroup(requests[0].group));
        }
      }
      assert forall i :: 0 <= i < |requests[1..]| ==> requests[1..][i] == requests[i + 1];
      Deliver(next, requests[1..], fileExists)
  }

  /**
   * Once the running server has handled every request for existing files,
   * its target group lists each file given, besides what it listed before.
   */
  lemma {:induction false} DeliveredFilesListed(s: Server.ServerState, requests: seq<Server.AddRequest>, group: string, fileExists: string -> bool)
    requires group != ""
    requires forall i :: 0 <= i < |requests| ==> requests[i].group == group && fileExists(requests[i].path)
    ensures Server.Paths(Server.GroupFiles(Deliver(s, requests, fileExists), group)) ==
      Server.Paths(Server.GroupFiles(s, group)) + set i | 0 <= i < |requests| :: requests[i].path
    decreases |requests|
  {
    if |requests| > 0 {
      var r := Server.HandleAdd(s, requests[0], fileExists).value;
      Server.AddFileListsPath(s, requests[0].path, group);
      DeliveredFilesListed(r.state, requests[1..], group, fileExists);
      RequestPathsSplit(requests);
    }
  }

  /** The paths of a non-empty request list: the first one and those of the rest. */
  lemma RequestPathsSplit(requests: seq<Server.AddRequest>)
    requires |requests| > 0
    ensures (set i | 0 <= i < |requests| :: requests[i].path) ==
      {requests[0].path} + set i | 0 <= i < |requests[1..]| :: requests[1..][i].path
  {
    var tail := set i | 0 <= i < |requests[1..]| :: requests[1..][i].path;
    var all := set i | 0 <= i < |requests| :: requests[i].path;
    forall p | p in all ensures p in {requests[0].path} + tail {
      var i :| 0 <= i < |requests| && requests[i].path == p;
      if i > 0 {
        assert requests[1..][i - 1].path == p;
      }
    }
    forall p | p in tail ensures p in all {
      var i :| 0 <= i < |requests[1..]| && requests[1..][i].path == p;
      assert requests[i + 1].path == p;
    }
  }

  /** Adding to a running server's existing group opens nothing unless `--open` is given. */
  lemma ExistingGroupStaysQuiet(files: seq<string>, f: Flags, existing: seq<string>)
    requires |files| > 0 && f.target in existing && !f.open
    ensures forall listened :: Run(files, f, Some(existing), listened).browser.None?
  {
  }

  /**
   * With the flags the command accepts, `--open` opens a browser whichever
   * server takes the files; both flags at once would open nothing.
   */
  lemma OpenFlagAlwaysOpens(f: Flags, isNewGroup: bool)
    requires ValidFlags(f) && f.open
    ensures ExistingServerUrl(f, isNewGroup).Some?
    ensures FreshServerUrl(f).Some?
  {
  }
}

=== FILE: extract_text.dfy ===
/**
 * Flattening of a rendered node tree into plain text, used for the text of
 * table-of-contents entries. The viewer component carries an identical
 * private copy of the same function; both are modelled by `ExtractText`.
 */
module NodeText {
  import opened Text

  /**
   * A React node as a heading's children present it. Numbers are restricted
   * to integers; `Nil` stands for both `null` and `undefined`, and an element
   * without children carries `Nil` as its children.
   */
  datatype Node =
    | Str(s: string)
    | Num(n: int)
    | Arr(items: seq<Node>)
    | Element(children: Node)
    | Bool(b: bool)
    | Nil

  /**
   * `extractText`: strings as they are, numbers in decimal, arrays joined,
   * elements through their children. The result is the concatenation of
   * the tree's string and number leaves, depth first.
   */
  function ExtractText(n: Node): (r: string)
    ensures r == Concat(Leaves(n))
    decreases n
  {
    match n
    case Str(s) => s
    case Num(i) => IntToString(i)
    case Arr(items) => JoinTexts(items)
    case Element(children) => ExtractText(children)
    case Bool(_) => ""
    case Nil => ""
  }

  /** `items.map(extractText).join("")`: the leaves of the children, in order. */
  function JoinTexts(items: seq<Node>): (r: string)
    ensures r == Concat(LeavesOf(items))
    decreases items
  {
    if |items| == 0 then ""
    else
      ConcatAppend(Leaves(items[0]), LeavesOf(items[1..]));
      ExtractText(items[0]) + JoinTexts(items[1..])
  }

  /** Joining distributes over concatenation of the child lists. */
  lemma JoinTextsAppend(a: seq<Node>, b: seq<Node>)
    ensures JoinTexts(a + b) == JoinTexts(a) + JoinTexts(b)
  {
    LeavesOfAppend(a, b);
    ConcatAppend(LeavesOf(a), LeavesOf(b));
  }

  /** An array node's text is the concatenation of its parts' texts. */
  lemma ArrayTextSplits(a: seq<Node>, b: seq<Node>)
    ensures ExtractText(Arr(a + b)) == ExtractText(Arr(a)) + ExtractText(Arr(b))
  {
    JoinTextsAppend(a, b);
  }

  // -------------------------------------------- reference: depth-first leaves

  /** The leaves that carry text. */
  datatype Leaf = TextLeaf(s: string) | NumberLeaf(n: int)

  /** The string and number leaves of a tree in depth-first, left-to-right order. */
  function Leaves(n: Node): seq<Leaf>
    decreases n
  {
    match n
    case Str(s) => [TextLeaf(s)]
    case Num(i) => [NumberLeaf(i)]
    case Arr(items) => LeavesOf(items)
    case Element(children) => Leaves(children)
    case Bool(_) => []
    case Nil => []
  }

  function LeavesOf(items: seq<Node>): seq<Leaf>
    decreases items
  {
    if |items| == 0 then [] else Leaves(items[0]) + LeavesOf(items[1..])
  }

  lemma {:induction false} LeavesOfAppend(a: seq<Node>, b: seq<Node>)
    ensures LeavesOf(a + b) == LeavesOf(a) + LeavesOf(b)
    decreases a
  {
    if |a| > 0 {
      assert (a + b)[1..] == a[1..] + b;
      LeavesOfAppend(a[1..], b);
    } else {
      assert a + b == b;
    }
  }

  function LeafText(l: Leaf): string {
    match l
    case TextLeaf(s) => s
    case NumberLeaf(i) => IntToString(i)
  }

  /** The concatenated text of a leaf list. */
  function Concat(ls: seq<Leaf>): string {
    if |ls| == 0 then "" else LeafText(ls[0]) + Concat(ls[1..])
  }

  lemma {:induction false} ConcatAppend(a: seq<Leaf>, b: seq<Leaf>)
    ensures Concat(a + b) == Concat(a) + Concat(b)
    decreases a
  {
    if |a| > 0 {
      assert (a + b)[1..] == a[1..] + b;
      ConcatAppend(a[1..], b);
    } else {
      assert a + b == b;
    }
  }

  /** A tree without string or number leaves has no text: null, booleans and empty elements. */
  lemma NoLeavesNoText(n: Node)
    requires Leaves(n) == []
    ensures ExtractText(n) == ""
  {
  }

  /** Examples from the test suite: a number leaf and an empty element. */
  lemma ExtractTextExamples()
    ensures ExtractText(Arr([Str("chapter "), Num(3)])) == "chapter 3"
    ensures ExtractText(Element(Nil)) == ""
    ensures ExtractText(Bool(true)) == "" && ExtractText(Bool(false)) == ""
  {
    var items := [Str("chapter "), Num(3)];
    assert IntToString(3) == "3" by { assert DigitChar(3) == '3'; }
    assert items[1..] == [Num(3)];
    assert [Num(3)][1..] == [];
    assert JoinTexts([Num(3)]) == "3" + "";
    assert JoinTexts(items) == "chapter " + "3";
  }

  /** Example from the test suite: nested elements. */
  lemma ExtractTextNestedExample()
    ensures ExtractText(Element(Arr([Str("prefix "), Element(Str("bold")), Str(" suffix")]))) == "prefix bold suffix"
  {
    var items := [Str("prefix "), Element(Str("bold")), Str(" suffix")];
    assert items[1..] == [Element(Str("bold")), Str(" suffix")];
    assert items[1..][1..] == [Str(" suffix")];
    assert [Str(" suffix")][1..] == [];
    assert JoinTexts([Str(" suffix")]) == " suffix";
    assert JoinTexts(items[1..]) == "bold" + " suffix";
    assert JoinTexts(items) == "prefix " + "bold suffix";
  }
}

=== FILE: group_dropdown.dfy ===
/**
 * The group switcher in the header: what it renders for a catalog and an
 * active group, and how the menu opens, closes and reports a choice.
 */
module GroupDropdown {
  import opened Wrappers
  import opened Groups
  import App

  /** One menu entry: the group, whether it carries the check mark, and whether its name is written (the default group shows an icon instead). */
  datatype MenuItem = MenuItem(name: string, checked: bool, showsName: bool)

  /** What the component renders. */
  datatype DropdownView =
    | Nothing                                           // `null`
    | Label(text: string)                               // the active name, no button
    | Trigger(name: Option<string>, menu: Option<seq<MenuItem>>)  // a button, with the menu when open

  /** The menu: every group in catalog order, checked when it is the active one. */
  function Menu(groups: seq<Group>, activeGroup: string): (items: seq<MenuItem>)
    ensures |items| == |groups|
    ensures forall i :: 0 <= i < |groups| ==>
      && items[i].name == groups[i].name
      && (items[i].checked <==> groups[i].name == activeGroup)
      && (items[i].showsName <==> groups[i].name != DefaultGroup)
  {
    seq(|groups|, i requires 0 <= i < |groups| =>
      MenuItem(groups[i].name, groups[i].name == activeGroup, groups[i].name != DefaultGroup))
  }

  /**
   * The render decision: with at most one group, nothing for the default
   * group and a plain label otherwise; with two or more, a trigger button
   * naming the active group unless it is the default one, and the menu
   * below it while open.
   */
  function View(groups: seq<Group>, activeGroup: string, open: bool): (v: DropdownView)
    ensures v.Trigger? <==> |groups| >= 2
    ensures v.Nothing? <==> |groups| <= 1 && activeGroup == DefaultGroup
    ensures v.Label? ==> v.text == activeGroup
    ensures v.Trigger? ==> (v.name.Some? <==> activeGroup != DefaultGroup) && (v.name.Some? ==> v.name.value == activeGroup)
    ensures v.Trigger? ==> (v.menu.Some? <==> open) && (open ==> v.menu.value == Menu(groups, activeGroup))
  {
    if |groups| <= 1 then
      if activeGroup == DefaultGroup then Nothing else Label(activeGroup)
    else
      Trigger(
        if activeGroup == DefaultGroup then None else Some(activeGroup),
        if open then Some(Menu(groups, activeGroup)) else None)
  }

  /** What the user does to the component. */
  datatype DropdownEvent =
    | ToggleClick            // the trigger button
    | Choose(name: string)   // a menu entry
    | MouseDownInside        // a press inside the component
    | MouseDownOutside       // a press anywhere else

  /** The new open flag and the group reported to `onGroupChange`, if any. */
  datatype DropdownStep = DropdownStep(open: bool, chosen: Option<string>)

  /**
   * The handlers: the button flips the menu, choosing an entry reports it
   * and closes the menu, and a press outside closes an open menu.
   */
  function OnEvent(open: bool, e: DropdownEvent): (r: DropdownStep)
    ensures r.chosen.Some? <==> e.Choose?
    ensures e.Choose? ==> r.chosen.value == e.name && !r.open
    ensures e.ToggleClick? ==> r.open == !open
    ensures e.MouseDownOutside? ==> !r.open
    ensures e.MouseDownInside? ==> r.open == open
  {
    match e
    case ToggleClick => DropdownStep(!open, None)
    case Choose(name) => DropdownStep(false, Some(name))
    case MouseDownInside => DropdownStep(open, None)
    case MouseDownOutside => DropdownStep(false, None)
  }

  /** With distinct group names exactly one entry is checked when the active group is listed, and none otherwise. */
  lemma OneCheckMark(groups: seq<Group>, activeGroup: string)
    requires forall i, j :: 0 <= i < j < |groups| ==> groups[i].name != groups[j].name
    ensures forall i, j :: 0 <= i < |groups| && 0 <= j < |groups| && Menu(groups, activeGroup)[i].checked && Menu(groups, activeGroup)[j].checked ==> i == j
    ensures FindGroup(groups, activeGroup).None? ==> forall i :: 0 <= i < |groups| ==> !Menu(groups, activeGroup)[i].checked
  {
    var items := Menu(groups, activeGroup);
    forall i, j | 0 <= i < |groups| && 0 <= j < |groups| && items[i].checked && items[j].checked ensures i == j {
      assert groups[i].name == activeGroup == groups[j].name;
    }
  }

  /**
   * Choosing an entry of the open menu switches the viewer to that group
   * and the next render shows the button without the menu, naming the new
   * group unless it is the default one.
   */
  lemma ChooseSwitchesGroup(s: App.AppState, i: int)
    requires |s.groups| >= 2 && 0 <= i < |s.groups|
    ensures
      var name := View(s.groups, s.activeGroup, true).menu.value[i].name;
      var step := OnEvent(true, Choose(name));
      var t := App.GroupChange(s, step.chosen.value);
      && t.activeGroup == s.groups[i].name
      && View(t.groups, t.activeGroup, step.open) == Trigger(if name == DefaultGroup then None else Some(name), None)
  {
  }
}

=== FILE: groups.dfy ===
/**
 * The catalog as the client receives it (groups of files), the set of file
 * ids it contains, and the mapping from a URL path to a group name.
 */
module Groups {
  import opened Wrappers
  import opened Text

  datatype FileEntry = FileEntry(id: int, name: string)

  datatype Group = Group(name: string, files: seq<FileEntry>)

  /** The distinguished group selected when none is named. */
  const DefaultGroup := "default"

  /** Some file of some group of `c` has id `id`. */
  predicate InCatalog(c: seq<Group>, id: int) {
    exists i, j :: 0 <= i < |c| && 0 <= j < |c[i].files| && c[i].files[j].id == id
  }

  /** Some file of `files` has id `id`. */
  predicate HasFile(files: seq<FileEntry>, id: int) {
    exists j :: 0 <= j < |files| && files[j].id == id
  }

  /** The ids of a file list. */
  function IdsOf(files: seq<FileEntry>): (ids: set<int>)
    ensures forall id :: id in ids <==> HasFile(files, id)
  {
    if |files| == 0 then {}
    else
      var rest := IdsOf(files[1..]);
      assert forall id :: HasFile(files[1..], id) ==> HasFile(files, id) by {
        forall id | HasFile(files[1..], id) ensures HasFile(files, id) {
          var j :| 0 <= j < |files[1..]| && files[1..][j].id == id;
          assert files[j + 1].id == id;
        }
      }
      {files[0].id} + rest
  }

  /** `allFileIds`: every id of every file of every group. */
  function AllFileIds(c: seq<Group>): (ids: set<int>)
    ensures forall id :: id in ids <==> InCatalog(c, id)
  {
    if |c| == 0 then {}
    else
      var rest := AllFileIds(c[1..]);
      assert forall id :: InCatalog(c[1..], id) ==> InCatalog(c, id) by {
        forall id | InCatalog(c[1..], id) ensures InCatalog(c, id) {
          var i, j :| 0 <= i < |c[1..]| && 0 <= j < |c[1..][i].files| && c[1..][i].files[j].id == id;
          assert c[i + 1].files[j].id == id;
        }
      }
      assert forall id :: InCatalog(c, id) ==> HasFile(c[0].files, id) || InCatalog(c[1..], id) by {
        forall id | InCatalog(c, id) ensures HasFile(c[0].files, id) || InCatalog(c[1..], id) {
          var i, j :| 0 <= i < |c| && 0 <= j < |c[i].files| && c[i].files[j].id == id;
          if i > 0 {
            assert c[1..][i - 1].files[j].id == id;
          }
        }
      }
      assert forall id :: HasFile(c[0].files, id) ==> InCatalog(c, id) by {
        forall id | HasFile(c[0].files, id) ensures InCatalog(c, id) {
          var j :| 0 <= j < |c[0].files| && c[0].files[j].id == id;
          assert c[0].files[j].id == id;
        }
      }
      IdsOf(c[0].files) + rest
  }

  /** `allFileIds` as the source computes it: two nested loops adding to a set. */
  method CollectFileIds(c: seq<Group>) returns (ids: set<int>)
    ensures ids == AllFileIds(c)
  {
    ids := {};
    for i := 0 to |c|
      invariant ids == AllFileIds(c[..i])
    {
      var files := c[i].files;
      for j := 0 to |files|
        invariant ids == AllFileIds(c[..i]) + IdsOf(files[..j])
      {
        assert files[..j + 1] == files[..j] + [files[j]];
        IdsOfAppend(files[..j], [files[j]]);
        ids := ids + {files[j].id};
      }
      assert files[..|files|] == files;
      assert c[..i + 1] == c[..i] + [c[i]];
      AllFileIdsAppend(c[..i], [c[i]]);
    }
    assert c[..|c|] == c;
  }

  lemma {:induction false} IdsOfAppend(a: seq<FileEntry>, b: seq<FileEntry>)
    ensures IdsOf(a + b) == IdsOf(a) + IdsOf(b)
    decreases a
  {
    if |a| == 0 {
      assert a + b == b;
    } else {
      assert (a + b)[1..] == a[1..] + b;
      IdsOfAppend(a[1..], b);
    }
  }

  /** The ids of two catalogs put together are the union of their ids. */
  lemma {:induction false} AllFileIdsAppend(a: seq<Group>, b: seq<Group>)
    ensures AllFileIds(a + b) == AllFileIds(a) + AllFileIds(b)
    decreases a
  {
    if |a| == 0 {
      assert a + b == b;
    } else {
      assert (a + b)[1..] == a[1..] + b;
      AllFileIdsAppend(a[1..], b);
    }
  }

  /** A group without files adds no id. */
  lemma EmptyGroupAddsNothing(c: seq<Group>, name: string)
    ensures AllFileIds(c + [Group(name, [])]) == AllFileIds(c)
  {
    AllFileIdsAppend(c, [Group(name, [])]);
  }

  /** The example from the test suite: groups "empty" and "notempty". */
  lemma AllFileIdsExample()
    ensures AllFileIds([Group("empty", []), Group("notempty", [FileEntry(5, "e.md")])]) == {5}
    ensures AllFileIds([]) == {}
  {
  }

  // ------------------------------------------------------------ group lookup

  /** Index of the first group named `name` at or after `from`. */
  function FindGroupIndex(c: seq<Group>, name: string, from: nat): (r: Option<nat>)
    requires from <= |c|
    ensures r.Some? ==> from <= r.value < |c| && c[r.value].name == name
    ensures forall i :: from <= i < |c| && (r.None? || i < r.value) ==> c[i].name != name
    decreases |c| - from
  {
    if from == |c| then None
    else if c[from].name == name then Some(from)
    else FindGroupIndex(c, name, from + 1)
  }

  /** `groups.find((g) => g.name === name)`: the first group with that name. */
  function FindGroup(c: seq<Group>, name: string): (r: Option<Group>)
    ensures r.None? <==> forall i :: 0 <= i < |c| ==> c[i].name != name
    ensures r.Some? ==> r.value.name == name && r.value in c
    ensures r.Some? ==> IdsOf(r.value.files) <= AllFileIds(c)
    ensures r.Some? ==> exists i :: 0 <= i < |c| && c[i] == r.value && forall j :: 0 <= j < i ==> c[j].name != name
  {
    match FindGroupIndex(c, name, 0)
    case None => None
    case Some(i) =>
      GroupIdsInCatalog(c, i);
      Some(c[i])
  }

  lemma GroupIdsInCatalog(c: seq<Group>, i: nat)
    requires i < |c|
    ensures IdsOf(c[i].files) <= AllFileIds(c)
  {
    forall id | id in IdsOf(c[i].files) ensures id in AllFileIds(c) {
      var j :| 0 <= j < |c[i].files| && c[i].files[j].id == id;
      assert c[i].files[j].id == id;
    }
  }

  // --------------------------------------------------------- URL path -> group

  /**
   * `parseGroupFromPath`: drop at most one leading and at most one trailing
   * `/`; an empty remainder names the default group.
   */
  function ParseGroupFromPath(pathname: string): (r: string)
    ensures r != ""
    ensures pathname == "" || pathname == "/" || pathname == "//" ==> r == DefaultGroup
    ensures r != DefaultGroup ==>
      pathname == r || pathname == "/" + r || pathname == r + "/" || pathname == "/" + r + "/"
    ensures r != DefaultGroup && StartsWith(pathname, "/") ==>
      pathname == "/" + r || pathname == "/" + r + "/"
  {
    var rest := if StartsWith(pathname, "/") then pathname[1..] else pathname;
    var core := if EndsWith(rest, "/") then rest[..|rest| - 1] else rest;
    assert StartsWith(pathname, "/") ==> pathname == "/" + rest;
    assert EndsWith(rest, "/") ==> rest == core + "/";
    if core == "" then DefaultGroup else core
  }

  /**
   * Exactly one leading and one trailing `/` are removed, no more: a path
   * made of an optional `/`, a name and an optional `/` gives the name (the
   * default group when it is empty), even when the name itself starts or
   * ends with a further `/`.
   */
  lemma ParseGroupFromPathStrips(lead: string, n: string, trail: string)
    requires lead == "" || lead == "/"
    requires trail == "" || trail == "/"
    requires lead == "/" || !StartsWith(n, "/")
    requires trail == "/" || !EndsWith(n, "/")
    ensures ParseGroupFromPath(lead + n + trail) == (if n == "" then DefaultGroup else n)
  {
    var p := lead + n + trail;
    if n != "" {
      var rest := if StartsWith(p, "/") then p[1..] else p;
      if lead == "/" {
        assert p == "/" + (n + trail);
      } else {
        assert p == n + trail && p[0] == n[0];
      }
      assert rest == n + trail;
      if trail == "/" {
        assert rest[..|rest| - 1] == n;
      } else {
        assert rest == n && rest[|rest| - 1] == n[|n| - 1];
      }
    } else {
      assert p == lead + trail;
    }
  }

  /** Examples from the test suite. */
  lemma ParseGroupFromPathExamples()
    ensures ParseGroupFromPath("/") == "default"
    ensures ParseGroupFromPath("") == "default"
    ensures ParseGroupFromPath("/design") == "design"
    ensures ParseGroupFromPath("/docs/") == "docs"
    ensures ParseGroupFromPath("notes") == "notes"
  {
    assert "/design"[1..] == "design";
    assert "/docs/"[1..] == "docs/";
    assert "docs/"[..4] == "docs";
    assert "notes"[0] != '/';
  }
}

=== FILE: headings.dfy ===
/**
 * The document outline the viewer hands to the table of contents: the
 * headings collected during one render pass, and the de-duplication that
 * publishes an outline only when its shape (the ids and levels, in order)
 * differs from the one published last.
 */
module Headings {
  import opened Wrappers
  import opened Text
  import opened NodeText

  /** A table-of-contents entry. */
  datatype TocHeading = TocHeading(id: string, text: string, level: int)

  /**
   * A heading element as the markdown renderer hands it over: its level
   * (from the tag `h1`..`h6`), its `id` attribute if it has one, and its
   * children.
   */
  datatype HeadingNode = HeadingNode(level: int, id: Option<string>, children: Node)

  /** The heading has an id that is truthy in JavaScript, i.e. present and non-empty. */
  predicate HasId(h: HeadingNode) {
    h.id.Some? && h.id.value != ""
  }

  /**
   * The collector of one render pass, starting empty: every heading with a
   * non-empty id is recorded with its level and flattened text, in render
   * order; headings without an id are skipped.
   */
  function CollectHeadings(hs: seq<HeadingNode>): (r: seq<TocHeading>)
    ensures |r| <= |hs|
    ensures (forall i :: 0 <= i < |hs| ==> HasId(hs[i])) ==> |r| == |hs|
    ensures forall e :: e in r <==> CollectedFrom(hs, e)
  {
    if |hs| == 0 then []
    else
      var rest := CollectHeadings(hs[1..]);
      assert forall e :: CollectedFrom(hs, e) <==>
        (HasId(hs[0]) && e == Entry(hs[0])) || CollectedFrom(hs[1..], e) by {
        forall e | CollectedFrom(hs, e)
          ensures (HasId(hs[0]) && e == Entry(hs[0])) || CollectedFrom(hs[1..], e)
        {
          var i :| 0 <= i < |hs| && HasId(hs[i]) && e == Entry(hs[i]);
          if i > 0 {
            assert hs[1..][i - 1] == hs[i];
          }
        }
        forall e | CollectedFrom(hs[1..], e) ensures CollectedFrom(hs, e) {
          var i :| 0 <= i < |hs[1..]| && HasId(hs[1..][i]) && e == Entry(hs[1..][i]);
          assert hs[i + 1] == hs[1..][i];
        }
      }
      if HasId(hs[0]) then [Entry(hs[0])] + rest else rest
  }

  /** `e` is the entry of some heading with an id. */
  predicate CollectedFrom(hs: seq<HeadingNode>, e: TocHeading) {
    exists i :: 0 <= i < |hs| && HasId(hs[i]) && e == Entry(hs[i])
  }

  /** The entry recorded for a heading with an id. */
  function Entry(h: HeadingNode): TocHeading
    requires HasId(h)
  {
    TocHeading(h.id.value, ExtractText(h.children), h.level)
  }

  /** Collecting over two runs of headings is collecting over each, in order. */
  lemma {:induction false} CollectHeadingsAppend(a: seq<HeadingNode>, b: seq<HeadingNode>)
    ensures CollectHeadings(a + b) == CollectHeadings(a) + CollectHeadings(b)
    decreases a
  {
    if |a| == 0 {
      assert a + b == b;
    } else {
      assert (a + b)[1..] == a[1..] + b;
      CollectHeadingsAppend(a[1..], b);
    }
  }

  /** The outline published after a render: empty in the raw view. */
  function Outline(isRaw: bool, collected: seq<TocHeading>): (r: seq<TocHeading>)
    ensures isRaw ==> r == []
    ensures !isRaw ==> r == collected
  {
    if isRaw then [] else collected
  }

  // ------------------------------------------------------------------ shapes

  /** What the de-duplication is meant to compare: an entry's id and level. */
  datatype HeadingShape = HeadingShape(id: string, level: int)

  function Shape(hs: seq<TocHeading>): (r: seq<HeadingShape>)
    ensures |r| == |hs|
    ensures forall i :: 0 <= i < |hs| ==> r[i] == HeadingShape(hs[i].id, hs[i].level)
  {
    if |hs| == 0 then [] else [HeadingShape(hs[0].id, hs[0].level)] + Shape(hs[1..])
  }

  // ------------------------------------------------- the key as it is written

  /** One entry of the published key: `${id}:${level}`. */
  function KeyPart(s: HeadingShape): string {
    s.id + ":" + IntToString(s.level)
  }

  /** The entries of the key joined with commas. */
  function JoinedKey(shapes: seq<HeadingShape>): (k: string)
    ensures |shapes| == 0 <==> k == ""
  {
    if |shapes| == 0 then ""
    else if |shapes| == 1 then KeyPart(shapes[0])
    else KeyPart(shapes[0]) + "," + JoinedKey(shapes[1..])
  }

  /**
   * The key the viewer compares with the previous one: empty exactly for
   * the empty outline, and otherwise led by the first heading's
   * `id:level` entry.
   */
  function HeadingsKey(outline: seq<TocHeading>): (k: string)
    ensures k == "" <==> outline == []
    ensures outline != [] ==> StartsWith(k, outline[0].id + ":" + IntToString(outline[0].level))
  {
    var shapes := Shape(outline);
    if |shapes| > 1 then
      assert JoinedKey(shapes) == KeyPart(shapes[0]) + ("," + JoinedKey(shapes[1..]));
      JoinedKey(shapes)
    else JoinedKey(shapes)
  }

  /** The outcome of the publish effect: the key to remember and the outline passed on, if any. */
  datatype PublishResult = PublishResult(key: string, published: Option<seq<TocHeading>>)

  /**
   * The publish effect as written: the outline is passed on, and its key
   * remembered, exactly when the key differs from the remembered one.
   */
  function PublishAsWritten(prevKey: string, outline: seq<TocHeading>): (r: PublishResult)
    ensures r.published.Some? ==> r.published.value == outline && r.key != prevKey
    ensures r.published.None? ==> r.key == prevKey
    ensures r.published.None? <==> HeadingsKey(outline) == prevKey
  {
    var key := HeadingsKey(outline);
    if key != prevKey then PublishResult(key, Some(outline)) else PublishResult(prevKey, None)
  }

  /** Headings that differ only in their text have the same key, so a text edit is not republished. */
  lemma TextOnlyChangeKeepsKey(a: seq<TocHeading>, b: seq<TocHeading>)
    requires Shape(a) == Shape(b)
    ensures HeadingsKey(a) == HeadingsKey(b)
    ensures PublishAsWritten(HeadingsKey(a), b).published.None?
  {
  }

  /**
   * The key is not injective: one heading with id `a:1,b` and two headings
   * `a` and `b` at level 1 give the same key `a:1,b:1`, so going from one
   * outline to the other is never published although the outline changed.
   */
  lemma HeadingsKeyCollision()
    ensures
      var one := [TocHeading("a:1,b", "A", 1)];
      var two := [TocHeading("a", "A", 1), TocHeading("b", "B", 1)];
      && Shape(one) != Shape(two)
      && HeadingsKey(one) == HeadingsKey(two)
      && PublishAsWritten(HeadingsKey(one), two).published.None?
  {
    var one := [TocHeading("a:1,b", "A", 1)];
    var two := [TocHeading("a", "A", 1), TocHeading("b", "B", 1)];
    assert IntToString(1) == "1" by { assert DigitChar(1) == '1'; }
    assert Shape(one)[0] != Shape(two)[0];
    assert HeadingsKey(one) == "a:1,b:1";
    assert Shape(two)[1..] == [HeadingShape("b", 1)];
    assert HeadingsKey(two) == "a:1,b:1";
  }

  /**
   * The key as written does tell outlines apart when no id contains a `,`:
   * the key splits at each `,`, and each entry at its last `:`, since a
   * number's decimal text has neither. A `:` inside an id is harmless.
   */
  lemma HeadingsKeySeparatesShapes(a: seq<TocHeading>, b: seq<TocHeading>)
    requires forall i :: 0 <= i < |a| ==> ',' !in a[i].id
    requires forall i :: 0 <= i < |b| ==> ',' !in b[i].id
    ensures HeadingsKey(a) == HeadingsKey(b) <==> Shape(a) == Shape(b)
  {
    if HeadingsKey(a) == HeadingsKey(b) {
      JoinedKeyInjective(Shape(a), Shape(b));
    }
  }

  /** With comma-free ids, equal written keys mean equal shapes. */
  lemma {:induction false} JoinedKeyInjective(a: seq<HeadingShape>, b: seq<HeadingShape>)
    requires forall i :: 0 <= i < |a| ==> ',' !in a[i].id
    requires forall i :: 0 <= i < |b| ==> ',' !in b[i].id
    requires JoinedKey(a) == JoinedKey(b)
    ensures a == b
    decreases |a|
  {
    if |a| > 0 {
      var k := JoinedKey(a);
      FirstEntry(a);
      FirstEntry(b);
      KeyPartInjective(a[0], b[0]);
      if |a| > 1 {
        JoinedKeyInjective(a[1..], b[1..]);
        assert a == [a[0]] + a[1..] && b == [b[0]] + b[1..];
      }
    }
  }

  /**
   * The first entry of a written key is the text before its first `,`; more
   * entries follow exactly when the key goes on, and they are the rest.
   */
  lemma FirstEntry(shapes: seq<HeadingShape>)
    requires |shapes| > 0
    requires forall i :: 0 <= i < |shapes| ==> ',' !in shapes[i].id
    ensures BeforeFirst(JoinedKey(shapes), ',') == KeyPart(shapes[0])
    ensures |shapes| > 1 <==> |JoinedKey(shapes)| > |KeyPart(shapes[0])|
    ensures |shapes| > 1 ==> JoinedKey(shapes)[|KeyPart(shapes[0])| + 1..] == JoinedKey(shapes[1..])
  {
    var p := KeyPart(shapes[0]);
    KeyPartNoComma(shapes[0]);
    if |shapes| > 1 {
      var rest := JoinedKey(shapes[1..]);
      assert JoinedKey(shapes) == p + [','] + rest;
      BeforeSeparator(p, ',', rest);
    } else {
      BeforeFirstAbsent(p, ',');
    }
  }

  lemma KeyPartNoComma(x: HeadingShape)
    requires ',' !in x.id
    ensures ',' !in KeyPart(x)
  {
    NoCommaInNumber(x.level);
  }

  lemma NoColonInNumber(i: int)
    ensures ':' !in IntToString(i)
  {
    var r := IntToString(i);
    if i < 0 {
      assert r == [r[0]] + r[1..];
    }
  }

  /** An entry's level is the text after its last `:`, and its id the text before. */
  lemma KeyPartInjective(x: HeadingShape, y: HeadingShape)
    requires KeyPart(x) == KeyPart(y)
    ensures x == y
  {
    var nx := IntToString(x.level);
    var ny := IntToString(y.level);
    NoColonInNumber(x.level);
    NoColonInNumber(y.level);
    assert KeyPart(x) == x.id + [':'] + nx;
    assert KeyPart(y) == y.id + [':'] + ny;
    JoinAtSeparatorInjective(x.id, nx, y.id, ny, ':');
    IntToStringInjective(x.level, y.level);
  }

  // ------------------------------------------------------ an injective key

  /**
   * A key that determines the shape: each entry is the id's length, `:`,
   * the id, the level and a terminating `,`. The length makes the id's own
   * characters harmless.
   */
  function EntryKey(s: HeadingShape): string {
    NatToString(|s.id|) + ":" + s.id + IntToString(s.level) + ","
  }

  function ShapeKey(shapes: seq<HeadingShape>): (k: string)
    ensures |shapes| == 0 <==> k == ""
  {
    if |shapes| == 0 then "" else EntryKey(shapes[0]) + ShapeKey(shapes[1..])
  }

  /** A value read from the front of a key and the number of characters it took. */
  datatype Read<+T> = Read(value: T, used: nat)

  /** Reads the id length and its `:`. */
  function ReadLength(k: string): (r: Option<Read<nat>>)
    ensures r.Some? ==> 0 < r.value.used <= |k|
  {
    var lenText := DigitPrefix(k);
    var p := |lenText|;
    if p == 0 || p == |k| || k[p] != ':' then None
    else Some(Read(DigitsValue(lenText), p + 1))
  }

  /** Reads a level and its `,`. */
  function ReadLevel(t: string): (r: Option<Read<int>>)
    ensures r.Some? ==> 0 < r.value.used <= |t|
  {
    var levelText := BeforeFirst(t, ',');
    if |levelText| == |t| then None
    else
      match ParseInt(levelText)
      case None => None
      case Some(level) => Some(Read(level, |levelText| + 1))
  }

  /** Reads one entry. */
  function ReadEntry(k: string): (r: Option<Read<HeadingShape>>)
    ensures r.Some? ==> 0 < r.value.used <= |k|
  {
    match ReadLength(k)
    case None => None
    case Some(length) =>
      var q := length.used;
      var n := length.value;
      if q + n > |k| then None
      else
        match ReadLevel(k[q + n..])
        case None => None
        case Some(level) => Some(Read(HeadingShape(k[q..q + n], level.value), q + n + level.used))
  }

  /** Reads a key written by `ShapeKey` back; `None` for text that is not such a key. */
  function DecodeShapeKey(k: string): Option<seq<HeadingShape>>
    decreases |k|
  {
    if k == "" then Some([])
    else
      match ReadEntry(k)
      case None => None
      case Some(entry) =>
        match DecodeShapeKey(k[entry.used..])
        case None => None
        case Some(more) => Some([entry.value] + more)
  }

  /** A digit run followed by a non-digit is the digit prefix. */
  lemma {:induction false} DigitPrefixStopsAtNonDigit(d: string, t: string)
    requires AllDigits(d)
    requires |t| > 0 && !IsDigit(t[0])
    ensures DigitPrefix(d + t) == d
    decreases |d|
  {
    if |d| == 0 {
      assert d + t == t;
    } else {
      assert (d + t)[0] == d[0];
      assert (d + t)[1..] == d[1..] + t;
      DigitPrefixStopsAtNonDigit(d[1..], t);
    }
  }

  /** Text before the first occurrence of a separator it does not contain. */
  lemma BeforeSeparator(a: string, c: char, b: string)
    requires c !in a
    ensures BeforeFirst(a + [c] + b, c) == a
  {
    var s := a + [c] + b;
    assert s[|a|] == c;
    assert forall i :: 0 <= i < |a| ==> s[i] == a[i] != c;
    assert s[..|a|] == a;
  }

  lemma NoCommaInNumber(i: int)
    ensures ',' !in IntToString(i)
  {
    var r := IntToString(i);
    if i < 0 {
      assert r == [r[0]] + r[1..];
    }
  }

  lemma ReadLengthOf(n: nat, more: string)
    ensures ReadLength(NatToString(n) + ":" + more) == Some(Read(n, |NatToString(n)| + 1))
  {
    var lenText := NatToString(n);
    var k := lenText + ":" + more;
    assert k == lenText + (":" + more);
    DigitPrefixStopsAtNonDigit(lenText, ":" + more);
    assert k[|lenText|] == ':';
  }

  lemma ReadLevelOf(level: int, rest: string)
    ensures ReadLevel(IntToString(level) + "," + rest) == Some(Read(level, |IntToString(level)| + 1))
  {
    NoCommaInNumber(level);
    BeforeSeparator(IntToString(level), ',', rest);
    ParseIntRoundTrip(level);
  }

  lemma ReadEntryOf(s: HeadingShape, rest: string)
    ensures ReadEntry(EntryKey(s) + rest).Some?
    ensures ReadEntry(EntryKey(s) + rest).value.value == s
    ensures ReadEntry(EntryKey(s) + rest).value.used == |EntryKey(s)|
  {
    EntryReadsBack(s, rest);
  }

  /** One entry reads back as itself, taking exactly its own characters. */
  lemma EntryReadsBack(s: HeadingShape, rest: string)
    ensures ReadEntry(EntryKey(s) + rest) == Some(Read(s, |EntryKey(s)|))
  {
    var levelText := IntToString(s.level);
    ReadLengthOf(|s.id|, s.id + levelText + "," + rest);
    ReadLevelOf(s.level, rest);
    ReadEntryOfTexts(NatToString(|s.id|), s.id, levelText, s.level, rest);
  }

  /** `ReadEntryOf` for any length and level texts that read back. */
  lemma ReadEntryOfTexts(lenText: string, id: string, levelText: string, level: int, rest: string)
    requires ReadLength(lenText + ":" + (id + levelText + "," + rest)) == Some(Read(|id|, |lenText| + 1))
    requires ReadLevel(levelText + "," + rest) == Some(Read(level, |levelText| + 1))
    ensures ReadEntry(lenText + ":" + id + levelText + "," + rest) ==
      Some(Read(HeadingShape(id, level), |lenText + ":" + id + levelText + ","|))
  {
    EntryTextRegrouped(lenText, id, levelText, rest);
    ReadEntryFromParts(lenText + ":" + id + levelText + "," + rest, lenText + ":", id, levelText + "," + rest, level, |levelText| + 1);
  }

  /** The same entry text, grouped as the readers take it apart. */
  lemma EntryTextRegrouped(lenText: string, id: string, levelText: string, rest: string)
    ensures lenText + ":" + id + levelText + "," + rest == (lenText + ":") + (id + (levelText + "," + rest))
    ensures lenText + ":" + (id + levelText + "," + rest) == (lenText + ":") + (id + (levelText + "," + rest))
    ensures |lenText + ":" + id + levelText + ","| == |lenText + ":"| + |id| + (|levelText| + 1)
  {
  }

  /** An entry whose length and level read back reads back as a whole. */
  lemma ReadEntryFromParts(k: string, front: string, id: string, t: string, level: int, m: nat)
    requires k == front + (id + t)
    requires ReadLength(k) == Some(Read(|id|, |front|))
    requires ReadLevel(t) == Some(Read(level, m))
    ensures ReadEntry(k) == Some(Read(HeadingShape(id, level), |front| + |id| + m))
  {
    EntrySlices(k, front, id, t);
    ReadEntryParts(k, |front|, id, t, level, m);
  }

  /** Where the id and the rest sit in an entry. */
  lemma EntrySlices(k: string, front: string, id: string, t: string)
    requires k == front + (id + t)
    ensures |front| + |id| <= |k|
    ensures k[|front|..|front| + |id|] == id
    ensures k[|front| + |id|..] == t
  {
    assert k == front + id + t;
    ThreeSlices(front, id, t);
  }

  lemma ReadEntryParts(k: string, q: nat, id: string, t: string, level: int, m: nat)
    requires ReadLength(k) == Some(Read(|id|, q))
    requires q + |id| <= |k| && k[q..q + |id|] == id && k[q + |id|..] == t
    requires ReadLevel(t) == Some(Read(level, m))
    ensures ReadEntry(k) == Some(Read(HeadingShape(id, level), q + |id| + m))
  {
  }

  /** The middle and the end of a string put together from three parts. */
  lemma ThreeSlices(x: string, y: string, z: string)
    ensures (x + y + z)[|x|..|x| + |y|] == y
    ensures (x + y + z)[|x| + |y|..] == z
  {
  }

  /** One entry followed by more key text decodes to that entry followed by whatever the rest decodes to. */
  lemma DecodeEntry(s: HeadingShape, rest: string)
    ensures DecodeShapeKey(EntryKey(s) + rest) ==
      match DecodeShapeKey(rest)
      case None => None
      case Some(more) => Some([s] + more)
  {
    var k := EntryKey(s) + rest;
    ReadEntryOf(s, rest);
    assert k[|EntryKey(s)|..] == rest;
  }

  /** Decoding a key gives back the shape it was built from. */
  lemma {:induction false} ShapeKeyRoundTrip(shapes: seq<HeadingShape>)
    ensures DecodeShapeKey(ShapeKey(shapes)) == Some(shapes)
    decreases |shapes|
  {
    if |shapes| > 0 {
      ShapeKeyRoundTrip(shapes[1..]);
      DecodeEntry(shapes[0], ShapeKey(shapes[1..]));
      assert [shapes[0]] + shapes[1..] == shapes;
    }
  }

  /** Different shapes have different keys. */
  lemma ShapeKeyInjective(a: seq<HeadingShape>, b: seq<HeadingShape>)
    requires ShapeKey(a) == ShapeKey(b)
    ensures a == b
  {
    ShapeKeyRoundTrip(a);
    ShapeKeyRoundTrip(b);
  }

  /** The key the viewer remembers: empty exactly for the empty outline, and it decodes back to the outline's ids and levels. */
  function OutlineKey(outline: seq<TocHeading>): (k: string)
    ensures k == "" <==> outline == []
    ensures DecodeShapeKey(k) == Some(Shape(outline))
  {
    ShapeKeyRoundTrip(Shape(outline));
    ShapeKey(Shape(outline))
  }

  /**
   * The publish effect with the injective key: the outline is passed on
   * exactly when its ids or levels differ from those of the outline published
   * last, and a change of heading text alone is never passed on.
   */
  function Publish(prevKey: string, outline: seq<TocHeading>): (r: PublishResult)
    ensures r.published.Some? ==> r.published.value == outline
    ensures r.key == OutlineKey(outline)
    ensures forall last :: prevKey == OutlineKey(last) ==>
      (r.published.Some? <==> Shape(outline) != Shape(last))
  {
    var key := OutlineKey(outline);
    assert forall last :: prevKey == OutlineKey(last) && Shape(outline) != Shape(last) ==> key != prevKey by {
      forall last | prevKey == OutlineKey(last) && key == prevKey
        ensures Shape(outline) == Shape(last)
      {
        ShapeKeyInjective(Shape(outline), Shape(last));
      }
    }
    if key != prevKey then PublishResult(key, Some(outline)) else PublishResult(prevKey, None)
  }

  /** The two outlines that the written key confuses are told apart. */
  lemma PublishSeparatesCollision()
    ensures
      var one := [TocHeading("a:1,b", "A", 1)];
      var two := [TocHeading("a", "A", 1), TocHeading("b", "B", 1)];
      Publish(OutlineKey(one), two).published == Some(two)
  {
    var one := [TocHeading("a:1,b", "A", 1)];
    var two := [TocHeading("a", "A", 1), TocHeading("b", "B", 1)];
    assert Shape(one)[0] != Shape(two)[0];
  }

  /** The same outline rendered twice is published once. */
  lemma PublishOnce(prevKey: string, outline: seq<TocHeading>)
    ensures Publish(Publish(prevKey, outline).key, outline).published.None?
  {
  }
}

=== FILE: panels.dfy ===
/**
 * The two resizable side panels, the file sidebar and the table of
 * contents: their stored width, the drag that resizes them, and what they
 * list and highlight.
 */
module Panels {
  import opened Wrappers
  import opened Text
  import opened Groups
  import opened Headings

  // ------------------------------------------------------------------ width

  datatype Panel = Sidebar | Toc

  const MinWidth := 180
  const MaxWidth := 480

  /** The width used when nothing usable is stored. */
  function DefaultWidth(p: Panel): (w: int)
    ensures MinWidth <= w <= MaxWidth
    ensures p == Sidebar ==> w == 260
    ensures p == Toc ==> w == 240
  {
    match p
    case Sidebar => 260
    case Toc => 240
  }

  /** The local-storage key each panel keeps its width under. */
  function StorageKey(p: Panel): string {
    match p
    case Sidebar => "mo-sidebar-width"
    case Toc => "mo-toc-width"
  }

  predicate InRange(w: int) {
    MinWidth <= w <= MaxWidth
  }

  /**
   * `getInitialWidth`: a non-empty stored text whose `parseInt` value lies
   * in the range is used; anything else (nothing stored, the empty text,
   * no number, a number out of range) gives the panel's default.
   */
  function InitialWidth(p: Panel, stored: Option<string>): (w: int)
    ensures InRange(w)
    ensures w != DefaultWidth(p) ==> stored.Some? && ParseInt(stored.value) == Some(w)
    ensures stored.Some? && stored.value != "" && ParseInt(stored.value).Some? && InRange(ParseInt(stored.value).value) ==>
      w == ParseInt(stored.value).value
    ensures stored.None? || stored.value == "" ==> w == DefaultWidth(p)
  {
    if stored.Some? && stored.value != "" then
      match ParseInt(stored.value)
      case Some(n) => if InRange(n) then n else DefaultWidth(p)
      case None => DefaultWidth(p)
    else DefaultWidth(p)
  }

  /** `Math.min(MAX_WIDTH, Math.max(MIN_WIDTH, x))`. */
  function Clamp(x: int): (w: int)
    ensures InRange(w)
    ensures InRange(x) ==> w == x
    ensures x < MinWidth ==> w == MinWidth
    ensures x > MaxWidth ==> w == MaxWidth
  {
    if x < MinWidth then MinWidth else if x > MaxWidth then MaxWidth else x
  }

  /**
   * The width a mouse position asks for: the distance from the panel's
   * fixed edge to the mouse, the window's left edge for the sidebar and
   * its right edge for the contents panel.
   */
  function DragTarget(p: Panel, clientX: int, innerWidth: int): (w: int)
    ensures p == Sidebar ==> w == clientX - 0
    ensures p == Toc ==> w + clientX == innerWidth
  {
    match p
    case Sidebar => clientX
    case Toc => innerWidth - clientX
  }

  /** A panel's width and whether a drag is in progress. */
  datatype PanelState = PanelState(width: int, dragging: bool)

  datatype MouseEvent =
    | MouseDown                                 // on the resize handle
    | MouseMove(clientX: int, innerWidth: int)  // anywhere in the document
    | MouseUp                                   // anywhere in the document

  function InitialPanel(p: Panel, stored: Option<string>): (s: PanelState)
    ensures s.width == InitialWidth(p, stored) && !s.dragging
  {
    PanelState(InitialWidth(p, stored), false)
  }

  /**
   * The mouse handlers: a press on the handle starts a drag, a move
   * during a drag sets the clamped width, a release ends the drag, and
   * moves and releases outside a drag change nothing.
   */
  function OnMouse(p: Panel, s: PanelState, e: MouseEvent): (t: PanelState)
    ensures e.MouseDown? ==> t == PanelState(s.width, true)
    ensures e.MouseUp? ==> t == PanelState(s.width, false)
    ensures e.MouseMove? && !s.dragging ==> t == s
    ensures e.MouseMove? && s.dragging ==> t.dragging && t.width == Clamp(DragTarget(p, e.clientX, e.innerWidth))
    ensures InRange(s.width) ==> InRange(t.width)
  {
    match e
    case MouseDown => s.(dragging := true)
    case MouseMove(clientX, innerWidth) =>
      if !s.dragging then s else s.(width := Clamp(DragTarget(p, clientX, innerWidth)))
    case MouseUp => if !s.dragging then s else s.(dragging := false)
  }

  /** Moving the mouse right by `d` widens the sidebar by `d` and narrows the contents panel by `d`. */
  lemma DragFollowsMouse(p: Panel, clientX: int, d: int, innerWidth: int)
    ensures DragTarget(p, clientX + d, innerWidth) == DragTarget(p, clientX, innerWidth) + (if p == Sidebar then d else -d)
  {
  }

  function OnMouseEvents(p: Panel, s: PanelState, es: seq<MouseEvent>): PanelState
    decreases |es|
  {
    if |es| == 0 then s else OnMouseEvents(p, OnMouse(p, s, es[0]), es[1..])
  }

  /** Whatever the mouse does, the width stays within the range. */
  lemma {:induction false} WidthStaysInRange(p: Panel, s: PanelState, es: seq<MouseEvent>)
    requires InRange(s.width)
    ensures InRange(OnMouseEvents(p, s, es).width)
    decreases |es|
  {
    if |es| > 0 {
      WidthStaysInRange(p, OnMouse(p, s, es[0]), es[1..]);
    }
  }

  /** Without a press on the handle, no sequence of moves and releases changes the width. */
  lemma {:induction false} NoDragNoResize(p: Panel, s: PanelState, es: seq<MouseEvent>)
    requires !s.dragging
    requires forall i :: 0 <= i < |es| ==> !es[i].MouseDown?
    ensures OnMouseEvents(p, s, es) == s
    decreases |es|
  {
    if |es| > 0 {
      NoDragNoResize(p, OnMouse(p, s, es[0]), es[1..]);
    }
  }

  /**
   * The width written back to storage (`String(width)`) is read back as
   * the same width on the next load, for every width a panel can have.
   */
  lemma PersistRoundTrip(p: Panel, w: int)
    requires InRange(w)
    ensures InitialWidth(p, Some(IntToString(w))) == w
  {
    ParseIntRoundTrip(w);
  }

  // ---------------------------------------------------------------- sidebar

  /** One button of the file list. */
  datatype FileRow = FileRow(id: int, title: string, highlighted: bool)

  /** The files of the active group, in order; none when the group is missing. */
  function SidebarFiles(groups: seq<Group>, activeGroup: string): (r: seq<FileEntry>)
    ensures FindGroup(groups, activeGroup).None? ==> r == []
    ensures FindGroup(groups, activeGroup).Some? ==> r == FindGroup(groups, activeGroup).value.files
  {
    match FindGroup(groups, activeGroup)
    case None => []
    case Some(g) => g.files
  }

  /** The sidebar's rows: one per listed file, titled by its name, highlighted when it is the shown file. */
  function SidebarRows(groups: seq<Group>, activeGroup: string, activeFileId: Option<int>): (rows: seq<FileRow>)
    ensures |rows| == |SidebarFiles(groups, activeGroup)|
    ensures forall i :: 0 <= i < |rows| ==>
      var f := SidebarFiles(groups, activeGroup)[i];
      rows[i].id == f.id && rows[i].title == f.name && (rows[i].highlighted <==> activeFileId == Some(f.id))
  {
    var files := SidebarFiles(groups, activeGroup);
    seq(|files|, i requires 0 <= i < |files| => FileRow(files[i].id, files[i].name, activeFileId == Some(files[i].id)))
  }

  /** With no file shown nothing is highlighted; with distinct ids at most one row is. */
  lemma SidebarHighlightUnique(groups: seq<Group>, activeGroup: string, activeFileId: Option<int>)
    requires
      var files := SidebarFiles(groups, activeGroup);
      forall i, j :: 0 <= i < j < |files| ==> files[i].id != files[j].id
    ensures
      var rows := SidebarRows(groups, activeGroup, activeFileId);
      && (activeFileId.None? ==> forall i :: 0 <= i < |rows| ==> !rows[i].highlighted)
      && forall i, j :: 0 <= i < |rows| && 0 <= j < |rows| && rows[i].highlighted && rows[j].highlighted ==> i == j
  {
    var files := SidebarFiles(groups, activeGroup);
    var rows := SidebarRows(groups, activeGroup, activeFileId);
    forall i, j | 0 <= i < |rows| && 0 <= j < |rows| && rows[i].highlighted && rows[j].highlighted ensures i == j {
      assert files[i].id == activeFileId.value == files[j].id;
    }
  }

  // ------------------------------------------------------- table of contents

  /** The indentation unit count of the `pl-N` class for a heading level; levels outside 1..6 indent like level 1. */
  function IndentUnits(level: int): (n: nat)
    ensures 3 <= n <= 15 && n % 3 == 0
  {
    if 2 <= level <= 6 then 3 * (level - 1) else 3
  }

  /** The `INDENT` table with its `pl-3` fallback: the class `pl-` followed by the unit count. */
  function Indent(level: int): (c: string)
    ensures c == "pl-" + NatToString(IndentUnits(level))
  {
    assert NatToString(3) == "3" && NatToString(6) == "6" && NatToString(9) == "9";
    assert NatToString(1) == "1";
    assert NatToString(12) == NatToString(1) + [DigitChar(2)] == "12";
    assert NatToString(15) == NatToString(1) + [DigitChar(5)] == "15";
    if level == 1 || level == 2 then "pl-3"
    else if level == 3 then "pl-6"
    else if level == 4 then "pl-9"
    else if level == 5 then "pl-12"
    else if level == 6 then "pl-15"
    else "pl-3"
  }

  /**
   * The indent deepens by three units per level from level 2 to 6; level 1
   * shares level 2's indent, and every other level falls back to it.
   */
  lemma IndentDeepensByLevel(level: int)
    ensures 2 <= level < 6 ==> IndentUnits(level + 1) == IndentUnits(level) + 3
    ensures Indent(1) == Indent(2) == "pl-3"
    ensures (level < 1 || level > 6) ==> Indent(level) == Indent(1)
  {
    assert NatToString(3) == "3";
  }

  /** One entry of the table of contents. */
  datatype TocRow = TocRow(id: string, text: string, indent: string, highlighted: bool)

  /** What the table of contents shows. */
  datatype TocView = NoHeadings | Entries(rows: seq<TocRow>)

  /** The panel's body: a placeholder for an empty outline, else one entry per heading, highlighted when it is the active one. */
  function TocRows(headings: seq<TocHeading>, activeHeadingId: Option<string>): (v: TocView)
    ensures v.NoHeadings? <==> headings == []
    ensures v.Entries? ==> |v.rows| == |headings|
    ensures v.Entries? ==> forall i :: 0 <= i < |headings| ==>
      && v.rows[i].id == headings[i].id
      && v.rows[i].text == headings[i].text
      && v.rows[i].indent == Indent(headings[i].level)
      && (v.rows[i].highlighted <==> activeHeadingId == Some(headings[i].id))
  {
    if |headings| == 0 then NoHeadings
    else
      Entries(seq(|headings|, i requires 0 <= i < |headings| =>
        TocRow(headings[i].id, headings[i].text, Indent(headings[i].level), activeHeadingId == Some(headings[i].id))))
  }

  /** The heading the observer picks is highlighted, and it is the only one when ids are distinct. */
  lemma TocHighlightsActive(headings: seq<TocHeading>, k: int)
    requires 0 <= k < |headings|
    requires forall i, j :: 0 <= i < j < |headings| ==> headings[i].id != headings[j].id
    ensures
      var v := TocRows(headings, Some(headings[k].id));
      forall i :: 0 <= i < |headings| ==> (v.rows[i].highlighted <==> i == k)
  {
    var v := TocRows(headings, Some(headings[k].id));
    forall i | 0 <= i < |headings| ensures v.rows[i].highlighted <==> i == k {
      assert v.rows[i].highlighted <==> headings[i].id == headings[k].id;
    }
  }
}

=== FILE: resolve.dfy ===
/**
 * Classification of the links and image sources found in a rendered
 * markdown document, and extraction of a fenced code block's language tag.
 */
module Resolve {
  import opened Wrappers
  import opened Text

  /** What the viewer does with a link: the five variants of `LinkResolution`. */
  datatype LinkResolution =
    | External
    | Hash
    | Markdown(hrefPath: string)
    | File(rawUrl: string)
    | Passthrough

  const RawApiPrefix := "/_/api/files/"

  /** The URL under which the server serves `path` relative to the directory of file `fileId`. */
  function RawUrl(fileId: int, path: string): string {
    RawApiPrefix + IntToString(fileId) + "/raw/" + path
  }

  predicate IsHttpUrl(s: string) {
    StartsWith(s, "http://") || StartsWith(s, "https://")
  }

  /** Absent, empty, or an absolute http(s) URL. */
  predicate IsExternalHref(href: Option<string>) {
    href.None? || href.value == "" || IsHttpUrl(href.value)
  }

  /** A same-page anchor. */
  predicate IsHashHref(href: Option<string>) {
    !IsExternalHref(href) && StartsWith(href.value, "#")
  }

  /** A reference relative to the current document. */
  predicate IsLocalHref(href: Option<string>) {
    !IsExternalHref(href) && !StartsWith(href.value, "#")
  }

  /** `p` is `h` with its fragment removed: everything before the first `#`. */
  predicate IsFragmentFree(h: string, p: string) {
    StartsWith(h, p) && '#' !in p && (|p| == |h| || h[|p|] == '#')
  }

  /** The last `/`-separated segment of `p` contains a `.`. */
  predicate HasExtension(p: string) {
    exists k :: 0 <= k < |p| && p[k] == '.' && '/' !in p[k..]
  }

  lemma FragmentFreeIsBeforeFirst(h: string)
    ensures IsFragmentFree(h, BeforeFirst(h, '#'))
    ensures forall p :: IsFragmentFree(h, p) ==> p == BeforeFirst(h, '#')
  {
    var b := BeforeFirst(h, '#');
    forall p | IsFragmentFree(h, p)
      ensures p == b
    {
      assert forall i :: 0 <= i < |p| ==> h[i] == p[i] != '#';
      assert forall i :: 0 <= i < |b| ==> h[i] == b[i] != '#';
    }
  }

  lemma {:induction false} ExtensionInLastSegment(p: string)
    ensures '.' in LastSegment(p, '/') <==> HasExtension(p)
  {
    var b := LastSegment(p, '/');
    var start := |p| - |b|;
    assert p[start..] == b;
    if '.' in b {
      var j :| 0 <= j < |b| && b[j] == '.';
      assert p[start + j..] == b[j..];
      assert p[start + j] == '.';
    }
    if HasExtension(p) {
      var k :| 0 <= k < |p| && p[k] == '.' && '/' !in p[k..];
      assert forall i :: k <= i < |p| ==> p[i] == p[k..][i - k] != '/';
      assert k >= start;
      assert b[k - start] == '.';
    }
  }

  /**
   * `resolveLink`: every href falls into exactly one variant. The order of
   * the tests matters: an external or hash href is never looked at as a
   * path, and a `.md` path wins over the extension test.
   */
  function ResolveLink(href: Option<string>, fileId: int): (r: LinkResolution)
    ensures r.External? <==> IsExternalHref(href)
    ensures r.Hash? <==> IsHashHref(href)
    ensures r.Markdown? <==>
      IsLocalHref(href) && forall p :: IsFragmentFree(href.value, p) ==> EndsWith(p, ".md")
    ensures r.Markdown? ==> IsFragmentFree(href.value, r.hrefPath)
    ensures r.File? <==>
      IsLocalHref(href) &&
      forall p :: IsFragmentFree(href.value, p) ==> !EndsWith(p, ".md") && HasExtension(p)
    ensures r.File? ==> r.rawUrl == RawUrl(fileId, href.value)
    ensures r.Passthrough? <==>
      IsLocalHref(href) &&
      forall p :: IsFragmentFree(href.value, p) ==> !EndsWith(p, ".md") && !HasExtension(p)
  {
    if IsExternalHref(href) then External
    else if StartsWith(href.value, "#") then Hash
    else
      var h := href.value;
      var path := BeforeFirst(h, '#');
      FragmentFreeIsBeforeFirst(h);
      if EndsWith(path, ".md") then Markdown(path)
      else
        var basename := LastSegment(path, '/');
        ExtensionInLastSegment(path);
        if '.' in basename then File(RawUrl(fileId, h)) else Passthrough
  }

  /** The document id only ever shows up in the raw URL of the file variant. */
  lemma ResolveLinkIgnoresFileIdOutsideFiles(href: Option<string>, a: int, b: int)
    ensures ResolveLink(href, a).File? == ResolveLink(href, b).File?
    ensures !ResolveLink(href, a).File? ==> ResolveLink(href, a) == ResolveLink(href, b)
  {
  }

  lemma ResolveLinkExternalExamples()
    ensures ResolveLink(None, 1) == External
    ensures ResolveLink(Some("https://example.com/page"), 1) == External
    ensures ResolveLink(Some("#section"), 1) == Hash
  {
    assert "https://example.com/page"[..8] == "https://";
    assert "#section"[..1] == "#";
    assert "#section"[0] != 'h';
  }

  /** `h` is local and its first character is neither `h` nor `#`. */
  lemma LocalByFirstChar(h: string)
    requires |h| > 0 && h[0] != 'h' && h[0] != '#'
    ensures IsLocalHref(Some(h))
  {
    assert |h| >= 7 ==> h[..7][0] == h[0];
    assert |h| >= 8 ==> h[..8][0] == h[0];
    assert h[..1][0] == h[0];
  }

  lemma PathOfReadme()
    ensures BeforeFirst("readme.md#title", '#') == "readme.md"
    ensures EndsWith("readme.md", ".md")
  {
    var h := "readme.md#title";
    assert h[..9] == "readme.md";
    assert IsFragmentFree(h, "readme.md");
    FragmentFreeIsBeforeFirst(h);
    assert "readme.md"[6..] == ".md";
  }

  lemma ResolveLinkMarkdownExample()
    ensures ResolveLink(Some("readme.md#title"), 5) == Markdown("readme.md")
  {
    LocalByFirstChar("readme.md#title");
    PathOfReadme();
  }

  lemma PathOfCsv()
    ensures BeforeFirst("data.csv#sheet1", '#') == "data.csv"
    ensures !EndsWith("data.csv", ".md")
    ensures '.' in LastSegment("data.csv", '/')
  {
    var h := "data.csv#sheet1";
    assert h[..8] == "data.csv";
    assert IsFragmentFree(h, "data.csv");
    FragmentFreeIsBeforeFirst(h);
    assert "data.csv"[5..][0] == 'c';
    assert "data.csv"[4..] == ".csv";
    assert HasExtension("data.csv") by {
      assert "data.csv"[4] == '.' && '/' !in "data.csv"[4..];
    }
    ExtensionInLastSegment("data.csv");
  }

  lemma ResolveLinkFileExample()
    ensures ResolveLink(Some("data.csv#sheet1"), 2) == File("/_/api/files/2/raw/data.csv#sheet1")
  {
    LocalByFirstChar("data.csv#sheet1");
    PathOfCsv();
    RawUrlOfCsv();
  }

  lemma RawUrlOfCsv()
    ensures RawUrl(2, "data.csv#sheet1") == "/_/api/files/2/raw/data.csv#sheet1"
  {
    assert IntToString(2) == "2" by { assert DigitChar(2) == '2'; }
  }

  lemma ResolveLinkPassthroughExample()
    ensures ResolveLink(Some("dir/"), 1) == Passthrough
  {
    var h := "dir/";
    LocalByFirstChar(h);
    assert IsFragmentFree(h, h);
    FragmentFreeIsBeforeFirst(h);
    assert h[1..] != ".md";
    assert !HasExtension(h) by {
      assert forall k :: 0 <= k < |h| ==> h[k] != '.';
    }
  }

  /**
   * `resolveImageSrc`: a present, non-empty, non-http(s) source is served
   * through the raw-asset URL; everything else, including an absent source,
   * is left as it is.
   */
  function ResolveImageSrc(src: Option<string>, fileId: int): (r: Option<string>)
    ensures r.None? <==> src.None?
    ensures IsExternalHref(src) ==> r == src
    ensures !IsExternalHref(src) ==>
      && r.value == RawApiPrefix + IntToString(fileId) + "/raw/" + src.value
      && EndsWith(r.value, src.value) && r.value != src.value
  {
    if !IsExternalHref(src) then
      var u := RawUrl(fileId, src.value);
      assert u[|u| - |src.value|..] == src.value;
      Some(u)
    else src
  }

  /**
   * The segment after the raw-asset prefix, up to the next `/`, is the
   * document id in decimal, and it reads back as that id: a rewritten
   * image is served relative to the document that shows it.
   */
  lemma ImageUrlNamesDocument(src: string, fileId: int)
    requires !IsExternalHref(Some(src))
    ensures
      var u := ResolveImageSrc(Some(src), fileId).value;
      && StartsWith(u, RawApiPrefix)
      && BeforeFirst(u[|RawApiPrefix|..], '/') == IntToString(fileId)
      && ParseInt(BeforeFirst(u[|RawApiPrefix|..], '/')) == Some(fileId)
  {
    var u := ResolveImageSrc(Some(src), fileId).value;
    var id := IntToString(fileId);
    var tail := u[|RawApiPrefix|..];
    assert u[..|RawApiPrefix|] == RawApiPrefix;
    assert tail == id + ("/raw/" + src);
    NoSlashInNumber(fileId);
    BeforeFirstOfJoin(id, "/raw/" + src, '/');
    ParseIntRoundTrip(fileId);
  }

  lemma NoSlashInNumber(i: int)
    ensures '/' !in IntToString(i)
  {
    var id := IntToString(i);
    forall k | 0 <= k < |id| ensures id[k] != '/' {
      if i < 0 && k > 0 {
        assert id[k] == id[1..][k - 1];
      }
    }
  }

  /** An image source and a link that both point at a local asset resolve to the same URL. */
  lemma ImageSrcAgreesWithFileLink(h: string, fileId: int)
    requires ResolveLink(Some(h), fileId).File?
    ensures ResolveImageSrc(Some(h), fileId) == Some(ResolveLink(Some(h), fileId).rawUrl)
  {
  }

  // ------------------------------------------------------- extractLanguage

  const LanguageMarker := "language-"

  /** The regular-expression class `\w`. */
  predicate IsWordChar(c: char) {
    ('a' <= c <= 'z') || ('A' <= c <= 'Z') || ('0' <= c <= '9') || c == '_'
  }

  /** `/language-(\w+)/` can match starting at position `i` of `s`. */
  predicate LanguageMatchAt(s: string, i: int) {
    0 <= i && i + |LanguageMarker| < |s| &&
    s[i..i + |LanguageMarker|] == LanguageMarker && IsWordChar(s[i + |LanguageMarker|])
  }

  /** `w` is the longest run of word characters starting at position `k` of `s`. */
  predicate IsWordRunAt(s: string, k: int, w: string) {
    0 <= k && k + |w| <= |s| && s[k..k + |w|] == w &&
    (forall i :: 0 <= i < |w| ==> IsWordChar(w[i])) &&
    (k + |w| == |s| || !IsWordChar(s[k + |w|]))
  }

  /** The longest prefix of `s` made of word characters. */
  function WordRun(s: string): (r: string)
    ensures IsWordRunAt(s, 0, r)
  {
    if |s| > 0 && IsWordChar(s[0]) then
      var rest := WordRun(s[1..]);
      assert s[1..][..|rest|] == rest;
      [s[0]] + rest
    else ""
  }

  /** The leftmost position at or after `from` where the pattern matches. */
  function FirstLanguageMatch(s: string, from: nat): (r: Option<nat>)
    requires from <= |s|
    ensures r.Some? ==> from <= r.value && LanguageMatchAt(s, r.value)
    ensures forall j :: from <= j && (r.None? || j < r.value) ==> !LanguageMatchAt(s, j)
    decreases |s| - from
  {
    if from == |s| then None
    else if LanguageMatchAt(s, from) then Some(from)
    else FirstLanguageMatch(s, from + 1)
  }

  /**
   * `extractLanguage`: the word run captured by the leftmost match of
   * `/language-(\w+)/` in the class name, or `None` when nothing matches
   * (an absent class name is searched as the empty string).
   */
  function ExtractLanguage(className: Option<string>): (r: Option<string>)
    ensures r.None? <==> forall j :: !LanguageMatchAt(className.GetOr(""), j)
    ensures r.Some? ==> |r.value| > 0
    ensures r.Some? ==> forall i ::
      LanguageMatchAt(className.GetOr(""), i) &&
      (forall j :: 0 <= j < i ==> !LanguageMatchAt(className.GetOr(""), j)) ==>
      IsWordRunAt(className.GetOr(""), i + |LanguageMarker|, r.value)
  {
    var s := className.GetOr("");
    match FirstLanguageMatch(s, 0)
    case None => None
    case Some(i) =>
      var k := i + |LanguageMarker|;
      var w := WordRun(s[k..]);
      assert s[k..][..|w|] == s[k..k + |w|];
      assert |w| > 0 by { assert IsWordChar(s[k..][0]); }
      Some(w)
  }

  /** The longest run at a position is unique. */
  lemma WordRunUnique(s: string, k: int, v: string, w: string)
    requires IsWordRunAt(s, k, v) && IsWordRunAt(s, k, w)
    ensures v == w
  {
    assert forall i :: 0 <= i < |v| ==> s[k + i] == v[i];
    assert forall i :: 0 <= i < |w| ==> s[k + i] == w[i];
  }

  lemma ExtractLanguageExample()
    ensures ExtractLanguage(Some("foo language-python bar")) == Some("python")
  {
    var s := "foo language-python bar";
    assert LanguageMatchAt(s, 4) by {
      assert s[4..13] == "language-" == LanguageMarker;
      assert IsWordChar(s[13]);
    }
    assert s == "foo " + s[4..];
    assert forall j :: 0 <= j < 4 ==> !LanguageMatchAt(s, j) by {
      forall j | 0 <= j < 4 ensures !LanguageMatchAt(s, j) {
        assert s[j..j + 9][0] == s[j] == "foo "[j];
      }
    }
    assert IsWordRunAt(s, 13, "python") by { assert s[13..19] == "python"; }
    var r := ExtractLanguage(Some(s));
    WordRunUnique(s, 13, r.value, "python");
  }

  lemma ExtractLanguageAbsent()
    ensures ExtractLanguage(None) == None
    ensures ExtractLanguage(Some("")) == None
  {
  }
}

=== FILE: server.dfy ===
/**
 * The server's catalog: groups of files with ids handed out from a
 * counter, the lookups the HTTP handlers use, the group fallbacks of the
 * add and open requests, and the directory check in front of raw file
 * access. The groups live in a Go map; here they are a sequence whose order
 * stands for the map's unspecified iteration order, and no property below
 * depends on that order.
 */
module Server {
  import opened Wrappers
  import opened Text
  import Groups

  datatype ServerFile = ServerFile(name: string, id: int, path: string)

  datatype ServerGroup = ServerGroup(name: string, files: seq<ServerFile>)

  datatype ServerState = ServerState(groups: seq<ServerGroup>, nextId: int)

  /** The payload of a server-sent event: `{}` or `{"id":N}`. */
  datatype EventData = EmptyObject | FileIdObject(id: int)

  datatype ServerEvent = ServerEvent(name: string, data: EventData)

  const UpdateEventName := "update"
  const FileChangedEventName := "file-changed"

  /** A fresh server: no groups, and the first id handed out is 1. */
  function NewState(): ServerState {
    ServerState([], 1)
  }

  // ----------------------------------------------------------- file names

  /** The path with its trailing slashes removed. */
  function TrimTrailingSlashes(p: string): (r: string)
    ensures StartsWith(p, r)
    ensures |r| == 0 || r[|r| - 1] != '/'
    ensures forall i :: |r| <= i < |p| ==> p[i] == '/'
  {
    if |p| > 0 && p[|p| - 1] == '/' then TrimTrailingSlashes(p[..|p| - 1]) else p
  }

  /**
   * Go's `filepath.Base` on a slash-separated path: `.` for the empty path,
   * `/` for a path of slashes only, otherwise the last element once
   * trailing slashes are removed.
   */
  function BaseName(p: string): (r: string)
    ensures r != ""
    ensures p == "" ==> r == "."
    ensures r == "/" || r == "." || '/' !in r
    ensures |p| > 0 && p[|p| - 1] != '/' ==> EndsWith(p, r) && (|r| == |p| || p[|p| - |r| - 1] == '/')
  {
    if p == "" then "."
    else
      var trimmed := TrimTrailingSlashes(p);
      var last := LastSegment(trimmed, '/');
      if last == "" then "/" else last
  }

  /** The last element of a path whose final separator is followed by `b`. */
  lemma LastSegmentAfterSlash(a: string, b: string)
    requires '/' !in b
    ensures LastSegment(a + "/" + b, '/') == b
  {
    var p := a + "/" + b;
    var r := LastSegment(p, '/');
    assert p[|a|] == '/';
    assert forall i :: |a| < i < |p| ==> p[i] == b[i - |a| - 1];
    assert p[|p| - |b|..] == b;
  }

  lemma BaseNameExamples()
    ensures BaseName("/home/u/docs/readme.md") == "readme.md"
    ensures BaseName("/") == "/"
    ensures BaseName("") == "."
  {
    var p := "/home/u/docs/readme.md";
    assert p == "/home/u/docs" + "/" + "readme.md";
    assert TrimTrailingSlashes(p) == p;
    LastSegmentAfterSlash("/home/u/docs", "readme.md");
    assert TrimTrailingSlashes("/") == "";
  }

  // ------------------------------------------------------ the file catalog

  /** `f` is a file of one of the groups. */
  predicate InGroups(groups: seq<ServerGroup>, f: ServerFile) {
    exists i :: 0 <= i < |groups| && f in groups[i].files
  }

  /** Every file of every group, group after group. */
  function AllFiles(groups: seq<ServerGroup>): (r: seq<ServerFile>)
    ensures forall f :: f in r <==> InGroups(groups, f)
  {
    if |groups| == 0 then []
    else
      var rest := AllFiles(groups[1..]);
      assert forall f :: InGroups(groups, f) <==> f in groups[0].files || InGroups(groups[1..], f) by {
        forall f | InGroups(groups, f) ensures f in groups[0].files || InGroups(groups[1..], f) {
          var i :| 0 <= i < |groups| && f in groups[i].files;
          if i > 0 {
            assert groups[1..][i - 1] == groups[i];
          }
        }
        forall f | InGroups(groups[1..], f) ensures InGroups(groups, f) {
          var i :| 0 <= i < |groups[1..]| && f in groups[1..][i].files;
          assert groups[i + 1] == groups[1..][i];
        }
      }
      groups[0].files + rest
  }

  ghost predicate HasId(s: ServerState, id: int) {
    exists f :: InGroups(s.groups, f) && f.id == id
  }

  /** Within a group, ids increase in list order and no path occurs twice. */
  predicate GroupWf(g: ServerGroup) {
    forall a, b :: 0 <= a < b < |g.files| ==>
      g.files[a].id < g.files[b].id && g.files[a].path != g.files[b].path
  }

  predicate DistinctNames(groups: seq<ServerGroup>) {
    forall i, j :: 0 <= i < j < |groups| ==> groups[i].name != groups[j].name
  }

  /** Files of two different groups never share an id. */
  predicate CrossUnique(groups: seq<ServerGroup>) {
    forall i, j, f, g ::
      0 <= i < |groups| && 0 <= j < |groups| && i != j && f in groups[i].files && g in groups[j].files ==>
      f.id != g.id
  }

  /** Every id is in use below the counter. */
  predicate IdsBelow(groups: seq<ServerGroup>, nextId: int) {
    forall i, f :: 0 <= i < |groups| && f in groups[i].files ==> 1 <= f.id < nextId
  }

  /**
   * The catalog invariant: group names are distinct (map keys), every id is
   * below the counter and no id is used twice, and each group lists its
   * files in creation order without repeating a path.
   */
  predicate Wf(s: ServerState) {
    && s.nextId >= 1
    && DistinctNames(s.groups)
    && IdsBelow(s.groups, s.nextId)
    && CrossUnique(s.groups)
    && (forall i :: 0 <= i < |s.groups| ==> GroupWf(s.groups[i]))
  }

  lemma NewStateWf()
    ensures Wf(NewState())
  {
  }

  /** Index of the first group called `name`. */
  function GroupIndex(groups: seq<ServerGroup>, name: string): (r: Option<nat>)
    ensures r.Some? ==> r.value < |groups| && groups[r.value].name == name
    ensures r.Some? ==> forall j :: 0 <= j < r.value ==> groups[j].name != name
    ensures r.None? ==> forall j :: 0 <= j < |groups| ==> groups[j].name != name
  {
    if |groups| == 0 then None
    else if groups[0].name == name then Some(0)
    else
      match GroupIndex(groups[1..], name)
      case None => None
      case Some(i) => Some(i + 1)
  }

  /** A group put at the end is found only when no earlier group has its name. */
  lemma {:induction false} GroupIndexAppend(groups: seq<ServerGroup>, g: ServerGroup, name: string)
    ensures GroupIndex(groups + [g], name) ==
      if GroupIndex(groups, name).Some? then GroupIndex(groups, name)
      else if g.name == name then Some(|groups|) else None
    decreases |groups|
  {
    if |groups| > 0 {
      assert (groups + [g])[1..] == groups[1..] + [g];
      GroupIndexAppend(groups[1..], g, name);
    }
  }

  /** Replacing a group by one of the same name finds every name where it was. */
  lemma {:induction false} GroupIndexUpdate(groups: seq<ServerGroup>, i: nat, g: ServerGroup, name: string)
    requires i < |groups| && g.name == groups[i].name
    ensures GroupIndex(groups[i := g], name) == GroupIndex(groups, name)
    decreases |groups|
  {
    if i > 0 {
      assert groups[i := g][1..] == groups[1..][i - 1 := g];
      GroupIndexUpdate(groups[1..], i - 1, g, name);
    }
  }

  /** The files of the group called `name`, none if there is no such group. */
  function FilesOf(groups: seq<ServerGroup>, name: string): seq<ServerFile> {
    match GroupIndex(groups, name)
    case None => []
    case Some(i) => groups[i].files
  }

  function GroupFiles(s: ServerState, name: string): seq<ServerFile> {
    FilesOf(s.groups, name)
  }

  /** Position of the first file of `files` with path `path`. */
  function PathIndex(files: seq<ServerFile>, path: string): (r: Option<nat>)
    ensures r.Some? ==> r.value < |files| && files[r.value].path == path
    ensures r.None? ==> forall k :: 0 <= k < |files| ==> files[k].path != path
  {
    if |files| == 0 then None
    else if files[0].path == path then Some(0)
    else
      match PathIndex(files[1..], path)
      case None => None
      case Some(k) => Some(k + 1)
  }

  /** A file appended after files of other paths is found at the end. */
  lemma {:induction false} PathIndexOfAppended(files: seq<ServerFile>, e: ServerFile)
    requires forall k :: 0 <= k < |files| ==> files[k].path != e.path
    ensures PathIndex(files + [e], e.path) == Some(|files|)
    decreases |files|
  {
    if |files| > 0 {
      assert (files + [e])[1..] == files[1..] + [e];
      assert (files + [e])[0] == files[0];
      PathIndexOfAppended(files[1..], e);
    }
  }

  /** The outcome of `AddFile`: the new state, the entry returned and the events sent. */
  datatype AddResult = AddResult(state: ServerState, entry: ServerFile, events: seq<ServerEvent>)

  /** The groups after `entry` is appended to the group called `name`, which is created if missing. */
  function AppendToGroup(groups: seq<ServerGroup>, name: string, entry: ServerFile): (r: seq<ServerGroup>)
    ensures GroupIndex(r, name).Some?
    ensures FilesOf(r, name) == FilesOf(groups, name) + [entry]
    ensures forall other :: other != name ==> FilesOf(r, other) == FilesOf(groups, other)
    ensures GroupIndex(groups, name).None? ==> r == groups + [ServerGroup(name, [entry])]
    ensures GroupIndex(groups, name).Some? ==>
      var i := GroupIndex(groups, name).value;
      r == groups[i := ServerGroup(name, groups[i].files + [entry])]
  {
    match GroupIndex(groups, name)
    case None =>
      var g := ServerGroup(name, [entry]);
      GroupIndexAppend(groups, g, name);
      forall other | other != name ensures GroupIndex(groups + [g], other) == GroupIndex(groups, other) {
        GroupIndexAppend(groups, g, other);
      }
      groups + [g]
    case Some(i) =>
      var g := ServerGroup(name, groups[i].files + [entry]);
      GroupIndexUpdate(groups, i, g, name);
      forall other | other != name ensures GroupIndex(groups[i := g], other) == GroupIndex(groups, other) {
        GroupIndexUpdate(groups, i, g, other);
      }
      groups[i := g]
  }

  /**
   * `AddFile`: a path already listed in the group returns the listed entry
   * and changes nothing, sending no event. Otherwise the group is created if
   * missing, the path gets the next id and is appended last under its base
   * name, the counter goes up by one, the other groups are untouched and an
   * `update` event is sent.
   */
  function AddFile(s: ServerState, absPath: string, groupName: string): (r: AddResult)
    ensures r.events == [] <==> exists k :: 0 <= k < |GroupFiles(s, groupName)| && GroupFiles(s, groupName)[k].path == absPath
    ensures r.events == [] ==> r.state == s && r.entry in GroupFiles(s, groupName) && r.entry.path == absPath
    ensures r.events != [] ==>
      && r.events == [ServerEvent(UpdateEventName, EmptyObject)]
      && r.entry == ServerFile(BaseName(absPath), s.nextId, absPath)
      && r.state.nextId == s.nextId + 1
      && GroupFiles(r.state, groupName) == GroupFiles(s, groupName) + [r.entry]
    ensures forall name :: name != groupName ==> GroupFiles(r.state, name) == GroupFiles(s, name)
  {
    var files := GroupFiles(s, groupName);
    match PathIndex(files, absPath)
    case Some(k) => AddResult(s, files[k], [])
    case None =>
      var entry := ServerFile(BaseName(absPath), s.nextId, absPath);
      AddResult(ServerState(AppendToGroup(s.groups, groupName, entry), s.nextId + 1), entry, [ServerEvent(UpdateEventName, EmptyObject)])
  }

  /** Adding the same path to the same group again returns the same entry and changes nothing. */
  lemma AddFileTwice(s: ServerState, absPath: string, groupName: string)
    ensures
      var first := AddFile(s, absPath, groupName);
      AddFile(first.state, absPath, groupName) == AddResult(first.state, first.entry, [])
  {
    var first := AddFile(s, absPath, groupName);
    if first.events != [] {
      PathIndexOfAppended(GroupFiles(s, groupName), first.entry);
    } else {
      var files := GroupFiles(s, groupName);
      var k := PathIndex(files, absPath).value;
      assert first.entry == files[k];
    }
  }

  /** Once a file has been added, its group exists. */
  lemma AddFileCreatesGroup(s: ServerState, absPath: string, groupName: string)
    ensures GroupIndex(AddFile(s, absPath, groupName).state.groups, groupName).Some?
  {
    var r := AddFile(s, absPath, groupName);
    if r.events == [] {
      assert |GroupFiles(s, groupName)| > 0;
    }
  }

  // ------------------------------------------------------ invariant upkeep

  /** The entry `AddFile` creates has an id above every id in use. */
  lemma NewIdIsFresh(s: ServerState, absPath: string, groupName: string)
    requires Wf(s)
    requires AddFile(s, absPath, groupName).events != []
    ensures forall f :: InGroups(s.groups, f) ==> f.id < AddFile(s, absPath, groupName).entry.id
  {
  }

  /** A new group holding one fresh file keeps the invariant. */
  lemma NewGroupKeepsWf(s: ServerState, name: string, e: ServerFile)
    requires Wf(s)
    requires GroupIndex(s.groups, name).None?
    requires e.id == s.nextId
    ensures Wf(ServerState(s.groups + [ServerGroup(name, [e])], s.nextId + 1))
  {
    var gs := s.groups + [ServerGroup(name, [e])];
    assert forall i :: 0 <= i < |s.groups| ==> gs[i] == s.groups[i];
    assert forall i, f :: 0 <= i < |gs| && f in gs[i].files ==> (i < |s.groups| && f.id < s.nextId) || f == e;
  }

  /** A group with one more file, whose path it did not list and whose id is above its others. */
  lemma ExtendedGroupWf(g: ServerGroup, e: ServerFile)
    requires GroupWf(g)
    requires forall j :: 0 <= j < |g.files| ==> g.files[j].path != e.path && g.files[j].id < e.id
    ensures GroupWf(ServerGroup(g.name, g.files + [e]))
  {
    var fs := g.files + [e];
    forall a, b | 0 <= a < b < |fs| ensures fs[a].id < fs[b].id && fs[a].path != fs[b].path {
      assert fs[a] == g.files[a];
      if b < |g.files| {
        assert fs[b] == g.files[b];
      }
    }
  }

  /** A fresh file at the end of an existing group, whose paths it does not repeat, keeps the invariant. */
  lemma ExtendedGroupKeepsWf(s: ServerState, k: nat, e: ServerFile)
    requires Wf(s) && k < |s.groups|
    requires forall j :: 0 <= j < |s.groups[k].files| ==> s.groups[k].files[j].path != e.path
    requires e.id == s.nextId
    ensures Wf(ServerState(s.groups[k := ServerGroup(s.groups[k].name, s.groups[k].files + [e])], s.nextId + 1))
  {
    var gs := s.groups[k := ServerGroup(s.groups[k].name, s.groups[k].files + [e])];
    assert forall j :: 0 <= j < |s.groups[k].files| ==> s.groups[k].files[j] in s.groups[k].files;
    ExtendedGroupWf(s.groups[k], e);
    ExtendedGroupIds(s.groups, k, e, s.nextId);
    assert DistinctNames(gs);
    assert forall i :: 0 <= i < |gs| ==> GroupWf(gs[i]);
  }

  /** Ids stay below the raised counter and unshared across groups. */
  lemma ExtendedGroupIds(groups: seq<ServerGroup>, k: nat, e: ServerFile, nextId: int)
    requires k < |groups| && nextId >= 1 && IdsBelow(groups, nextId) && CrossUnique(groups)
    requires e.id == nextId
    ensures IdsBelow(groups[k := ServerGroup(groups[k].name, groups[k].files + [e])], nextId + 1)
    ensures CrossUnique(groups[k := ServerGroup(groups[k].name, groups[k].files + [e])])
  {
    var gs := groups[k := ServerGroup(groups[k].name, groups[k].files + [e])];
    assert forall f :: f in gs[k].files ==> f in groups[k].files || f == e;
    forall i, f | 0 <= i < |gs| && f in gs[i].files
      ensures (f in groups[i].files && 1 <= f.id < nextId) || (i == k && f == e)
    {
      if i != k {
        assert gs[i] == groups[i];
      }
    }
    forall i, j, f, g | 0 <= i < |gs| && 0 <= j < |gs| && i != j && f in gs[i].files && g in gs[j].files
      ensures f.id != g.id
    {
      if f in groups[i].files && g in groups[j].files {
        assert CrossUnique(groups);
      }
    }
  }

  /** `AddFile` keeps the catalog invariant. */
  lemma AddFilePreservesWf(s: ServerState, absPath: string, groupName: string)
    requires Wf(s)
    ensures Wf(AddFile(s, absPath, groupName).state)
  {
    var r := AddFile(s, absPath, groupName);
    if r.events != [] {
      match GroupIndex(s.groups, groupName)
      case None => NewGroupKeepsWf(s, groupName, r.entry);
      case Some(k) => ExtendedGroupKeepsWf(s, k, r.entry);
    }
  }

  // ----------------------------------------------------------------- lookups

  /** `FindFile`: the first file with the id, in group order, or nothing. */
  function FindFile(s: ServerState, id: int): (r: Option<ServerFile>)
    ensures r.None? <==> !HasId(s, id)
    ensures r.Some? ==> InGroups(s.groups, r.value) && r.value.id == id
  {
    FirstWithId(AllFiles(s.groups), id)
  }

  function FirstWithId(fs: seq<ServerFile>, id: int): (r: Option<ServerFile>)
    ensures r.None? <==> forall f :: f in fs ==> f.id != id
    ensures r.Some? ==> r.value in fs && r.value.id == id
  {
    if |fs| == 0 then None
    else if fs[0].id == id then Some(fs[0])
    else FirstWithId(fs[1..], id)
  }

  /** `FindGroupForFile`: the name of a group holding the id, or `""` when none does. */
  function FindGroupForFile(s: ServerState, id: int): (r: string)
    ensures !HasId(s, id) ==> r == ""
    ensures HasId(s, id) ==> exists i, f :: 0 <= i < |s.groups| && f in s.groups[i].files && f.id == id && s.groups[i].name == r
  {
    GroupOfId(s.groups, id)
  }

  function GroupOfId(groups: seq<ServerGroup>, id: int): (r: string)
    ensures (forall f :: InGroups(groups, f) ==> f.id != id) ==> r == ""
    ensures (exists f :: InGroups(groups, f) && f.id == id) ==>
      exists i, f :: 0 <= i < |groups| && f in groups[i].files && f.id == id && groups[i].name == r
  {
    if |groups| == 0 then ""
    else if exists f :: f in groups[0].files && f.id == id then groups[0].name
    else
      var r := GroupOfId(groups[1..], id);
      assert forall i, f :: 0 <= i < |groups[1..]| && f in groups[1..][i].files ==> f in groups[i + 1].files;
      assert forall f :: InGroups(groups, f) && f !in groups[0].files ==> InGroups(groups[1..], f) by {
        forall f | InGroups(groups, f) && f !in groups[0].files ensures InGroups(groups[1..], f) {
          var i :| 0 <= i < |groups| && f in groups[i].files;
          assert groups[1..][i - 1] == groups[i];
        }
      }
      r
  }

  /** Two files of one group with the same id are the same file. */
  lemma SameGroupSameId(g: ServerGroup, f: ServerFile, h: ServerFile)
    requires GroupWf(g) && f in g.files && h in g.files && f.id == h.id
    ensures f == h
  {
    var a :| 0 <= a < |g.files| && g.files[a] == f;
    var b :| 0 <= b < |g.files| && g.files[b] == h;
    assert !(a < b) && !(b < a);
  }

  /** Files of two groups sharing an id lie in the same group. */
  lemma SameIdSameGroup(groups: seq<ServerGroup>, i: int, j: int, f: ServerFile, g: ServerFile)
    requires CrossUnique(groups)
    requires 0 <= i < |groups| && 0 <= j < |groups| && f in groups[i].files && g in groups[j].files
    requires f.id == g.id
    ensures i == j
  {
  }

  /** With distinct names, a group's name finds that group. */
  lemma IndexOfNamed(groups: seq<ServerGroup>, i: int)
    requires DistinctNames(groups) && 0 <= i < |groups|
    ensures GroupIndex(groups, groups[i].name) == Some(i)
  {
  }

  /** Two files with one id, one in group `i` and one in group `j`, are one file of one group, found by its name. */
  lemma SameIdSameFile(s: ServerState, i: int, j: int, f: ServerFile, g: ServerFile)
    requires Wf(s)
    requires 0 <= i < |s.groups| && 0 <= j < |s.groups| && f in s.groups[j].files && g in s.groups[i].files
    requires f.id == g.id
    ensures f in GroupFiles(s, s.groups[i].name)
  {
    SameIdSameGroup(s.groups, i, j, g, f);
    SameGroupSameId(s.groups[i], f, g);
    IndexOfNamed(s.groups, i);
  }

  /** With the invariant, the file `FindFile` finds lies in the group `FindGroupForFile` names. */
  lemma FindFileInNamedGroup(s: ServerState, id: int)
    requires Wf(s) && HasId(s, id)
    ensures FindFile(s, id).value in GroupFiles(s, FindGroupForFile(s, id))
  {
    var f := FindFile(s, id).value;
    var name := FindGroupForFile(s, id);
    var i, g, j := GroupWitnesses(s, id);
    SameIdSameFile(s, i, j, f, g);
  }

  /** Where the two lookups found their answers. */
  lemma GroupWitnesses(s: ServerState, id: int) returns (i: int, g: ServerFile, j: int)
    requires HasId(s, id)
    ensures 0 <= i < |s.groups| && g in s.groups[i].files && g.id == id && s.groups[i].name == FindGroupForFile(s, id)
    ensures 0 <= j < |s.groups| && FindFile(s, id).value in s.groups[j].files
  {
    i, g :| 0 <= i < |s.groups| && g in s.groups[i].files && g.id == id && s.groups[i].name == FindGroupForFile(s, id);
    j :| 0 <= j < |s.groups| && FindFile(s, id).value in s.groups[j].files;
  }

  /** `findIDsByPath`: the ids of every file with that path, in any group. */
  function FindIdsByPath(s: ServerState, path: string): (r: seq<int>)
    ensures forall id :: id in r <==> exists f :: InGroups(s.groups, f) && f.path == path && f.id == id
  {
    IdsWithPath(AllFiles(s.groups), path)
  }

  function IdsWithPath(fs: seq<ServerFile>, path: string): (r: seq<int>)
    ensures forall id :: id in r <==> exists f :: f in fs && f.path == path && f.id == id
  {
    if |fs| == 0 then []
    else
      var rest := IdsWithPath(fs[1..], path);
      assert forall f :: f in fs <==> f == fs[0] || f in fs[1..];
      if fs[0].path == path then [fs[0].id] + rest else rest
  }

  /** A file of a named group is in the catalog. */
  lemma GroupFilesInCatalog(s: ServerState, name: string, f: ServerFile)
    requires f in GroupFiles(s, name)
    ensures InGroups(s.groups, f)
  {
  }

  /**
   * De-duplication is per group: the same path added to two groups gets two
   * different ids, and a change to the file reaches both.
   */
  lemma SamePathInTwoGroups(s: ServerState, path: string, g1: string, g2: string)
    requires Wf(s) && g1 != g2
    requires GroupFiles(s, g1) == [] && GroupFiles(s, g2) == []
    ensures
      var r1 := AddFile(s, path, g1);
      var r2 := AddFile(r1.state, path, g2);
      && r1.entry.id != r2.entry.id
      && r1.entry.id in FindIdsByPath(r2.state, path)
      && r2.entry.id in FindIdsByPath(r2.state, path)
  {
    var r1 := AddFile(s, path, g1);
    var r2 := AddFile(r1.state, path, g2);
    assert GroupFiles(r1.state, g2) == [];
    assert GroupFiles(r2.state, g1) == [r1.entry];
    assert GroupFiles(r2.state, g2) == [r2.entry];
    GroupFilesInCatalog(r2.state, g1, r1.entry);
    GroupFilesInCatalog(r2.state, g2, r2.entry);
  }

  // --------------------------------------------------------------- requests

  /** The group of an add request: an empty name means the default group. */
  function AddRequestGroup(group: string): (r: string)
    ensures r != ""
    ensures group != "" ==> r == group
    ensures group == "" ==> r == Groups.DefaultGroup
  {
    if group == "" then Groups.DefaultGroup else group
  }

  /** The body of an add request: a path (made absolute by the handler) and a group name, possibly empty. */
  datatype AddRequest = AddRequest(path: string, group: string)

  /**
   * `handleAddFile` once the path is absolute: a path with no file behind
   * it (`fileExists` stands for `os.Stat`) is refused; otherwise the file
   * is added to the requested group, the default one when none is named.
   */
  function HandleAdd(s: ServerState, req: AddRequest, fileExists: string -> bool): (r: Option<AddResult>)
    ensures r.None? <==> !fileExists(req.path)
    ensures r.Some? ==> r.value.entry.path == req.path && r.value.entry in GroupFiles(r.value.state, AddRequestGroup(req.group))
    ensures r.Some? ==> forall name :: name != AddRequestGroup(req.group) ==> GroupFiles(r.value.state, name) == GroupFiles(s, name)
  {
    if !fileExists(req.path) then None
    else Some(AddFile(s, req.path, AddRequestGroup(req.group)))
  }

  /** The paths of a list of files. */
  function Paths(files: seq<ServerFile>): (r: set<string>)
    ensures forall p :: p in r <==> exists k :: 0 <= k < |files| && files[k].path == p
  {
    set k | 0 <= k < |files| :: files[k].path
  }

  /** After an add the group lists the added path besides every path it listed before. */
  lemma AddFileListsPath(s: ServerState, absPath: string, groupName: string)
    ensures Paths(GroupFiles(AddFile(s, absPath, groupName).state, groupName)) == Paths(GroupFiles(s, groupName)) + {absPath}
  {
    var r := AddFile(s, absPath, groupName);
    var before := GroupFiles(s, groupName);
    if r.events != [] {
      assert GroupFiles(r.state, groupName) == before + [r.entry];
      PathsSnoc(before, r.entry);
    } else {
      assert r.state == s;
      var k :| 0 <= k < |before| && before[k].path == absPath;
      assert absPath in Paths(before);
    }
  }

  /** Appending an entry adds exactly its path. */
  lemma PathsSnoc(files: seq<ServerFile>, e: ServerFile)
    ensures Paths(files + [e]) == Paths(files) + {e.path}
  {
    var after := files + [e];
    assert forall k :: 0 <= k < |files| ==> after[k] == files[k];
    assert after[|files|] == e;
  }

  /** The answer to an open-relative request. */
  datatype OpenResult =
    | SourceNotFound                 // 404: the linking file is unknown
    | TargetNotFound(path: string)   // 404: nothing at the resolved path
    | Opened(result: AddResult)

  /**
   * `handleOpenFile`: the link is resolved against the directory of the
   * linking file (`dir`, and `joinClean` for `filepath.Clean(filepath.Join(..))`),
   * the target must exist (`fileExists` for `os.Stat`), and it is added to
   * the linking file's group, or to the default group when that lookup gives
   * the empty name.
   */
  function OpenRelative(
    s: ServerState, fileId: int, reqPath: string,
    dir: string -> string, joinClean: (string, string) -> string, fileExists: string -> bool): (r: OpenResult)
    ensures r.SourceNotFound? <==> !HasId(s, fileId)
    ensures r.TargetNotFound? <==> HasId(s, fileId) && !fileExists(joinClean(dir(FindFile(s, fileId).value.path), reqPath))
    ensures r.Opened? ==>
      var target := joinClean(dir(FindFile(s, fileId).value.path), reqPath);
      var group := if FindGroupForFile(s, fileId) == "" then Groups.DefaultGroup else FindGroupForFile(s, fileId);
      && r.result.entry.path == target
      && r.result.entry in GroupFiles(r.result.state, group)
  {
    match FindFile(s, fileId)
    case None => SourceNotFound
    case Some(source) =>
      var target := joinClean(dir(source.path), reqPath);
      if !fileExists(target) then TargetNotFound(target)
      else
        var group := FindGroupForFile(s, fileId);
        var group' := if group == "" then Groups.DefaultGroup else group;
        Opened(AddFile(s, target, group'))
  }

  /**
   * A relative link that opens is an add request for the resolved path,
   * naming the linking file's group: the same file, state and events as
   * `handleAddFile` would give.
   */
  lemma OpenRelativeIsAdd(
    s: ServerState, fileId: int, reqPath: string,
    dir: string -> string, joinClean: (string, string) -> string, fileExists: string -> bool)
    requires HasId(s, fileId)
    ensures
      var target := joinClean(dir(FindFile(s, fileId).value.path), reqPath);
      var added := HandleAdd(s, AddRequest(target, FindGroupForFile(s, fileId)), fileExists);
      && (OpenRelative(s, fileId, reqPath, dir, joinClean, fileExists).Opened? <==> added.Some?)
      && (added.Some? ==> OpenRelative(s, fileId, reqPath, dir, joinClean, fileExists) == Opened(added.value))
  {
  }

  // --------------------------------------------------------------- raw files

  /** What a raw-file request gets. */
  datatype RawResult =
    | FileNotFound          // 404: unknown id
    | AccessDenied          // 403: outside the document's directory
    | Serve(path: string)   // the file at this path is served

  /** The check as written: the cleaned path merely starts with the directory's text. */
  predicate AllowedAsWritten(absPath: string, baseDir: string) {
    StartsWith(absPath, baseDir)
  }

  /**
   * The check as intended: the path is the directory itself or lies below
   * it, i.e. continues with a separator (a directory ending in a separator,
   * the root, already supplies it).
   */
  predicate Allowed(absPath: string, baseDir: string) {
    absPath == baseDir ||
    StartsWith(absPath, if EndsWith(baseDir, "/") then baseDir else baseDir + "/")
  }

  /** `handleFileRaw` as written. */
  function RawAccessAsWritten(
    s: ServerState, id: int, relPath: string,
    dir: string -> string, joinClean: (string, string) -> string): (r: RawResult)
    ensures r.FileNotFound? <==> !HasId(s, id)
    ensures r.Serve? ==> r.path == joinClean(dir(FindFile(s, id).value.path), relPath)
    ensures r.Serve? <==> HasId(s, id) && AllowedAsWritten(joinClean(dir(FindFile(s, id).value.path), relPath), dir(FindFile(s, id).value.path))
  {
    match FindFile(s, id)
    case None => FileNotFound
    case Some(entry) =>
      var base := dir(entry.path);
      var absPath := joinClean(base, relPath);
      if !AllowedAsWritten(absPath, base) then AccessDenied else Serve(absPath)
  }

  /** `handleFileRaw` with the directory check as intended. */
  function RawAccess(
    s: ServerState, id: int, relPath: string,
    dir: string -> string, joinClean: (string, string) -> string): (r: RawResult)
    ensures r.FileNotFound? <==> !HasId(s, id)
    ensures r.Serve? ==> r.path == joinClean(dir(FindFile(s, id).value.path), relPath)
    ensures r.Serve? <==> HasId(s, id) && Allowed(joinClean(dir(FindFile(s, id).value.path), relPath), dir(FindFile(s, id).value.path))
    ensures r.Serve? && IsCleanDir(dir(FindFile(s, id).value.path)) ==> WithinDir(r.path, dir(FindFile(s, id).value.path))
  {
    match FindFile(s, id)
    case None => FileNotFound
    case Some(entry) =>
      var base := dir(entry.path);
      var absPath := joinClean(base, relPath);
      if !Allowed(absPath, base) then AccessDenied
      else if IsCleanDir(base) then
        AllowedIsWithin(absPath, base);
        Serve(absPath)
      else Serve(absPath)
  }

  /** The intended check never serves what the check as written refuses. */
  lemma RawAccessStricter(
    s: ServerState, id: int, relPath: string,
    dir: string -> string, joinClean: (string, string) -> string)
    ensures RawAccess(s, id, relPath, dir, joinClean).Serve? ==>
      RawAccessAsWritten(s, id, relPath, dir, joinClean) == RawAccess(s, id, relPath, dir, joinClean)
  {
    if RawAccess(s, id, relPath, dir, joinClean).Serve? {
      var base := dir(FindFile(s, id).value.path);
      var absPath := joinClean(base, relPath);
      if absPath != base && !EndsWith(base, "/") {
        PrefixOfPrefix(absPath, base + "/", base);
      }
    }
  }

  lemma PrefixOfPrefix(h: string, p: string, t: string)
    requires StartsWith(h, p) && StartsWith(p, t)
    ensures StartsWith(h, t)
  {
    assert h[..|t|] == p[..|t|];
  }

  /** A directory as Go's `filepath.Dir` returns it: the root, or a path without a trailing separator. */
  predicate IsCleanDir(base: string) {
    base == "/" || !EndsWith(base, "/")
  }

  /** The `/`-separated elements of a path (a leading `/` gives an empty first element). */
  function Elements(p: string): (r: seq<string>)
    ensures |r| >= 1
    decreases |p|
  {
    if |p| == 0 then [""]
    else
      var rest := Elements(p[1..]);
      if p[0] == '/' then [""] + rest else [[p[0]] + rest[0]] + rest[1..]
  }

  /** The path lies in the directory: the root, or a directory whose elements begin the path's elements. */
  predicate WithinDir(p: string, base: string) {
    base == "/" || (|Elements(base)| <= |Elements(p)| && Elements(p)[..|Elements(base)|] == Elements(base))
  }

  /** Joining with a separator concatenates the elements. */
  lemma {:induction false} ElementsJoin(a: string, b: string)
    ensures Elements(a + "/" + b) == Elements(a) + Elements(b)
    decreases |a|
  {
    if |a| == 0 {
      assert a + "/" + b == "/" + b;
      assert ("/" + b)[1..] == b;
    } else {
      assert (a + "/" + b)[1..] == a[1..] + "/" + b;
      ElementsJoin(a[1..], b);
    }
  }

  /** A path without separators is a single element. */
  lemma {:induction false} ElementsOfName(p: string)
    requires '/' !in p
    ensures Elements(p) == [p]
    decreases |p|
  {
    if |p| > 0 {
      assert '/' !in p[1..];
      ElementsOfName(p[1..]);
      assert p == [p[0]] + p[1..];
    }
  }

  /** The intended check admits only paths within the directory. */
  lemma AllowedIsWithin(absPath: string, base: string)
    requires Allowed(absPath, base)
    requires IsCleanDir(base)
    ensures WithinDir(absPath, base)
  {
    if base != "/" && absPath != base {
      var rest := absPath[|base| + 1..];
      assert absPath == base + "/" + rest;
      ElementsJoin(base, rest);
    }
  }

  /**
   * A sibling directory whose name extends the directory's name passes the
   * text-prefix test but is not within the directory.
   */
  lemma SiblingEscapes(d: string, suffix: string, x: string)
    requires d != "" && suffix != ""
    requires '/' !in d && '/' !in suffix && '/' !in x
    ensures AllowedAsWritten("/" + d + suffix + "/" + x, "/" + d)
    ensures !WithinDir("/" + d + suffix + "/" + x, "/" + d)
    ensures !Allowed("/" + d + suffix + "/" + x, "/" + d)
  {
    var base := "/" + d;
    var p := "/" + d + suffix + "/" + x;
    assert p == base + (suffix + "/" + x);
    assert p[..|base|] == base;
    assert p[|base|] == suffix[0];
    assert !StartsWith(p, base + "/") by {
      assert p[..|base| + 1][|base|] != (base + "/")[|base|];
    }
    RootedElements(d, []);
    SiblingElements(d, suffix, x);
    assert Elements(p)[..|Elements(base)|][1] != Elements(base)[1] by {
      assert |d + suffix| != |d|;
    }
  }

  /** The elements of a file in a sibling directory whose name extends the directory's. */
  lemma SiblingElements(d: string, suffix: string, x: string)
    requires '/' !in d && '/' !in suffix && '/' !in x
    ensures Elements("/" + d + suffix + "/" + x) == ["", d + suffix, x]
  {
    var a := d + suffix;
    NoSlashConcat(d, suffix);
    RootedElements(a, [x]);
    assert "/" + d + suffix == "/" + a;
  }

  /** The elements of `/a` and of `/a/b` for names `a` and `b`. */
  lemma RootedElements(a: string, rest: seq<string>)
    requires '/' !in a
    requires |rest| <= 1 && (|rest| == 1 ==> '/' !in rest[0])
    ensures |rest| == 0 ==> Elements("/" + a) == ["", a]
    ensures |rest| == 1 ==> Elements("/" + a + "/" + rest[0]) == ["", a, rest[0]]
  {
    ElementsOfName("");
    ElementsOfName(a);
    if |rest| == 0 {
      assert "/" + a == "" + "/" + a;
      ElementsJoin("", a);
    } else {
      var b := rest[0];
      ElementsOfName(b);
      ElementsJoin(a, b);
      assert "/" + a + "/" + b == "" + "/" + (a + "/" + b);
      ElementsJoin("", a + "/" + b);
    }
  }

  lemma NoSlashConcat(a: string, b: string)
    requires '/' !in a && '/' !in b
    ensures '/' !in a + b
  {
    assert forall i :: 0 <= i < |a + b| ==> (a + b)[i] in a || (a + b)[i] in b;
  }

  /**
   * The check as written serves a file of a sibling directory: for a
   * document in `/docs`, the raw path `../docs-secret/x` cleans to
   * `/docs-secret/x`, which starts with the text `/docs` but lies outside
   * `/docs`. The intended check refuses it.
   */
  lemma RawAccessSiblingEscape(dir: string -> string, joinClean: (string, string) -> string)
    requires dir("/docs/readme.md") == "/docs"
    requires joinClean("/docs", "../docs-secret/x") == "/docs-secret/x"
    ensures
      var s := ServerState([ServerGroup(Groups.DefaultGroup, [ServerFile("readme.md", 1, "/docs/readme.md")])], 2);
      && RawAccessAsWritten(s, 1, "../docs-secret/x", dir, joinClean) == Serve("/docs-secret/x")
      && !WithinDir("/docs-secret/x", "/docs")
      && RawAccess(s, 1, "../docs-secret/x", dir, joinClean) == AccessDenied
  {
    var s := ServerState([ServerGroup(Groups.DefaultGroup, [ServerFile("readme.md", 1, "/docs/readme.md")])], 2);
    var f := ServerFile("readme.md", 1, "/docs/readme.md");
    assert AllFiles(s.groups) == [f] by {
      assert s.groups[1..] == [];
    }
    assert FindFile(s, 1) == Some(f);
    assert "/docs-secret/x" == "/" + "docs" + "-secret" + "/" + "x";
    assert "/docs" == "/" + "docs";
    SiblingEscapes("docs", "-secret", "x");
  }
}

=== FILE: sse.dfy ===
/**
 * The server-sent-events hook: which callback an event becomes, what a
 * connection error does, and how the callbacks reach the catalog state.
 * The browser's `EventSource` is reduced to the events it delivers; the
 * callbacks are identified by the render that supplied them, so that
 * "the most recent callbacks" can be stated.
 */
module Sse {
  import opened Wrappers
  import Server
  import App
  import Groups

  /** The payload of a `file-changed` event once `JSON.parse` has run: a parse failure, or the value of its `id` field (`None` when it is not a number). */
  datatype Payload = Malformed | Parsed(id: Option<int>)

  /** What reaches the hook. */
  datatype Incoming =
    | Message(name: string, data: Payload)  // a named server-sent event
    | ConnectionError                       // the `error` handler
    | TimerFired                            // a retry scheduled by an error is due
    | Unmount                               // the effect's cleanup

  /** The callbacks of one render: its number, and whether it supplied `onFileChanged`. */
  datatype Callbacks = Callbacks(render: nat, hasFileChanged: bool)

  /** A call the hook makes, tagged with the render whose callback it uses. */
  datatype Call = CallUpdate(render: nat) | CallFileChanged(render: nat, id: Option<int>)

  /**
   * The hook's state: whether the connection is open, the callbacks held in
   * the ref (always the latest render's) and the retries scheduled but not
   * yet due.
   */
  datatype SseState = SseState(open: bool, current: Callbacks, pendingRetries: nat)

  const RetryDelayMs := 2000

  /** The state after the first render: one connection, opened once. */
  function Mount(callbacks: Callbacks): (s: SseState)
    ensures s.open && s.current == callbacks && s.pendingRetries == 0
  {
    SseState(true, callbacks, 0)
  }

  /** Every render stores its callbacks in the ref; the connection is not reopened. */
  function Rerender(s: SseState, callbacks: Callbacks): (t: SseState)
    ensures t.current == callbacks && t.open == s.open && t.pendingRetries == s.pendingRetries
  {
    s.(current := callbacks)
  }

  /** The outcome of one step. */
  datatype StepResult = StepResult(state: SseState, calls: seq<Call>)

  /**
   * One step of the hook. An open connection turns an `update` event into
   * one `onUpdate` call and a well-formed `file-changed` event into one
   * `onFileChanged` call when that callback was supplied; a malformed
   * payload and events of other names are ignored. An error closes the
   * connection and schedules one retry; a due retry calls `onUpdate`. A
   * closed connection delivers nothing.
   */
  function Step(s: SseState, e: Incoming): (r: StepResult)
    ensures r.state.current == s.current
    ensures !s.open ==> !r.state.open
    ensures e.Message? ==> r.state == s && |r.calls| <= 1
    ensures e.Message? && r.calls != [] ==> s.open
    ensures e.Message? && e.name == Server.UpdateEventName && s.open ==> r.calls == [CallUpdate(s.current.render)]
    ensures e.Message? && e.name == Server.FileChangedEventName ==>
      (r.calls != [] <==> s.open && e.data.Parsed? && s.current.hasFileChanged)
    ensures e.Message? && e.name == Server.FileChangedEventName && r.calls != [] ==>
      r.calls == [CallFileChanged(s.current.render, e.data.id)]
    ensures e.Message? && e.name != Server.UpdateEventName && e.name != Server.FileChangedEventName ==> r.calls == []
    ensures e.ConnectionError? && s.open ==>
      r.calls == [] && !r.state.open && r.state.pendingRetries == s.pendingRetries + 1
    ensures e.ConnectionError? && !s.open ==> r == StepResult(s, [])
    ensures e.TimerFired? ==> r.state.open == s.open
    ensures e.TimerFired? && s.pendingRetries == 0 ==> r == StepResult(s, [])
    ensures e.TimerFired? && s.pendingRetries > 0 ==>
      r.calls == [CallUpdate(s.current.render)] && r.state.pendingRetries == s.pendingRetries - 1
    ensures e.Unmount? ==> !r.state.open && r.calls == [] && r.state.pendingRetries == s.pendingRetries
  {
    match e
    case Message(name, data) =>
      if !s.open then StepResult(s, [])
      else if name == Server.UpdateEventName then StepResult(s, [CallUpdate(s.current.render)])
      else if name == Server.FileChangedEventName then
        match data
        case Malformed => StepResult(s, [])
        case Parsed(id) =>
          if s.current.hasFileChanged then StepResult(s, [CallFileChanged(s.current.render, id)])
          else StepResult(s, [])
      else StepResult(s, [])
    case ConnectionError =>
      if s.open then StepResult(s.(open := false, pendingRetries := s.pendingRetries + 1), [])
      else StepResult(s, [])
    case TimerFired =>
      if s.pendingRetries == 0 then StepResult(s, [])
      else StepResult(s.(pendingRetries := s.pendingRetries - 1), [CallUpdate(s.current.render)])
    case Unmount => StepResult(s.(open := false), [])
  }

  /**
   * A sequence of steps, with the calls made in order: the callbacks stay
   * those of the render that mounted, a closed connection stays closed, and
   * every call goes to the mounted render's callbacks.
   */
  function Run(s: SseState, es: seq<Incoming>): (r: StepResult)
    ensures r.state.current == s.current
    ensures !s.open ==> !r.state.open
    ensures forall c :: c in r.calls ==> c.render == s.current.render
    decreases |es|
  {
    if |es| == 0 then StepResult(s, [])
    else
      var first := Step(s, es[0]);
      var rest := Run(first.state, es[1..]);
      StepResult(rest.state, first.calls + rest.calls)
  }

  /**
   * Once the connection is closed it stays closed, nothing it would have
   * delivered is acted on, and the only calls left are the scheduled
   * retries, each an `onUpdate`, at most one per retry.
   */
  lemma {:induction false} ClosedStaysClosed(s: SseState, es: seq<Incoming>)
    requires !s.open
    ensures !Run(s, es).state.open
    ensures |Run(s, es).calls| <= s.pendingRetries
    ensures forall c :: c in Run(s, es).calls ==> c.CallUpdate?
    decreases |es|
  {
    if |es| > 0 {
      var first := Step(s, es[0]);
      ClosedStaysClosed(first.state, es[1..]);
      assert first.state.pendingRetries + |first.calls| <= s.pendingRetries;
    }
  }

  /**
   * After an error the hook never reconnects: whatever follows, the one
   * retry it scheduled is the only call it can still make.
   */
  lemma ErrorThenAnything(s: SseState, es: seq<Incoming>)
    requires s.open && s.pendingRetries == 0
    ensures var r := Run(s, [ConnectionError] + es);
      && !r.state.open
      && |r.calls| <= 1
      && forall c :: c in r.calls ==> c.CallUpdate?
  {
    var first := Step(s, ConnectionError);
    assert ([ConnectionError] + es)[1..] == es;
    ClosedStaysClosed(first.state, es);
  }

  /**
   * A retry scheduled before the component unmounts still fires: the
   * cleanup closes the connection but does not cancel the timer, so the
   * unmounted hook makes one more `onUpdate` call.
   */
  lemma RetryOutlivesUnmount(s: SseState)
    requires s.open && s.pendingRetries == 0
    ensures Run(s, [ConnectionError, Unmount, TimerFired]).calls == [CallUpdate(s.current.render)]
  {
    var es := [ConnectionError, Unmount, TimerFired];
    assert es[1..] == [Unmount, TimerFired] && es[1..][1..] == [TimerFired] && es[1..][1..][1..] == [];
  }

  /** The number of `update` messages in a sequence of events. */
  function UpdateCount(es: seq<Incoming>): nat
    decreases |es|
  {
    if |es| == 0 then 0
    else (if es[0].Message? && es[0].name == Server.UpdateEventName then 1 else 0) + UpdateCount(es[1..])
  }

  /**
   * A freshly mounted hook keeps its one connection while only messages
   * arrive, and every call it makes goes to the first render's callbacks,
   * at least one `onUpdate` per `update` event.
   */
  lemma MountListens(callbacks: Callbacks, es: seq<Incoming>)
    requires forall i :: 0 <= i < |es| ==> es[i].Message?
    ensures Run(Mount(callbacks), es).state == Mount(callbacks)
    ensures forall c :: c in Run(Mount(callbacks), es).calls ==> c.render == callbacks.render
    ensures |Run(Mount(callbacks), es).calls| >= UpdateCount(es)
  {
    MessagesKeepState(Mount(callbacks), es);
  }

  /** Messages never change the hook's state, and each `update` message on an open connection makes a call. */
  lemma {:induction false} MessagesKeepState(s: SseState, es: seq<Incoming>)
    requires s.open
    requires forall i :: 0 <= i < |es| ==> es[i].Message?
    ensures Run(s, es).state == s
    ensures |Run(s, es).calls| >= UpdateCount(es)
    decreases |es|
  {
    if |es| > 0 {
      MessagesKeepState(s, es[1..]);
    }
  }

  /** A retry uses the callbacks current when it fires, not those of the render that scheduled it. */
  lemma RetryUsesLatestCallbacks(s: SseState, later: Callbacks)
    requires s.open
    ensures
      var afterError := Step(s, ConnectionError).state;
      Step(Rerender(afterError, later), TimerFired).calls == [CallUpdate(later.render)]
  {
  }

  /** Any event is dispatched to the callbacks of the latest render. */
  lemma DispatchUsesLatestCallbacks(s: SseState, callbacks: Callbacks, e: Incoming)
    ensures forall c :: c in Step(Rerender(s, callbacks), e).calls ==> c.render == callbacks.render
  {
  }

  // ------------------------------------------------------------ end to end

  /** The event the browser receives for one the server sends: the payload is parsed as JSON. */
  function Receive(e: Server.ServerEvent): (m: Incoming)
    ensures m.Message? && m.name == e.name && m.data.Parsed?
    ensures e.data.FileIdObject? <==> m.data.id.Some?
    ensures e.data.FileIdObject? ==> m.data.id == Some(e.data.id)
  {
    match e.data
    case EmptyObject => Message(e.name, Parsed(None))
    case FileIdObject(id) => Message(e.name, Parsed(Some(id)))
  }

  /**
   * What the viewer's callbacks do with a call: `onUpdate` reloads the
   * catalog (`fetched` is the outcome of that request) and `onFileChanged`
   * bumps the revision of the shown document.
   */
  function Perform(a: App.AppState, c: Call, fetched: Option<seq<Groups.Group>>): (t: App.AppState)
    ensures c.CallUpdate? ==> t == App.Refresh(a, fetched)
    ensures c.CallFileChanged? ==> t.activeFileId == a.activeFileId && t.groups == a.groups
    ensures c.CallFileChanged? ==> (t.revision == a.revision + 1 <==> c.id.Some? && a.activeFileId == c.id)
  {
    match c
    case CallUpdate(_) => App.Refresh(a, fetched)
    case CallFileChanged(_, id) => App.OnFileChanged(a, id)
  }

  /** Adding a new file on the server makes an open client reload its catalog exactly once. */
  lemma AddFileReloadsOnce(server: Server.ServerState, path: string, group: string, s: SseState)
    requires s.open
    requires Server.AddFile(server, path, group).events != []
    ensures
      var events := Server.AddFile(server, path, group).events;
      Run(s, [Receive(events[0])]).calls == [CallUpdate(s.current.render)]
  {
    var events := Server.AddFile(server, path, group).events;
    assert events[0].name == Server.UpdateEventName;
  }

  /**
   * A change to the shown file, announced by the server, bumps the viewer's
   * revision; a change to any other file leaves the viewer as it is.
   */
  lemma FileChangeReachesViewer(s: SseState, a: App.AppState, id: int, fetched: Option<seq<Groups.Group>>)
    requires s.open && s.current.hasFileChanged
    ensures
      var calls := Step(s, Receive(Server.ServerEvent(Server.FileChangedEventName, Server.FileIdObject(id)))).calls;
      && |calls| == 1
      && (Perform(a, calls[0], fetched).revision == a.revision + 1 <==> a.activeFileId == Some(id))
      && (a.activeFileId != Some(id) ==> Perform(a, calls[0], fetched) == a)
  {
  }
}

=== FILE: text.dfy ===
/**
 * String helpers shared by the client and the server models: prefix and
 * suffix tests, splitting at a separator, decimal rendering of integers
 * (JavaScript's `String(n)`, Go's `%d`) and JavaScript's `parseInt(s, 10)`.
 */
module Text {
  import opened Wrappers

  predicate StartsWith(s: string, prefix: string) {
    |prefix| <= |s| && s[..|prefix|] == prefix
  }

  predicate EndsWith(s: string, suffix: string) {
    |suffix| <= |s| && s[|s| - |suffix|..] == suffix
  }

  /** Position of the first `c` in `s`, or `|s|` when there is none. */
  function IndexOf(s: string, c: char): (r: nat)
    ensures r <= |s|
    ensures forall i :: 0 <= i < r ==> s[i] != c
    ensures r < |s| ==> s[r] == c
  {
    if |s| == 0 || s[0] == c then 0 else 1 + IndexOf(s[1..], c)
  }

  /** The text before the first `c`: JavaScript's `s.split(c)[0]`. */
  function BeforeFirst(s: string, c: char): (r: string)
    ensures StartsWith(s, r)
    ensures c !in r
    ensures |r| == |s| || s[|r|] == c
  {
    var k := IndexOf(s, c);
    assert forall i :: 0 <= i < k ==> s[..k][i] == s[i];
    s[..k]
  }

  /** Splitting `a + b` at `c` gives `a` back when `a` has no `c` and `b` starts with one. */
  lemma BeforeFirstOfJoin(a: string, b: string, c: char)
    requires c !in a && |b| > 0 && b[0] == c
    ensures BeforeFirst(a + b, c) == a
  {
    var s := a + b;
    var k := IndexOf(s, c);
    assert forall i :: 0 <= i < |a| ==> s[i] == a[i] && a[i] in a;
    assert s[|a|] == c;
    assert k == |a|;
    assert s[..k] == a;
  }

  /** A string without `c` is its own text before the first `c`. */
  lemma BeforeFirstAbsent(s: string, c: char)
    requires c !in s
    ensures BeforeFirst(s, c) == s
  {
    var k := IndexOf(s, c);
    assert forall i :: 0 <= i < |s| ==> s[i] != c;
    assert s[..|s|] == s;
  }

  /**
   * The text after the last `c`: JavaScript's `s.split(c).pop()`, which is
   * the whole string when `c` does not occur and empty when `s` ends in `c`.
   */
  function LastSegment(s: string, c: char): (r: string)
    ensures EndsWith(s, r)
    ensures c !in r
    ensures |r| == |s| || s[|s| - |r| - 1] == c
  {
    if |s| == 0 || s[|s| - 1] == c then ""
    else LastSegment(s[..|s| - 1], c) + [s[|s| - 1]]
  }

  /** The last segment of `a + [c] + n` is `n` when `n` has no `c`. */
  lemma {:induction false} LastSegmentOfJoin(a: string, c: char, n: string)
    requires c !in n
    ensures LastSegment(a + [c] + n, c) == n
    decreases |n|
  {
    var s := a + [c] + n;
    if |n| == 0 {
      assert s[|s| - 1] == c;
    } else {
      var front := n[..|n| - 1];
      assert s[..|s| - 1] == a + [c] + front;
      assert s[|s| - 1] == n[|n| - 1] != c;
      assert c !in front by {
        forall k | 0 <= k < |front| ensures front[k] != c {
          assert front[k] == n[k];
        }
      }
      LastSegmentOfJoin(a, c, front);
      assert front + [n[|n| - 1]] == n;
    }
  }

  /** Two joins at a separator their tails lack agree only when both parts agree. */
  lemma JoinAtSeparatorInjective(a: string, n: string, b: string, m: string, c: char)
    requires c !in n && c !in m
    requires a + [c] + n == b + [c] + m
    ensures a == b && n == m
  {
    LastSegmentOfJoin(a, c, n);
    LastSegmentOfJoin(b, c, m);
    assert a == (a + [c] + n)[..|a|];
    assert b == (b + [c] + m)[..|b|];
  }

  // ---------------------------------------------------------------- digits

  predicate IsDigit(c: char) {
    '0' <= c <= '9'
  }

  function DigitChar(d: nat): (c: char)
    requires d < 10
    ensures IsDigit(c)
  {
    "0123456789"[d]
  }

  function DigitValue(c: char): (d: nat)
    requires IsDigit(c)
    ensures d < 10
  {
    (c as int - '0' as int) as nat
  }

  lemma DigitRoundTrip(d: nat)
    requires d < 10
    ensures DigitValue(DigitChar(d)) == d
  {
  }

  predicate AllDigits(s: string) {
    forall i :: 0 <= i < |s| ==> IsDigit(s[i])
  }

  /** The number a string of decimal digits denotes (most significant first). */
  function DigitsValue(s: string): nat
    requires AllDigits(s)
  {
    if |s| == 0 then 0 else DigitsValue(s[..|s| - 1]) * 10 + DigitValue(s[|s| - 1])
  }

  /** Decimal rendering of a natural number, without leading zeros. */
  function NatToString(n: nat): (r: string)
    ensures |r| >= 1 && AllDigits(r)
    ensures |r| > 1 ==> r[0] != '0'
    ensures DigitsValue(r) == n
  {
    if n < 10 then
      DigitRoundTrip(n);
      [DigitChar(n)]
    else
      var front := NatToString(n / 10);
      var r := front + [DigitChar(n % 10)];
      assert r[..|r| - 1] == front;
      DigitRoundTrip(n % 10);
      r
  }

  /** Decimal rendering of an integer with a leading `-` when negative. */
  function IntToString(i: int): (r: string)
    ensures |r| >= 1
    ensures i >= 0 ==> AllDigits(r) && DigitsValue(r) == i
    ensures i < 0 ==> r[0] == '-' && AllDigits(r[1..]) && DigitsValue(r[1..]) == -i
    ensures i >= 0 && |r| > 1 ==> r[0] != '0'
    ensures i < 0 ==> |r| >= 2 && (|r| > 2 ==> r[1] != '0')
  {
    if i < 0 then "-" + NatToString(-i) else NatToString(i)
  }

  // ------------------------------------------------------------- parseInt

  /** The characters JavaScript's `parseInt` skips before the number: white space and line terminators. */
  predicate IsJsWhiteSpace(c: char) {
    || c == '\t' || c == '\n' || c == '\U{000B}' || c == '\U{000C}' || c == '\r'
    || c == ' ' || c == '\U{00A0}' || c == '\U{1680}'
    || ('\U{2000}' <= c <= '\U{200A}')
    || c == '\U{2028}' || c == '\U{2029}' || c == '\U{202F}' || c == '\U{205F}'
    || c == '\U{3000}' || c == '\U{FEFF}'
  }

  function TrimStart(s: string): (r: string)
    ensures EndsWith(s, r)
    ensures |r| > 0 ==> !IsJsWhiteSpace(r[0])
    ensures forall i :: 0 <= i < |s| - |r| ==> IsJsWhiteSpace(s[i])
  {
    if |s| > 0 && IsJsWhiteSpace(s[0]) then TrimStart(s[1..]) else s
  }

  /** The longest prefix of `s` made of decimal digits. */
  function DigitPrefix(s: string): (r: string)
    ensures StartsWith(s, r) && AllDigits(r)
    ensures |r| == |s| || !IsDigit(s[|r|])
  {
    if |s| > 0 && IsDigit(s[0]) then
      var rest := DigitPrefix(s[1..]);
      assert ([s[0]] + rest)[1..] == rest;
      [s[0]] + rest
    else ""
  }

  /**
   * JavaScript's `parseInt(s, 10)`: skip leading white space, read an
   * optional sign and the longest run of digits after it; `None` stands for
   * `NaN` (no digit at all). Trailing garbage is ignored (`"300px"` gives 300).
   */
  function ParseInt(s: string): (r: Option<int>)
  {
    var t := TrimStart(s);
    var negative := |t| > 0 && t[0] == '-';
    var unsigned := if |t| > 0 && (t[0] == '-' || t[0] == '+') then t[1..] else t;
    var digits := DigitPrefix(unsigned);
    if |digits| == 0 then None
    else if negative then Some(-(DigitsValue(digits) as int))
    else Some(DigitsValue(digits))
  }

  /**
   * What `ParseInt` reads: a string of digits is read as its value, and a
   * string that starts with something other than white space, a sign or a
   * digit, or that holds no digit at all, reads as `NaN`.
   */
  lemma ParseIntReadsDigits(s: string)
    ensures s != "" && AllDigits(s) ==> ParseInt(s) == Some(DigitsValue(s))
    ensures |s| > 0 && !IsDigit(s[0]) && !IsJsWhiteSpace(s[0]) && s[0] != '-' && s[0] != '+' ==> ParseInt(s).None?
    ensures (forall i :: 0 <= i < |s| ==> !IsDigit(s[i])) ==> ParseInt(s).None?
  {
    if s != "" && AllDigits(s) {
      ReadsAllDigits(s);
    }
    ReadsNoDigit(s);
  }

  /** A non-empty run of digits is read whole. */
  lemma ReadsAllDigits(s: string)
    requires s != "" && AllDigits(s)
    ensures ParseInt(s) == Some(DigitsValue(s))
  {
    assert IsDigit(s[0]);
    assert !IsJsWhiteSpace(s[0]);
    assert TrimStart(s) == s;
    assert s[0] != '-' && s[0] != '+';
    DigitPrefixOfDigits(s);
  }

  /** No digit where the number must start means `NaN`. */
  lemma ReadsNoDigit(s: string)
    ensures |s| > 0 && !IsDigit(s[0]) && !IsJsWhiteSpace(s[0]) && s[0] != '-' && s[0] != '+' ==> ParseInt(s).None?
    ensures (forall i :: 0 <= i < |s| ==> !IsDigit(s[i])) ==> ParseInt(s).None?
  {
    var t := TrimStart(s);
    var unsigned := if |t| > 0 && (t[0] == '-' || t[0] == '+') then t[1..] else t;
    var digits := DigitPrefix(unsigned);
    SuffixOfSuffix(s, t, unsigned);
    if |digits| > 0 {
      SuffixStart(s, unsigned);
      assert IsDigit(s[|s| - |unsigned|]);
    }
  }

  lemma SuffixOfSuffix(s: string, t: string, u: string)
    requires EndsWith(s, t) && EndsWith(t, u)
    ensures EndsWith(s, u)
  {
    assert s[|s| - |u|..] == s[|s| - |t|..][|t| - |u|..];
  }

  lemma SuffixStart(s: string, u: string)
    requires EndsWith(s, u) && |u| > 0
    ensures s[|s| - |u|] == u[0]
  {
    assert s[|s| - |u|..][0] == u[0];
  }

  lemma DigitPrefixOfDigits(s: string)
    requires AllDigits(s)
    ensures DigitPrefix(s) == s
  {
    if |s| > 0 {
      DigitPrefixOfDigits(s[1..]);
    }
  }

  /** Parsing what `IntToString` renders gives the number back: what is stored is what is read. */
  lemma ParseIntRoundTrip(i: int)
    ensures ParseInt(IntToString(i)) == Some(i)
  {
    var s := IntToString(i);
    assert !IsJsWhiteSpace(s[0]);
    assert TrimStart(s) == s;
    if i < 0 {
      assert s[1..] == NatToString(-i);
      DigitPrefixOfDigits(s[1..]);
    } else {
      DigitPrefixOfDigits(s);
    }
  }

  /** Distinct integers render differently. */
  lemma IntToStringInjective(a: int, b: int)
    requires IntToString(a) == IntToString(b)
    ensures a == b
  {
    ParseIntRoundTrip(a);
    ParseIntRoundTrip(b);
  }
}

=== FILE: viewer.dfy ===
/**
 * The document viewer's decisions: what a code element becomes, which
 * attributes a link is rendered with, when a link click opens another
 * document, which fetch results are applied, and what one render publishes
 * to the table of contents.
 */
module Viewer {
  import opened Wrappers
  import opened Text
  import opened Resolve
  import opened Headings
  import NodeText

  // ------------------------------------------------------------------- code

  /** Fenced code text with at most one final newline removed (`/\n$/`). */
  function StripTrailingNewline(code: string): (r: string)
    ensures EndsWith(code, "\n") ==> code == r + "\n"
    ensures !EndsWith(code, "\n") ==> r == code
  {
    if |code| > 0 && code[|code| - 1] == '\n' then
      assert code == code[..|code| - 1] + "\n";
      code[..|code| - 1]
    else code
  }

  /** Only one newline goes: a block ending in a blank line keeps one newline. */
  lemma StripRemovesOneNewline(s: string)
    ensures StripTrailingNewline(s + "\n") == s
    ensures StripTrailingNewline(s + "\n\n") == s + "\n"
  {
    assert s + "\n\n" == (s + "\n") + "\n";
  }

  /** What a `code` element is rendered as. */
  datatype CodeView =
    | Diagram(source: string)
    | Highlighted(language: string, source: string)
    | Inline(className: Option<string>, text: string)

  const DiagramLanguage := "mermaid"

  /**
   * The `code` component: a class name with a language tag makes a block,
   * a diagram for `mermaid` and a highlighted block otherwise, both on the
   * text without its final newline; without a tag the element stays inline
   * code with its class name and text untouched.
   */
  function CodeDispatch(className: Option<string>, text: string): (v: CodeView)
    ensures v.Inline? <==> ExtractLanguage(className).None?
    ensures v.Inline? ==> v.className == className && v.text == text
    ensures v.Diagram? <==> ExtractLanguage(className) == Some(DiagramLanguage)
    ensures v.Highlighted? ==> Some(v.language) == ExtractLanguage(className) && v.language != DiagramLanguage
    ensures !v.Inline? ==> v.source == StripTrailingNewline(text)
  {
    match ExtractLanguage(className)
    case None => Inline(className, text)
    case Some(language) =>
      if language == DiagramLanguage then Diagram(StripTrailingNewline(text))
      else Highlighted(language, StripTrailingNewline(text))
  }

  /** A fenced `python` block is highlighted and loses its final newline. */
  lemma CodeDispatchExample()
    ensures CodeDispatch(Some("foo language-python bar"), "x = 1\n") == Highlighted("python", "x = 1")
    ensures CodeDispatch(None, "x") == Inline(None, "x")
  {
    ExtractLanguageExample();
    ExtractLanguageAbsent();
    assert "x = 1\n"[..5] == "x = 1";
  }

  // ------------------------------------------------------------------ links

  /**
   * The attributes of a rendered link: `href`, `target` and `rel`, and the
   * path handed to the click handler when there is one.
   */
  datatype Anchor = Anchor(href: Option<string>, target: Option<string>, rel: Option<string>, onClick: Option<string>)

  const NewTab := "_blank"
  const NoOpener := "noopener noreferrer"

  /**
   * The `target` and `rel` an anchor carries itself. Raw HTML in a document
   * can give a link its own attributes, and the component spreads them after
   * the ones it sets, so they win.
   */
  datatype OwnAttrs = OwnAttrs(target: Option<string>, rel: Option<string>)

  /** A markdown link, or an HTML anchor with neither attribute. */
  const NoOwnAttrs := OwnAttrs(None, None)

  /**
   * The `a` component: external links open in a new tab without an opener,
   * file links point at the raw URL, and only markdown links get a click
   * handler, which receives the path without its fragment. Every other link
   * keeps its href. An anchor's own `target` or `rel` replaces the one the
   * component would set.
   */
  function LinkAttrs(href: Option<string>, fileId: int, own: OwnAttrs): (a: Anchor)
    ensures own.target.Some? ==> a.target == own.target
    ensures own.rel.Some? ==> a.rel == own.rel
    ensures own.target.None? ==>
      (a.target.Some? <==> ResolveLink(href, fileId).External?) && (a.target.Some? ==> a.target == Some(NewTab))
    ensures own.rel.None? ==>
      (a.rel.Some? <==> ResolveLink(href, fileId).External?) && (a.rel.Some? ==> a.rel == Some(NoOpener))
    ensures a.onClick.Some? <==> ResolveLink(href, fileId).Markdown?
    ensures a.onClick.Some? ==> IsFragmentFree(href.value, a.onClick.value)
    ensures ResolveLink(href, fileId).File? ==> a.href == Some(RawUrl(fileId, href.value))
    ensures !ResolveLink(href, fileId).File? ==> a.href == href
  {
    var base := match ResolveLink(href, fileId)
      case External => Anchor(href, Some(NewTab), Some(NoOpener), None)
      case Hash => Anchor(href, None, None, None)
      case Markdown(path) => Anchor(href, None, None, Some(path))
      case File(rawUrl) => Anchor(Some(rawUrl), None, None, None)
      case Passthrough => Anchor(href, None, None, None);
    base.(target := if own.target.Some? then own.target else base.target,
         rel := if own.rel.Some? then own.rel else base.rel)
  }

  /** Without attributes of its own, a link opens in a new tab, without an opener, exactly when it is external. */
  lemma NewTabExactlyExternal(href: Option<string>, fileId: int)
    ensures LinkAttrs(href, fileId, NoOwnAttrs).target == Some(NewTab) <==> ResolveLink(href, fileId).External?
    ensures LinkAttrs(href, fileId, NoOwnAttrs).rel == Some(NoOpener) <==> ResolveLink(href, fileId).External?
  {
  }

  /**
   * Raw-HTML anchors decide for themselves: `<a href="https://x" target="_self">`
   * stays in the tab, and `<a href="#s" target="_blank">` opens a new one
   * without `noopener noreferrer`.
   */
  lemma OwnTargetWins()
    ensures LinkAttrs(Some("https://x"), 1, OwnAttrs(Some("_self"), None)).target == Some("_self")
    ensures ResolveLink(Some("#s"), 1).Hash?
    ensures LinkAttrs(Some("#s"), 1, OwnAttrs(Some(NewTab), None)) == Anchor(Some("#s"), Some(NewTab), None, None)
  {
    assert "#s"[0] == '#';
    assert !IsHttpUrl("#s");
  }

  /** The click handler's test: a `.md` path that is not an absolute http(s) URL. */
  predicate OpensDocument(path: string) {
    EndsWith(path, ".md") && !IsHttpUrl(path)
  }

  /** What a click on a markdown link does. */
  datatype ClickEffect =
    | Ignored                      // the browser follows the link
    | Handled(document: Option<int>) // default prevented; the opened document, if the request succeeded

  /**
   * `handleLinkClick`: when the path passes the test the default navigation
   * is prevented and the document the server returns for it (`response`,
   * `None` when the request fails) is opened; a failure opens nothing.
   */
  function LinkClick(path: string, response: Option<int>): (e: ClickEffect)
    ensures e.Ignored? <==> !OpensDocument(path)
    ensures e.Handled? ==> e.document == response
  {
    if !EndsWith(path, ".md") then Ignored
    else if IsHttpUrl(path) then Ignored
    else Handled(response)
  }

  /** A string starts with whatever its prefixes start with. */
  lemma PrefixKeepsStart(h: string, p: string, t: string)
    requires StartsWith(h, p) && StartsWith(p, t)
    ensures StartsWith(h, t)
  {
    assert h[..|t|] == p[..|p|][..|t|];
  }

  /**
   * Every click handler the `a` component installs passes the handler's own
   * test: the handler never lets a markdown link fall through.
   */
  lemma MarkdownLinksAreHandled(href: Option<string>, fileId: int, own: OwnAttrs, response: Option<int>)
    requires LinkAttrs(href, fileId, own).onClick.Some?
    ensures LinkClick(LinkAttrs(href, fileId, own).onClick.value, response) == Handled(response)
  {
    var h := href.value;
    var p := LinkAttrs(href, fileId, own).onClick.value;
    assert IsFragmentFree(h, p);
    if StartsWith(p, "http://") {
      PrefixKeepsStart(h, p, "http://");
    }
    if StartsWith(p, "https://") {
      PrefixKeepsStart(h, p, "https://");
    }
  }

  // ---------------------------------------------------------- document state

  const LoadFailedMessage := "Failed to load file."

  /**
   * The viewer's state. `generation` counts the fetch effects started so
   * far: the effect numbered `generation` is the only one not cancelled.
   * `headingsKey` is the key of the outline published last.
   */
  datatype ViewerState = ViewerState(
    content: string,
    loading: bool,
    isRaw: bool,
    generation: nat,
    headingsKey: string)

  function InitialViewer(): ViewerState {
    ViewerState("", true, false, 0, "")
  }

  /**
   * The fetch effect runs again when the document id or the revision
   * changes: the running fetch is cancelled and a new one starts.
   */
  function StartFetch(s: ViewerState): (t: ViewerState)
    ensures t == s.(loading := true, generation := t.generation)
    ensures t.generation > s.generation
  {
    s.(loading := true, generation := s.generation + 1)
  }

  /**
   * A fetch started as effect `generation` settles with `result` (`None` on
   * failure). A cancelled effect changes nothing; the current one shows the
   * content, or the failure message, and stops loading.
   */
  function FetchSettled(s: ViewerState, generation: nat, result: Option<string>): (t: ViewerState)
    ensures generation != s.generation ==> t == s
    ensures generation == s.generation ==>
      && t == s.(content := t.content, loading := false)
      && t.content == (if result.Some? then result.value else LoadFailedMessage)
  {
    if generation != s.generation then s
    else
      match result
      case Some(text) => s.(content := text, loading := false)
      case None => s.(content := LoadFailedMessage, loading := false)
  }

  /**
   * A fetch that settles after a newer one started is discarded, however
   * the two settle in time: only the newer one's result is ever shown.
   */
  lemma StaleFetchDiscarded(s: ViewerState, earlier: Option<string>, later: Option<string>)
    ensures
      var t := StartFetch(s);
      && FetchSettled(t, s.generation, earlier) == t
      && FetchSettled(FetchSettled(t, s.generation, earlier), t.generation, later) == FetchSettled(t, t.generation, later)
      && FetchSettled(FetchSettled(t, t.generation, later), s.generation, earlier) == FetchSettled(t, t.generation, later)
  {
  }

  /** The source toggle flips the view and does not fetch again. */
  function ToggleRaw(s: ViewerState): (t: ViewerState)
    ensures t.isRaw != s.isRaw
    ensures t == s.(isRaw := t.isRaw)
  {
    s.(isRaw := !s.isRaw)
  }

  /**
   * Toggling the view does not cancel the running fetch: its result lands
   * whether the toggle came before or after it, and toggling twice
   * restores the state.
   */
  lemma ToggleRawKeepsFetch(s: ViewerState, generation: nat, result: Option<string>)
    ensures FetchSettled(ToggleRaw(s), generation, result) == ToggleRaw(FetchSettled(s, generation, result))
    ensures ToggleRaw(ToggleRaw(s)) == s
  {
  }

  /** What one render of the document does for the table of contents. */
  datatype RenderResult = RenderResult(state: ViewerState, published: Option<seq<TocHeading>>)

  /**
   * One render followed by the publish effect, as written: the headings the
   * renderer met are collected (none in the raw view) and passed on when
   * their `id:level` key differs from the one remembered. A change of
   * heading text alone is never passed on.
   */
  function Render(s: ViewerState, headings: seq<HeadingNode>): (r: RenderResult)
    ensures r.state == s.(headingsKey := r.state.headingsKey)
    ensures r.published.Some? ==> r.published.value == Outline(s.isRaw, CollectHeadings(headings))
    ensures r.published.None? <==> HeadingsKey(Outline(s.isRaw, CollectHeadings(headings))) == s.headingsKey
    ensures r.state.headingsKey == HeadingsKey(Outline(s.isRaw, CollectHeadings(headings)))
    ensures forall last :: s.headingsKey == HeadingsKey(last) && Shape(Outline(s.isRaw, CollectHeadings(headings))) == Shape(last) ==>
      r.published.None?
  {
    var outline := Outline(s.isRaw, CollectHeadings(headings));
    var p := PublishAsWritten(s.headingsKey, outline);
    assert forall last :: Shape(outline) == Shape(last) ==> HeadingsKey(outline) == HeadingsKey(last);
    RenderResult(s.(headingsKey := HeadingsKey(outline)), p.published)
  }

  /** Switching to the raw view publishes the empty outline when the document had headings. */
  lemma RawViewClearsOutline(s: ViewerState, last: seq<TocHeading>, headings: seq<HeadingNode>)
    requires s.isRaw && s.headingsKey == HeadingsKey(last) && last != []
    ensures Render(s, headings).published == Some([])
  {
  }

  /** Pressing the source toggle on a document with headings empties the table of contents at the next render. */
  lemma ToggleToRawClearsOutline(s: ViewerState, last: seq<TocHeading>, headings: seq<HeadingNode>)
    requires !s.isRaw && s.headingsKey == HeadingsKey(last) && last != []
    ensures Render(ToggleRaw(s), headings).published == Some([])
  {
    RawViewClearsOutline(ToggleRaw(s), last, headings);
  }

  /** Rendering the same document again publishes nothing. */
  lemma RerenderPublishesNothing(s: ViewerState, headings: seq<HeadingNode>)
    ensures Render(Render(s, headings).state, headings).published.None?
  {
  }

  /**
   * While no heading id holds a `,`, the viewer as written passes the
   * outline on exactly when its ids or levels differ from those of the
   * outline passed on last.
   */
  lemma RenderPublishesOnShapeChange(s: ViewerState, last: seq<TocHeading>, headings: seq<HeadingNode>)
    requires s.headingsKey == HeadingsKey(last)
    requires forall i :: 0 <= i < |last| ==> ',' !in last[i].id
    requires forall i :: 0 <= i < |headings| && headings[i].id.Some? ==> ',' !in headings[i].id.value
    ensures Render(s, headings).published.Some? <==>
      Shape(Outline(s.isRaw, CollectHeadings(headings))) != Shape(last)
  {
    var outline := Outline(s.isRaw, CollectHeadings(headings));
    forall i | 0 <= i < |outline| ensures ',' !in outline[i].id {
      assert outline[i] in CollectHeadings(headings);
      var j :| 0 <= j < |headings| && HasId(headings[j]) && outline[i] == Entry(headings[j]);
    }
    HeadingsKeySeparatesShapes(outline, last);
  }

  /**
   * The viewer as written misses an outline change: after an outline whose
   * one heading has id `a:1,b`, a document with headings `a` and `b` at
   * level 1 publishes nothing.
   */
  lemma RenderMissesCollision(s: ViewerState)
    requires !s.isRaw && s.headingsKey == HeadingsKey([TocHeading("a:1,b", "A", 1)])
    ensures
      var headings := [HeadingNode(1, Some("a"), NodeText.Str("A")), HeadingNode(1, Some("b"), NodeText.Str("B"))];
      && Shape(Outline(s.isRaw, CollectHeadings(headings))) != Shape([TocHeading("a:1,b", "A", 1)])
      && Render(s, headings).published.None?
  {
    HeadingsKeyCollision();
    var headings := [HeadingNode(1, Some("a"), NodeText.Str("A")), HeadingNode(1, Some("b"), NodeText.Str("B"))];
    assert headings[1..] == [headings[1]] && headings[1..][1..] == [];
    assert CollectHeadings(headings) == [TocHeading("a", "A", 1), TocHeading("b", "B", 1)];
  }

  /**
   * The render with the injective key: the collected outline is passed on
   * exactly when its ids or levels differ from those of the outline passed
   * on last.
   */
  function RenderCorrected(s: ViewerState, headings: seq<HeadingNode>): (r: RenderResult)
    ensures r.state == s.(headingsKey := r.state.headingsKey)
    ensures r.published.Some? ==> r.published.value == Outline(s.isRaw, CollectHeadings(headings))
    ensures forall last :: s.headingsKey == OutlineKey(last) ==>
      (r.published.Some? <==> Shape(Outline(s.isRaw, CollectHeadings(headings))) != Shape(last))
  {
    var outline := Outline(s.isRaw, CollectHeadings(headings));
    var p := Publish(s.headingsKey, outline);
    RenderResult(s.(headingsKey := p.key), p.published)
  }

  /** With the injective key the outline change the viewer as written misses is passed on. */
  lemma RenderCorrectedSeesCollision(s: ViewerState)
    requires !s.isRaw && s.headingsKey == OutlineKey([TocHeading("a:1,b", "A", 1)])
    ensures
      var headings := [HeadingNode(1, Some("a"), NodeText.Str("A")), HeadingNode(1, Some("b"), NodeText.Str("B"))];
      RenderCorrected(s, headings).published == Some([TocHeading("a", "A", 1), TocHeading("b", "B", 1)])
  {
    var headings := [HeadingNode(1, Some("a"), NodeText.Str("A")), HeadingNode(1, Some("b"), NodeText.Str("B"))];
    assert headings[1..] == [headings[1]] && headings[1..][1..] == [];
    assert CollectHeadings(headings) == [TocHeading("a", "A", 1), TocHeading("b", "B", 1)];
    PublishSeparatesCollision();
  }
}

=== FILE: wrappers.dfy ===
/** Optional values: stands for the source's `undefined`, `null` and `nil` results. */
module Wrappers {

  datatype Option<+T> = None | Some(value: T) {

    /** The wrapped value, or `default` when there is none. */
    function GetOr(default: T): T {
      match this
      case Some(v) => v
      case None => default
    }
  }
}
